=== FILE: README.md ===
# Mockly billing core in Dafny

Mockly sells subscriptions to a mock-interview product. This project models
its billing ledger and the state machines that drive it:

- subscriptions, invoices, payments, payment methods and outbox events, as
  immutable records with pure transition functions;
- the services that compose them: purchase and cancellation, payment
  schedule creation and replacement, the three payment webhooks, the
  past-due expiry sweep, the outbox retry loop, and the payment-method
  rules;
- the smaller pieces around them: login sessions and refresh-token
  rotation, the `Bearer ` header filter, payment-history paging, the
  product catalog's active-plan flag, the plan view's won price, and the
  interview-session counter.

The whole persistent state is one `Ledger` value (module `Ledgers`).
Subscriptions, users, plans and payment methods are sequences indexed by
their identity id. Invoices and payments are maps keyed by their
`inv_`/`pay_` string id. The payment provider's live schedules and charged
payments are sets. A service call returns a `Step`: the ledger as the call
leaves it, plus a `Result` carrying either a value or an API status
(RESOURCE_NOT_FOUND, BAD_REQUEST, FORBIDDEN, INTERNAL_SERVER_ERROR,
INVALID_TOKEN, EXPIRED_TOKEN).

Every call to the payment provider (PortOne) is a caller-supplied outcome,
`Done(value)` or `Fail`. Examples are a billing-key lookup, a charge,
creating or revoking a schedule, and a payment lookup. The verifier
therefore covers every success and failure branch. The clock, UUIDs, token
values and the token blacklist are inputs in the same way.

The files follow the source's structure:

- `common.dfy`, `time.dfy`, `sorting.dfy` hold shared types, Java date
  arithmetic and a stable sort.
- `plans.dfy`, `subscription.dfy`, `invoice.dfy`, `payment.dfy`,
  `payment_method.dfy`, `outbox.dfy`, `session.dfy`, `interview.dfy` are
  the entities.
- `ledger.dfy` is the state and the repository queries.
- `provider.dfy` is the provider's answers.
- `subscription_service.dfy`, `schedule_service.dfy`, `webhook.dfy`,
  `past_due.dfy`, `outbox_processor.dfy`, `payment_method_service.dfy`,
  `auth.dfy`, `jwt_filter.dfy`, `payment_query.dfy`, `products.dfy`,
  `plan_info.dfy` are the services.

## Model

| member | source | states |
|---|---|---|
| Subscriptions.PeriodEnd | src/main/java/app/mockly/domain/product/entity/Subscription.java:64-70 | A monthly period ends one calendar month after its start and a yearly one a year after it, strictly later in both cases; a lifetime period has no end |
| Subscriptions.Create | src/main/java/app/mockly/domain/product/entity/Subscription.java:48-54 | A new subscription is PENDING for the given user and plan, with no start, no period, no cancellation and no schedule |
| Subscriptions.Activate | src/main/java/app/mockly/domain/product/entity/Subscription.java:56-62 | Activation makes the subscription ACTIVE, starting it and its first period at the same instant and ending that period one cycle later; nothing else changes |
| Subscriptions.ActivateIgnoresPriorStatus | src/main/java/app/mockly/domain/product/entity/Subscription.java:56-62 | Activation has no guard on the prior status: a CANCELED or EXPIRED subscription is made ACTIVE just the same |
| Subscriptions.Cancel | src/main/java/app/mockly/domain/product/entity/Subscription.java:72-75 | Cancellation sets CANCELED and the cancellation instant; the period, start and schedule id are kept |
| Subscriptions.ExtendPeriod | src/main/java/app/mockly/domain/product/entity/Subscription.java:85-89 | Extending changes only the current period, to one cycle starting now; status, start and schedule id are kept |
| Subscriptions.SetScheduleId | src/main/java/app/mockly/domain/product/entity/Subscription.java:44-46 | Storing a schedule id changes that field only |
| Subscriptions.MarkAsPastDue | src/main/java/app/mockly/domain/payment/service/WebhookService.java:90 | Marking past due sets status PAST_DUE and changes nothing else (an assumed body, see Left out) |
| Subscriptions.Expire | src/main/java/app/mockly/domain/payment/scheduler/PastDueExpirationProcessor.java:42 | Expiring sets status EXPIRED and changes nothing else (an assumed body, see Left out) |
| Subscriptions.RunKeepsWf | src/main/java/app/mockly/domain/product/entity/Subscription.java:56-89 | Any sequence of activate, cancel, extend, schedule-id, past-due and expire steps, in any order, keeps a subscription well formed and keeps its id, user and plan |
| Subscriptions.ReachableActiveHasPeriodEnd | src/main/java/app/mockly/domain/product/entity/Subscription.java:56-70 | Every subscription that some sequence of steps after creation leaves ACTIVE on a monthly or yearly plan has started, and its current period ends after it starts |
| Time.PlusMonths | src/main/java/app/mockly/domain/product/entity/Subscription.java:66 | One month later is strictly later: the next month of the same year, or January of the next year after December, on the same day clamped to that month's length, at the same time of day |
| Time.PlusYears | src/main/java/app/mockly/domain/product/entity/Subscription.java:67 | One year later is strictly later: the same month of the next year, on the same day clamped to that month's length (29 February becomes 28 February), at the same time of day |
| Plans.CompareTo | src/main/java/app/mockly/domain/product/entity/SubscriptionPlan.java:42-44 | The decimal comparison is a sign, and it is zero exactly when the two values are numerically equal whatever their scales |
| Plans.FreeIffZeroAmount | src/main/java/app/mockly/domain/product/entity/SubscriptionPlan.java:42-44 | A plan is free exactly when its amount is numerically zero |
| Plans.RescaleKeepsValue | src/main/java/app/mockly/domain/product/entity/SubscriptionPlan.java:31-32 | Writing an amount with one more decimal place (ten times the unscaled digits) keeps it numerically equal |
| Plans.InsertPlan | src/main/java/app/mockly/domain/product/entity/SubscriptionPlan.java:13-21 | A plan is added exactly when no stored plan has its (product, cycle, currency) key or its id; otherwise the constraint violation is answered INTERNAL_SERVER_ERROR |
| Plans.InsertPreservesUnique | src/main/java/app/mockly/domain/product/entity/SubscriptionPlan.java:13-21 | Every accepted insert keeps the catalog free of two plans with the same (product, cycle, currency) |
| Plans.FindById | src/main/java/app/mockly/domain/product/service/SubscriptionService.java:63-64 | The plan found carries the requested id; nothing is found only when no plan has it |
| Plans.WithCycle | src/main/java/app/mockly/domain/product/repository/SubscriptionPlanRepository.java:10 | The result holds exactly the catalog's plans of the given billing cycle |
| Invoices.InvoiceId | src/main/java/app/mockly/domain/payment/entity/Invoice.java:68-71 | Every invoice id is `inv_` followed by the UUID |
| Invoices.InvoiceIdInjective | src/main/java/app/mockly/domain/payment/entity/Invoice.java:68-71 | Different UUIDs give different invoice ids |
| Invoices.Create | src/main/java/app/mockly/domain/payment/entity/Invoice.java:54-66 | A new invoice is PENDING, unpaid, for exactly the given subscription, amount, currency and period |
| Invoices.MarkAsPaid | src/main/java/app/mockly/domain/payment/entity/Invoice.java:73-76 | Paying sets PAID and the paid instant; subscription, amount, currency and period are kept |
| Invoices.MarkAsFailed | src/main/java/app/mockly/domain/payment/entity/Invoice.java:78-80 | Failing sets FAILED and leaves the paid instant and every term as they were |
| Payments.MethodTypeFrom | src/main/java/app/mockly/domain/payment/entity/PaymentMethodType.java:22-32 | A missing method maps to UNKNOWN; card, easy-pay and mobile map to their own type, each exactly when the method is of that kind; every other kind maps to UNKNOWN |
| Payments.PaymentId | src/main/java/app/mockly/domain/payment/entity/Payment.java:58-61 | Every payment id is `pay_` followed by the UUID, and different UUIDs give different ids |
| Payments.PaymentIdIsNoInvoiceId | src/main/java/app/mockly/domain/payment/entity/Payment.java:58-61 | A payment id can never collide with an invoice id, whatever the UUIDs |
| Payments.Create | src/main/java/app/mockly/domain/payment/entity/Payment.java:48-56 | A new payment is PENDING, linked to the given invoice with the given amount and currency, with no method, paid instant or failure reason |
| Payments.MarkAsPaid | src/main/java/app/mockly/domain/payment/entity/Payment.java:63-67 | Paying sets PAID, the method type and the paid instant; invoice, amount and currency are kept |
| Payments.MarkAsFailed | src/main/java/app/mockly/domain/payment/entity/Payment.java:69-72 | Failing sets FAILED and the reason; method, paid instant and terms are kept |
| Payments.Cancel | src/main/java/app/mockly/domain/payment/entity/Payment.java:74-76 | Canceling changes only the status, to CANCELED |
| PaymentMethods.Create | src/main/java/app/mockly/domain/payment/entity/PaymentMethod.java:52-60 | A new method is active, holds the given key and card, and is default exactly when asked to be |
| PaymentMethods.Deactivate | src/main/java/app/mockly/domain/payment/entity/PaymentMethod.java:40-42 | Deactivating clears only the active flag; the default flag and the key are kept |
| PaymentMethods.SetAsDefault | src/main/java/app/mockly/domain/payment/entity/PaymentMethod.java:44-46 | Only the default flag changes, to set |
| PaymentMethods.UnsetDefault | src/main/java/app/mockly/domain/payment/entity/PaymentMethod.java:48-50 | Only the default flag changes, to clear |
| PaymentMethods.Update | src/main/java/app/mockly/domain/payment/entity/PaymentMethod.java:62-67 | Updating replaces key, number and brand and reactivates; the default flag is kept |
| PaymentMethods.UpdatePreservesUniqueDefault | src/main/java/app/mockly/domain/payment/entity/PaymentMethod.java:62-67 | Reactivating a method keeps at most one active default per user, provided the method was not default or the user has no other active default |
| PaymentMethods.UpdateCanBreakUniqueDefault | src/main/java/app/mockly/domain/payment/entity/PaymentMethod.java:62-67 | Without that proviso, updating an inactive default method while another default is active leaves the user with two active defaults |
| Outbox.ScheduleCreate | src/main/java/app/mockly/domain/payment/entity/OutboxEvent.java:48-66 | A new event is a PENDING SCHEDULE_CREATE for the SUBSCRIPTION aggregate of the given id, with no retries and no reason, whose payload decodes to the subscription id and billing key |
| Outbox.PayloadRoundTrip | src/main/java/app/mockly/domain/payment/entity/OutboxEvent.java:48-75 | Decoding an encoded payload gives back the subscription id and billing key, for every key whatever characters it holds |
| Outbox.EscapeRoundTrip | src/main/java/app/mockly/domain/payment/entity/OutboxEvent.java:54 | A JSON-escaped string reads back to itself and ends exactly at its closing quote |
| Outbox.DigitsValueOfNatToString | src/main/java/app/mockly/domain/payment/entity/OutboxEvent.java:54 | The decimal digits written for a number read back to that number |
| Outbox.ExtractBillingKeyRoundTrip | src/main/java/app/mockly/domain/payment/entity/OutboxEvent.java:68-75 | The billing key read from a freshly created event is the key it was created with |
| Outbox.Truncate | src/main/java/app/mockly/domain/payment/entity/OutboxEvent.java:91-94 | A missing reason stays missing; a reason of at most 500 UTF-16 code units is kept whole, and a longer one is cut to its first 500 units |
| Outbox.Utf16RoundTrip | src/main/java/app/mockly/domain/payment/entity/OutboxEvent.java:91-94 | Every text encodes to UTF-16 code units that read back to the same text |
| Outbox.TruncateCanSplitAPair | src/main/java/app/mockly/domain/payment/entity/OutboxEvent.java:91-94 | A reason of one letter and 250 characters outside the Basic Multilingual Plane is 501 units long and is cut inside its last character, so the stored reason is no longer valid text |
| Outbox.MarkAsProcessed | src/main/java/app/mockly/domain/payment/entity/OutboxEvent.java:77-79 | Only the status changes, to PROCESSED |
| Outbox.MarkAsFailed | src/main/java/app/mockly/domain/payment/entity/OutboxEvent.java:81-84 | The event becomes FAILED with its reason truncated to at most 500 UTF-16 code units; identity, payload and retries are kept |
| Outbox.RecordRetryFailure | src/main/java/app/mockly/domain/payment/entity/OutboxEvent.java:86-89 | The retry count goes up by exactly one and the reason is replaced by the new one, cut to at most 500 UTF-16 code units; the status is kept |
| OutboxProcessor.Batch | src/main/java/app/mockly/domain/payment/scheduler/OutboxEventProcessor.java:27 | A run takes at most 20 events, all PENDING, oldest first; a PENDING event is left out only when the batch is already full of older ones |
| OutboxProcessor.ProcessOne | src/main/java/app/mockly/domain/payment/scheduler/OutboxEventProcessor.java:29-43 | Only SCHEDULE_CREATE events are dispatched; a success or another type leaves the event as it was; a failure counts a retry and records the reason; nothing is ever marked PROCESSED |
| OutboxProcessor.ProcessOutboxEvents | src/main/java/app/mockly/domain/payment/scheduler/OutboxEventProcessor.java:26-46 | Every batched event is processed with its own outcome, one failure not stopping the rest; events outside the batch are untouched |
| OutboxProcessor.RetryCeiling | src/main/java/app/mockly/domain/payment/scheduler/OutboxEventProcessor.java:19-43 | After k failed runs the retry count is min(k, 5); the event is FAILED exactly from the fifth failure on and PENDING before it |
| OutboxProcessor.FailingRuns | src/main/java/app/mockly/domain/payment/scheduler/OutboxEventProcessor.java:34-43 | Repeated failures never change an event's identity, aggregate or payload |
| ScheduleService.CreateSchedule | src/main/java/app/mockly/domain/product/service/PaymentScheduleService.java:28-64 | A PENDING invoice for the period and a PENDING payment for it are saved at the plan's price and currency; it succeeds exactly when the period start is present and the provider accepts, and then the subscription holds the new schedule id; a failure keeps the old one |
| ScheduleService.NextPeriodEnd | src/main/java/app/mockly/domain/product/service/PaymentScheduleService.java:105-111 | The next period ends one cycle after the current end; a lifetime plan gives no end; a missing current end fails for a recurring plan |
| ScheduleService.ReplaceSchedule | src/main/java/app/mockly/domain/product/service/PaymentScheduleService.java:66-103 | A failed revoke of an existing schedule fails with nothing written; a success bills the period that starts at the current end and swaps the revoked schedule for the new one; every failure keeps the subscription's old schedule id |
| ScheduleService.ReplaceScheduleLeavesRevokedId | src/main/java/app/mockly/domain/product/service/PaymentScheduleService.java:81-102 | When the revoke succeeds and the new schedule fails, the subscription still names the revoked schedule |
| ScheduleService.RevokeAndClear | src/main/java/app/mockly/domain/payment/scheduler/PastDueExpirationProcessor.java:50-56 | Revoking drops the subscription's schedule from the provider and clears its id; nothing else changes |
| ScheduleService.RevokeAndClearKeepsIdsLive | src/main/java/app/mockly/domain/payment/scheduler/PastDueExpirationProcessor.java:50-56 | After a revoke every stored schedule id still names a live schedule |
| ScheduleService.ReplaceScheduleClearing | src/main/java/app/mockly/domain/product/service/PaymentScheduleService.java:66-103 | The intended replacement: a revoked id is cleared at once, so a failure leaves no id or, after a failed revoke, the untouched one |
| ScheduleService.ReplaceScheduleClearingKeepsIdsLive | src/main/java/app/mockly/domain/product/service/PaymentScheduleService.java:66-103 | The intended replacement keeps every stored schedule id naming a live schedule, whatever the provider answers |
| ScheduleService.CreateScheduleKeepsIdsLive | src/main/java/app/mockly/domain/product/service/PaymentScheduleService.java:53-63 | Creating a schedule keeps every stored schedule id naming a live schedule |
| Webhooks.AdvanceAfterPaid | src/main/java/app/mockly/domain/payment/service/WebhookService.java:77-103 | A confirmed payment activates a PENDING subscription or renews an ACTIVE one, then schedules the next charge; a failed schedule leaves it PAST_DUE; one that already has a schedule, or any other status, is left alone |
| Webhooks.HandlePaid | src/main/java/app/mockly/domain/payment/service/WebhookService.java:46-104 | An unknown or already PAID payment is a no-op; only a failed provider lookup is an error; when the provider reports it paid with a key, the payment and invoice become PAID and the subscription advances, and nothing outside that chain changes |
| Webhooks.PaidIsIdempotent | src/main/java/app/mockly/domain/payment/service/WebhookService.java:54-57 | Once a paid webhook has been applied, redelivering it changes nothing, whatever the provider answers the second time |
| Webhooks.FirstPaymentLeavesNoPending | src/main/java/app/mockly/domain/payment/service/WebhookService.java:84-93 | A first payment confirmed by webhook leaves the subscription ACTIVE with a schedule or PAST_DUE, never PENDING |
| Webhooks.FailReason | src/main/java/app/mockly/domain/payment/service/WebhookService.java:119-129 | The reason is the provider's reason, else its PG message, else the fixed default |
| Webhooks.HandleFailed | src/main/java/app/mockly/domain/payment/service/WebhookService.java:106-144 | An unknown or already FAILED payment is a no-op; otherwise payment and invoice become FAILED with the reason, and an ACTIVE subscription becomes PAST_DUE while any other status is kept |
| Webhooks.FailedIsIdempotent | src/main/java/app/mockly/domain/payment/service/WebhookService.java:114-117 | Redelivering a failed webhook changes nothing |
| Webhooks.HandleCanceled | src/main/java/app/mockly/domain/payment/service/WebhookService.java:146-162 | An unknown or already CANCELED payment is a no-op; otherwise the payment and its subscription are canceled, the invoice and the schedule id are kept |
| Webhooks.CanceledIsIdempotent | src/main/java/app/mockly/domain/payment/service/WebhookService.java:154-157 | Redelivering a cancel webhook changes nothing |
| Webhooks.ProcessWebhook | src/main/java/app/mockly/domain/payment/service/WebhookService.java:34-44 | An unverifiable webhook is refused with BAD_REQUEST; the three transaction types go to their handlers and any other type is a no-op; an error never leaves a change behind |
| PastDue.Cutoff | src/main/java/app/mockly/domain/payment/scheduler/PastDueExpirationProcessor.java:21-29 | The cutoff lies exactly seven days before now |
| PastDue.SweepOne | src/main/java/app/mockly/domain/payment/scheduler/PastDueExpirationProcessor.java:39-47 | A PAST_DUE subscription last updated before the cutoff is expired with no schedule id, unless revoking its schedule fails; any other subscription is unchanged |
| PastDue.ExpireOne | src/main/java/app/mockly/domain/payment/scheduler/PastDueExpirationProcessor.java:41-56 | Expiring one subscription revokes its schedule, clears the id and sets EXPIRED; other subscriptions are unchanged |
| PastDue.ExpireOneKeepsIdsLive | src/main/java/app/mockly/domain/payment/scheduler/PastDueExpirationProcessor.java:50-56 | Expiring keeps every stored schedule id naming a live schedule |
| PastDue.ExpirePastDue | src/main/java/app/mockly/domain/payment/scheduler/PastDueExpirationProcessor.java:28-48 | Each subscription ends as its own sweep makes it, one failure not stopping the rest; the provider loses only the schedules of expired subscriptions; live schedule ids stay live |
| PaymentMethodService.GetCard | src/main/java/app/mockly/domain/payment/service/PaymentMethodService.java:104-120 | The card is the first method of a recognized key; an unrecognized key, an empty list or a first method that is not a card is BAD_REQUEST |
| Provider.FirstMethod | src/main/java/app/mockly/domain/payment/service/PaymentMethodService.java:109-114 | There is a first method exactly when the key is recognized and its list is present and non-empty |
| PaymentMethodService.ActiveDefaultsOf | src/main/java/app/mockly/domain/payment/service/PaymentMethodService.java:90-96 | The result lists exactly the user's active default methods, and there is at most one |
| PaymentMethodService.AddPaymentMethod | src/main/java/app/mockly/domain/payment/service/PaymentMethodService.java:36-55 | An unknown user is RESOURCE_NOT_FOUND, a bad card BAD_REQUEST and a card without brand INTERNAL_SERVER_ERROR, with nothing saved; otherwise one active method is appended, default exactly when the user had no active method |
| PaymentMethodService.FirstCardBecomesDefault | src/main/java/app/mockly/domain/payment/service/PaymentMethodService.java:45-48 | A user's first card becomes the default |
| PaymentMethodService.ListPaymentMethods | src/main/java/app/mockly/domain/payment/service/PaymentMethodService.java:57-62 | The list holds exactly the user's active methods, newest first |
| PaymentMethodService.DeletePaymentMethod | src/main/java/app/mockly/domain/payment/service/PaymentMethodService.java:65-80 | A missing, inactive or foreign method is RESOURCE_NOT_FOUND; the default of a user with an ACTIVE subscription is BAD_REQUEST; otherwise only that method is deactivated |
| PaymentMethodService.DefaultSurvivesDeleteWhileSubscribed | src/main/java/app/mockly/domain/payment/service/PaymentMethodService.java:69-73 | While a user holds an ACTIVE subscription, deleting never leaves them without the active default they had |
| PaymentMethodService.ClearDefault | src/main/java/app/mockly/domain/payment/service/PaymentMethodService.java:90-96 | After the old default is unset the user has no active default left, other users' methods are untouched and only default flags change |
| PaymentMethodService.MoveDefault | src/main/java/app/mockly/domain/payment/service/PaymentMethodService.java:90-98 | The target becomes the user's only active default; other users' methods and every active flag are kept |
| PaymentMethodService.SetDefaultPaymentMethod | src/main/java/app/mockly/domain/payment/service/PaymentMethodService.java:83-102 | It fails, with RESOURCE_NOT_FOUND, exactly when the method is not the user's active one; otherwise the method is the user's only active default afterwards |
| PaymentMethodService.SetDefaultIsIdempotent | src/main/java/app/mockly/domain/payment/service/PaymentMethodService.java:86-88 | Setting the same default twice is the same as setting it once |
| Ledgers.SingleResult | src/main/java/app/mockly/global/handler/GlobalExceptionHandler.java:53-61 | A single-row query gives nothing for no row, the row for one, and INTERNAL_SERVER_ERROR for several |
| Ledgers.ActiveMethodsOf | src/main/java/app/mockly/domain/product/service/SubscriptionService.java:150-151 | The result lists exactly the user's active methods, in id order |
| Ledgers.NoActiveMethods | src/main/java/app/mockly/domain/product/service/SubscriptionService.java:150-151 | A user none of whose methods is active gets nothing from the active-method lookup |
| Ledgers.AppendActiveMethod | src/main/java/app/mockly/domain/product/service/SubscriptionService.java:150-151 | Saving a new active method adds its position at the end of the active-method lookup's answer |
| Ledgers.SubscriptionOf | src/main/java/app/mockly/domain/payment/service/WebhookService.java:75 | A stored payment reaches a stored subscription through its invoice |
| Auth.FindUser | src/main/java/app/mockly/domain/auth/service/AuthService.java:50-59 | The user found is the first that matches the lookup; nothing is found only when no user matches |
| Auth.CreateUser | src/main/java/app/mockly/domain/auth/service/AuthService.java:107-114 | A taken email fails; otherwise exactly one user is appended and given the free plan |
| Auth.SessionFor | src/main/java/app/mockly/domain/auth/service/AuthService.java:61-62 | The session for the user and device is either an existing one of that user, or a new one appended when no session has that device; any failure is INTERNAL_SERVER_ERROR |
| Auth.StampAndCap | src/main/java/app/mockly/domain/auth/service/AuthService.java:64-69 | Stamping the token and capping the live sessions keeps every session's identity, user and device, and leaves other users' sessions unchanged |
| Auth.StampKeepsNewToken | src/main/java/app/mockly/domain/auth/service/AuthService.java:64-69 | The session just stamped keeps its new token through the cap |
| Auth.OpenSession | src/main/java/app/mockly/domain/auth/service/AuthService.java:61-69 | Login touches only the user's own sessions and never the blacklist |
| Auth.LoginReusesDeviceSession | src/main/java/app/mockly/domain/auth/service/AuthService.java:61-62 | Logging in again from a device that already has a session of the user adds no session |
| Auth.LoginLeavesSessionLive | src/main/java/app/mockly/domain/auth/service/AuthService.java:64-69 | After login the device's session holds the issued token, live, whatever the cap removed |
| Auth.Login | src/main/java/app/mockly/domain/auth/service/AuthService.java:49-78 | A matching user is reused and a new one created only when none matches; the result names that user and a session holding the issued token |
| Auth.LoginWithDev | src/main/java/app/mockly/domain/auth/service/AuthService.java:49-59 | The developer login ends with a user holding the given email |
| Auth.LoginWithGoogle | src/main/java/app/mockly/domain/auth/service/AuthService.java:81-96 | The Google login ends with a user whose provider id is the Google subject |
| Auth.FindToken | src/main/java/app/mockly/domain/auth/service/AuthService.java:145-146 | The session found holds a token with the given value; nothing is found only when no session holds it |
| Auth.Refresh | src/main/java/app/mockly/domain/auth/service/AuthService.java:144-174 | An unknown token is INVALID_TOKEN with nothing changed; an expired one clears its session's token and is EXPIRED_TOKEN, before the device is checked; another device is INVALID_TOKEN; it succeeds exactly otherwise, rotating the session to the new token |
| Auth.RotatedTokenIsRefused | src/main/java/app/mockly/domain/auth/service/AuthService.java:163-166 | After a rotation the old refresh token is refused |
| Auth.Logout | src/main/java/app/mockly/domain/auth/service/AuthService.java:184-198 | An access token that cannot be parsed fails the call with INTERNAL_SERVER_ERROR and changes nothing; otherwise the access token is blacklisted exactly when present with lifetime left, an unknown refresh token changes no session, and a known one loses its token |
| Auth.LoggedOutTokenIsRefused | src/main/java/app/mockly/domain/auth/service/AuthService.java:184-198 | After a logout that succeeds the refresh token can no longer be refreshed; after one that fails on the access token it still finds its session |
| Sessions.LiveAndExpiredDisagreeAtExpiry | src/main/java/app/mockly/domain/auth/entity/RefreshToken.java:32-34 | At the very instant a token expires, refresh does not yet treat it as expired while the live-session query already leaves it out |
| Sessions.Create | src/main/java/app/mockly/domain/auth/entity/Session.java:40-49 | A new session copies the device and, when a location is given, its coordinates; no location gives no coordinates |
| Sessions.UpdateAccessInfo | src/main/java/app/mockly/domain/auth/entity/Session.java:51-55 | The access instant and coordinates are replaced, a missing location clearing both coordinates; user, device and token are kept |
| Sessions.UpdateRefreshToken | src/main/java/app/mockly/domain/auth/entity/Session.java:57-62 | The token is replaced, possibly by none; user and device are kept |
| Sessions.ActiveSessionsOf | src/main/java/app/mockly/domain/auth/repository/SessionRepository.java:17-23 | The result lists exactly the user's sessions with a live token, ordered by token creation |
| Sessions.RemoveOldestSessions | src/main/java/app/mockly/domain/auth/service/AuthService.java:131-141 | With at most two live sessions nothing changes; otherwise only the oldest ones lose their token, and other users' sessions are unchanged |
| Sessions.RemoveOldestKeepsTwoNewest | src/main/java/app/mockly/domain/auth/service/AuthService.java:134-139 | A session keeps a live token exactly when it is one of the user's two newest live sessions |
| Sessions.RemoveOldestDropsOnlyOlder | src/main/java/app/mockly/domain/auth/service/AuthService.java:134-139 | A session that loses its token was created no later than any session of the user that keeps a live one |
| Sessions.NewestTokenIsKept | src/main/java/app/mockly/domain/auth/service/AuthService.java:131-141 | The newest live session always keeps its token |
| JwtFilter.ExtractToken | src/main/java/app/mockly/global/security/JwtAuthenticationFilter.java:55-61 | A token is extracted exactly when the header has text and starts with `Bearer `, and the header is the prefix followed by the token |
| JwtFilter.PrefixAloneDecides | src/main/java/app/mockly/global/security/JwtAuthenticationFilter.java:57 | The text check adds nothing: the prefix alone decides, even with nothing after it |
| JwtFilter.ExtractRoundTrip | src/main/java/app/mockly/global/security/JwtAuthenticationFilter.java:55-59 | A header built from a token yields that token |
| JwtFilter.FailureStatus | src/main/java/app/mockly/domain/auth/service/JwtService.java:46-56 | An expired token is EXPIRED_TOKEN, a malformed one INVALID_TOKEN, and an unexpected failure INTERNAL_SERVER_ERROR |
| JwtFilter.Filter | src/main/java/app/mockly/global/security/JwtAuthenticationFilter.java:31-53 | No token continues unauthenticated; a blacklisted token is refused as expired; the request is authenticated exactly when the token is not blacklisted and validates, as the token's user; it is refused exactly otherwise |
| JwtFilter.BlacklistedIgnoresValidation | src/main/java/app/mockly/global/security/JwtAuthenticationFilter.java:36-39 | A blacklisted token is refused whatever validation would say |
| JwtFilter.AuthenticatedHadValidBearer | src/main/java/app/mockly/global/security/JwtAuthenticationFilter.java:39-44 | An authenticated request carried a bearer token that is not blacklisted and validates to that user |
| PaymentQuery.ToPageRequest | src/main/java/app/mockly/domain/payment/service/PaymentQueryService.java:30 | The page size is min(size, 20) and the index is page − 1 in 32-bit arithmetic; a page below 1 (other than the wrapping smallest int) or a size below 1 fails |
| PaymentQuery.ToStartOfDay | src/main/java/app/mockly/domain/payment/service/PaymentQueryService.java:48-50 | The range starts at midnight UTC of the start date |
| PaymentQuery.ToEndOfDay | src/main/java/app/mockly/domain/payment/service/PaymentQueryService.java:52-54 | The range ends at midnight UTC of the day after the end date |
| PaymentQuery.SelectQuery | src/main/java/app/mockly/domain/payment/service/PaymentQueryService.java:32-44 | Exactly one of four queries is chosen: the status filter applies when a status is given, the date filter when both dates are |
| PaymentQuery.BetweenAdmitsNextMidnight | src/main/java/app/mockly/domain/payment/repository/PaymentRepository.java:53-68 | The inclusive range as written matches a payment created at midnight after the end date, which the half-open range does not |
| PaymentQuery.RangeCoversExactlyTheDays | src/main/java/app/mockly/domain/payment/service/PaymentQueryService.java:48-54 | The half-open range matches a creation instant exactly when it falls on a day from the start date to the end date |
| PaymentQuery.PageOf | src/main/java/app/mockly/domain/payment/repository/PaymentRepository.java:27-36 | A page reports its index, its size and the number of matches, and holds min(size, matches − index × size) rows (none past the end), each a match of the user and filters |
| PaymentQuery.PageIsRankWindow | src/main/java/app/mockly/domain/payment/repository/PaymentRepository.java:27-36 | The page's rows are exactly the matches, newest first, at ranks index × size onwards, in that order |
| PaymentQuery.PageIsNewestFirst | src/main/java/app/mockly/domain/payment/repository/PaymentRepository.java:34 | Each page lists a row at most once, ordered newest first |
| PaymentQuery.PagePaymentsAreTheWindow | src/main/java/app/mockly/domain/payment/repository/PaymentRepository.java:27-36 | The payments shown are those of the newest-first matches at ranks index × size onwards |
| PaymentQuery.PagePaymentsMatch | src/main/java/app/mockly/domain/payment/repository/PaymentRepository.java:27-36 | Every payment shown is that of a row matching the user and filters |
| PaymentQuery.PaginationFrom | src/main/java/app/mockly/domain/payment/dto/response/PaginationInfo.java:13-22 | The reported page is the index plus one; size, totals and the first/last flags are copied |
| PaymentQuery.ReportedPageRoundTrip | src/main/java/app/mockly/domain/payment/dto/response/PaginationInfo.java:15 | For every accepted request the reported page is the page the client asked for |
| PaymentQuery.Respond | src/main/java/app/mockly/domain/payment/dto/response/GetPaymentsResponse.java:15-20 | The response reports the index plus one as its page, the page size and the number of matches, and lists as many payments as the page window holds, each a match of the query |
| PaymentQuery.GetPayments | src/main/java/app/mockly/domain/payment/service/PaymentQueryService.java:27-46 | A page below 1 (other than the wrapping smallest int), a size below 1 or an offset past Integer.MAX_VALUE fails with INTERNAL_SERVER_ERROR; otherwise the response reports the requested page, the clamped size and the number of matches under the given range condition, and lists the window's number of payments, each a match |
| PaymentQuery.GetPaymentsAnswersPage | src/main/java/app/mockly/domain/payment/service/PaymentQueryService.java:30-45 | An accepted request is answered with the page request built from page − 1 and the clamped size, whose offset is the wrapped page − 1 times that size, under the query the filters select |
| PaymentQuery.GetPaymentsIsRankWindow | src/main/java/app/mockly/domain/payment/service/PaymentQueryService.java:27-46 | The payments listed are exactly those of the matches, newest first, at ranks (page − 1) × size onwards |
| PaymentQuery.SmallestPageIsRefused | src/main/java/app/mockly/domain/payment/service/PaymentQueryService.java:30 | The smallest int page wraps to the largest index, so with a size of 2 or more its offset does not fit an int and the request fails |
| PaymentQuery.GetPaymentsListsNextMidnight | src/main/java/app/mockly/domain/payment/repository/PaymentRepository.java:53-68 | As written, a one-day filter lists a payment made at the midnight that starts the next day; the half-open range lists nothing |
| PaymentQuery.GetPaymentsCorrected | src/main/java/app/mockly/domain/payment/service/PaymentQueryService.java:27-54 | With the half-open range, every payment listed under a date filter belongs to the user and was created on a day from the start date through the end date, and the count is that of the half-open matches |
| Products.ActivePlanId | src/main/java/app/mockly/domain/product/service/SubscriptionProductService.java:23-28 | An anonymous caller has no active plan; a user has none exactly when no subscription of theirs is ACTIVE; a plan reported is that of an ACTIVE subscription; several ACTIVE ones fail |
| Products.SingleActiveSubscriptionNamesItsPlan | src/main/java/app/mockly/domain/product/service/SubscriptionProductService.java:25-26 | A user with exactly one ACTIVE subscription gets its plan id |
| Products.PlanInfoFrom | src/main/java/app/mockly/domain/product/dto/SubscriptionPlanInfo.java:16-25 | A plan is flagged exactly when its id is the active plan id; id, price, currency and cycle are copied |
| Products.AtMostOnePlanFlagged | src/main/java/app/mockly/domain/product/dto/SubscriptionPlanInfo.java:16-17 | Of two plans with different ids at most one is flagged |
| Products.ProductInfoFrom | src/main/java/app/mockly/domain/product/dto/SubscriptionProductInfo.java:14-26 | The product's fields are copied and each of its plans is flagged against the same id |
| Products.GetAllSubscriptionProducts | src/main/java/app/mockly/domain/product/service/SubscriptionProductService.java:20-31 | A failed active-plan lookup fails the call; otherwise every product is listed in order with its id, name, description and features, and each plan with its id, price, currency and billing cycle, flagged exactly when it is the caller's active plan; an anonymous caller sees no plan flagged |
| PlanInfos.FirstKrwPrice | src/main/java/app/mockly/domain/plan/dto/PlanInfo.java:25-28 | The price is that of the first won entry, and there is none exactly when no entry is in won |
| PlanInfos.PlanInfoFrom | src/main/java/app/mockly/domain/plan/dto/PlanInfo.java:24-43 | A plan without a won price is RESOURCE_NOT_FOUND; otherwise its view reports the first won price, in KRW, with the plan's other fields copied |
| PlanInfos.OtherCurrenciesFirstIgnored | src/main/java/app/mockly/domain/plan/dto/PlanInfo.java:25-28 | Prices in other currencies listed before the won ones do not change the reported price |
| Interviews.Create | src/main/java/app/mockly/domain/interview/entity/InterviewSession.java:51-62 | A new session is IN_PROGRESS at question zero, with no id and no completion, for the given user, position, level, style and total |
| Interviews.IncrementQuestionNumber | src/main/java/app/mockly/domain/interview/entity/InterviewSession.java:64-66 | The counter goes up by one with no bound check, wrapping from the largest int to the smallest; nothing else changes |
| Interviews.Complete | src/main/java/app/mockly/domain/interview/entity/InterviewSession.java:68-71 | Completing sets COMPLETED and the completion instant; nothing else changes |
| Interviews.Abandon | src/main/java/app/mockly/domain/interview/entity/InterviewSession.java:73-75 | Abandoning sets ABANDONED and keeps the completion instant |
| Interviews.GenerateId | src/main/java/app/mockly/domain/interview/entity/InterviewSession.java:85-90 | An existing id is never overwritten; a missing one is generated |
| Interviews.GenerateIdIsStable | src/main/java/app/mockly/domain/interview/entity/InterviewSession.java:85-90 | Generating twice gives the id of the first generation |
| Interviews.AskedCountsUp | src/main/java/app/mockly/domain/interview/entity/InterviewSession.java:64-66 | Below the top of the int range, n questions raise the counter by exactly n and change nothing else |
| Interviews.AllAnsweredExactlyAtTotal | src/main/java/app/mockly/domain/interview/entity/InterviewSession.java:77-79 | A fresh session reports all questions answered exactly once the total has been asked |
| Interviews.CounterWrapUndoesAnswered | src/main/java/app/mockly/domain/interview/entity/InterviewSession.java:64-79 | Asking past the largest int wraps the counter, so a finished session no longer reports all questions answered |
| SubscriptionService.ActiveSubsOf | src/main/java/app/mockly/domain/product/service/SubscriptionService.java:81 | The result lists exactly the user's ACTIVE subscriptions |
| SubscriptionService.ActiveSubsOfPlan | src/main/java/app/mockly/domain/product/service/SubscriptionService.java:75 | The result lists exactly the user's ACTIVE subscriptions to the plan |
| SubscriptionService.CheckPurchase | src/main/java/app/mockly/domain/product/service/SubscriptionService.java:63-88 | An unknown plan is RESOURCE_NOT_FOUND; a free plan or a price that differs numerically is BAD_REQUEST; on success the user's only ACTIVE subscription, if any, is a free one that is to be canceled |
| SubscriptionService.PaidSubscriberIsRefused | src/main/java/app/mockly/domain/product/service/SubscriptionService.java:75-88 | A user with an ACTIVE paid subscription, or one to the same plan, cannot buy |
| SubscriptionService.FirstPeriodEnd | src/main/java/app/mockly/domain/product/service/SubscriptionService.java:94-97 | The first period ends a month after now for a monthly plan and a year after it for any other |
| SubscriptionService.OpenPurchase | src/main/java/app/mockly/domain/product/service/SubscriptionService.java:80-102 | The free subscription is canceled, and a PENDING subscription, invoice and payment for the first period are written |
| SubscriptionService.CardLast4 | src/main/java/app/mockly/domain/product/service/SubscriptionService.java:129-132 | The last four characters of a card number of length at least four, otherwise nothing |
| SubscriptionService.MethodDetails | src/main/java/app/mockly/domain/product/service/SubscriptionService.java:119-141 | The recorded type is CARD exactly for a card, EASY_PAY exactly for easy pay and UNKNOWN otherwise; the last four digits and the brand are recorded for a card only |
| SubscriptionService.FailPurchase | src/main/java/app/mockly/domain/product/service/SubscriptionService.java:165-172 | The payment and invoice become FAILED and the purchase fails with INTERNAL_SERVER_ERROR; the subscription is not touched |
| SubscriptionService.AddMethod | src/main/java/app/mockly/domain/product/service/SubscriptionService.java:159-160 | The new method is active, not default, and holds the key and card |
| SubscriptionService.MarkPurchasePaid | src/main/java/app/mockly/domain/product/service/SubscriptionService.java:142-144 | The payment and invoice become PAID and the subscription ACTIVE |
| SubscriptionService.ReplaceMethod | src/main/java/app/mockly/domain/product/service/SubscriptionService.java:157-160 | The previous active method only loses its active flag; a new method for the key is appended and becomes the user's only active one |
| SubscriptionService.RememberMethod | src/main/java/app/mockly/domain/product/service/SubscriptionService.java:150-160 | It fails exactly when the user has several active methods. Otherwise only the methods change, and afterwards the user has exactly one active method, which holds the key. A method that already holds the key leaves the state unchanged. Any other previous method only loses its active flag, a new method for the key is appended, and other users' methods are untouched |
| SubscriptionService.RecordPaid | src/main/java/app/mockly/domain/product/service/SubscriptionService.java:142-164 | The subscription is activated. The purchase succeeds exactly when the user exists and has at most one active method; then payment and invoice are PAID and the key is the user's only active method. Otherwise both are FAILED. Other payments are untouched |
| SubscriptionService.SettleWithUser | src/main/java/app/mockly/domain/product/service/SubscriptionService.java:147-164 | After the rows are marked, the purchase succeeds exactly when the user exists and has at most one active method; otherwise the payment and invoice are marked FAILED again |
| SubscriptionService.CreateSubscription | src/main/java/app/mockly/domain/product/service/SubscriptionService.java:57-173 | A failed check writes nothing; a failed key lookup is BAD_REQUEST with the PENDING rows left; success means a recognized key, a charge and a user, with a new ACTIVE subscription and PAID rows |
| SubscriptionService.ChargeThenCheck | src/main/java/app/mockly/domain/product/service/SubscriptionService.java:105-172 | As written: a failed lookup is BAD_REQUEST with nothing changed; success needs a recognized key, a charge and a user; any other failure marks the rows FAILED; no payment terms change |
| SubscriptionService.InvoiceCurrencyHardCoded | src/main/java/app/mockly/domain/product/service/SubscriptionService.java:98-102 | Buying a USD plan leaves a KRW invoice whose payment is in USD |
| SubscriptionService.ChargedButRecordedFailed | src/main/java/app/mockly/domain/product/service/SubscriptionService.java:105-116 | A charge that succeeds for an unrecognized key is recorded as a FAILED payment |
| SubscriptionService.CreateSubscriptionCorrected | src/main/java/app/mockly/domain/product/service/SubscriptionService.java:57-173 | The intended purchase: a failed check writes nothing; success leaves a new ACTIVE subscription with a PAID payment; a charge is recorded only on success; other payments are untouched |
| SubscriptionService.CheckThenCharge | src/main/java/app/mockly/domain/product/service/SubscriptionService.java:105-172 | The intended order: success activates the subscription with a PAID payment, a charge is recorded only on success, no payment terms change and other payments are untouched |
| SubscriptionService.CorrectedKeepsChargesRecorded | src/main/java/app/mockly/domain/product/service/SubscriptionService.java:105-172 | The intended purchase keeps every charged payment recorded PAID |
| SubscriptionService.CorrectedKeepsCurrenciesAgree | src/main/java/app/mockly/domain/product/service/SubscriptionService.java:98-102 | The intended purchase keeps every payment in its invoice's currency |
| SubscriptionService.PurchaseLeavesSingleActive | src/main/java/app/mockly/domain/product/service/SubscriptionService.java:80-92 | A successful purchase leaves the new subscription as the user's only ACTIVE one |
| SubscriptionService.OpenPurchaseCancelsActive | src/main/java/app/mockly/domain/product/service/SubscriptionService.java:80-88 | Once the PENDING rows are written, none of the user's older subscriptions is ACTIVE |
| SubscriptionService.CancelSubscription | src/main/java/app/mockly/domain/product/service/SubscriptionService.java:182-199 | Unknown is RESOURCE_NOT_FOUND, foreign FORBIDDEN and non-ACTIVE BAD_REQUEST, in that order; it succeeds exactly otherwise, canceling the subscription and keeping its schedule id |
| SubscriptionService.LifetimePlans | src/main/java/app/mockly/domain/product/service/SubscriptionService.java:202 | The result lists exactly the catalog's lifetime plans |
| SubscriptionService.AssignFreePlan | src/main/java/app/mockly/domain/product/service/SubscriptionService.java:201-208 | With no lifetime plan nothing happens; with one, a single ACTIVE open-ended subscription to it is appended; several fail |

## Left out

- Transactions and rollback: a failing call returns the state as it stands when the exception is raised, before any rollback. Purchase and refresh failures deliberately show the rows they mark FAILED or the token they clear.
- The subscription service is transactional (read-only) at class level. An exception escaping `processScheduleCreation`, `createFirstPaymentSchedule` or `renewSubscription` therefore marks the caller's transaction rollback-only. In that case the outbox retry bookkeeping (`OutboxProcessor.RetryCeiling`) and the webhook's PAST_DUE fallback do not commit. The model shows those writes as they are made in the transaction.
- PAST_DUE: the source's subscription status enum has no PAST_DUE, and the entity has no `markAsPastDue` or `expire` method. The model adds the status and takes both methods to set the status only.
- `createFirstPaymentSchedule`, `renewSubscription` and `processScheduleCreation` are not part of this model: they are called but not defined in the source. The first two are a schedule outcome, applied as activate or extend plus storing the id. The third is a success-or-failure outcome whose effect is not modelled.
- `getPrice()` on a subscription plan is taken to be its `amount`.
- The four-argument payment-method create called by the purchase is taken to give a non-default method.
- The refresh token's link to its session is missing from the source entity. The model embeds the token in its session.
- Repository queries not shown in the source follow their derived-query names. The catalog query is an input list of products.
- Spring `Page` arithmetic is modelled directly: offset = index × size, and the page count is the ceiling of total / size. An offset past Integer.MAX_VALUE is refused as Spring Data JPA does before querying; ties in creation time are kept in table order, where the database leaves their order open.
- The outbox payload is a JSON object with a fixed field order. Java's `Map.of` leaves the order unspecified, so the encoder is modelled as written here, with a matching decoder.
- Sessions are ordered by token creation instant, with ties kept in position order.
- Payment methods are listed newest first by id: ids are issued in creation order, so the highest id is the newest. Ties in creation instant, which the database leaves unordered, are not modelled.
- Refresh-token lifetimes use one time unit throughout. The source mixes milliseconds in configuration with instants.
- Coordinates are exact reals; floating point is left out.
- BigDecimal is an unscaled integer with a scale; rounding is left out.
- Dates are concrete: year, month, day and second of day, plus epoch-day dates. Time zones other than UTC are left out.
- UUID generation, clocks, token values, JWT signing and parsing, Google OAuth, the Redis blacklist and webhook signature verification are inputs.
- Every PortOne call is an outcome input: billing-key lookup, charge, schedule create or revoke, and payment lookup.
- `getCurrentUser`, `getMySubscription`, the payment-detail and invoice-detail queries, and the product-name join of the payment summary are pure reads or projections. They are not modelled.
- Controllers, security configuration, response wrappers, logging, scheduling timers and concurrency between the poller, webhooks and requests are left out.
- The interview style enum is not part of the source; a style is kept by name.
- The duplicate payment service and the plan catalog's repositories are left out.
- OutboxProcessor.FailingRuns: its own contract states only that identity and payload are kept; the retry count and status after k failures are stated by `OutboxProcessor.RetryCeiling`.
- The text of `NON_UNIQUE_RESULT_MESSAGE`, stored as the failure reason when a single-result query finds several rows, approximates the persistence framework's message.
- Some behaviours of the code are worth stating outright, since a reader might expect otherwise:
  - a purchase writes no outbox event;
  - the expiry sweep does not expire a subscription whose revoke fails;
  - activation has no PENDING guard;
  - the outbox processor never marks an event PROCESSED;
  - cancellation and the cancel webhook do not revoke the provider's schedule.

## Findings

| source | as written | input that shows it | evidently intended | confidence | as-written member | corrected member |
|---|---|---|---|---|---|---|
| src/main/java/app/mockly/domain/product/service/PaymentScheduleService.java:81-102 | The revoked schedule id stays on the subscription until the new schedule is stored | An existing schedule, a revoke that succeeds and a schedule create that fails | A revoked id is cleared at once, so no stored id names a revoked schedule | not executed | ScheduleService.ReplaceScheduleLeavesRevokedId | ScheduleService.ReplaceScheduleClearingKeepsIdsLive |
| src/main/java/app/mockly/domain/product/service/SubscriptionService.java:105-116 | The key is charged before the lookup's answer is checked | A lookup that answers "not recognized" and a charge that succeeds | Check the key, the user and the method before charging, so a charged payment is recorded PAID | not executed | SubscriptionService.ChargedButRecordedFailed | SubscriptionService.CorrectedKeepsChargesRecorded |
| src/main/java/app/mockly/domain/product/service/SubscriptionService.java:98-102 | The invoice currency is KRW whatever the plan's currency | A USD plan bought successfully | The invoice is in the plan's currency, like its payment | not executed | SubscriptionService.InvoiceCurrencyHardCoded | SubscriptionService.CorrectedKeepsCurrenciesAgree |
| src/main/java/app/mockly/domain/payment/repository/PaymentRepository.java:53-68 | The date range is an inclusive BETWEEN ending at the next day's midnight | A payment created at midnight right after the end date | A half-open range covering exactly the days from start to end | not executed | PaymentQuery.GetPaymentsListsNextMidnight | PaymentQuery.GetPaymentsCorrected |

=== FILE: auth.dfy ===
/** Signing in, refreshing and signing out.

    Token generation, JWT signing, the OAuth exchange and the access-token
    blacklist store are outside the model: a fresh refresh-token value, the
    authenticated identity and the reading of an access token's remaining
    lifetime (its value, or the failure to parse the token) are inputs, and
    the blacklist is a set of token strings. The clock is given
    both as an `Instant` and as the same moment's `DateTime`. */
module Auth {
  import opened Common
  import opened Time
  import opened Ledgers
  import opened Sessions
  import SubscriptionService

  datatype Accounts = Accounts(sessions: seq<Session>, blacklist: set<string>)

  /** Session identities are positions. */
  predicate AccountsWf(A: Accounts) {
    forall i :: 0 <= i < |A.sessions| ==> A.sessions[i].id == i
  }

  /** The identity an OAuth provider vouches for. */
  datatype OAuthUser = OAuthUser(sub: string, email: string, name: string)

  datatype LoginResult = LoginResult(userId: nat, refreshToken: string)

  /** A sign-in step: ledger (users, the free plan) and accounts. */
  datatype AuthStep<T> = AuthStep(ledger: Ledger, accounts: Accounts, result: Result<T>)

  // ------------------------------------------------------------------ users

  /** The first user a lookup matches. Email and (provider, subject) are
      unique columns, so there is at most one. */
  function FindUser(users: seq<User>, matches: User -> bool): (r: Option<nat>)
    ensures r.Some? ==> r.value < |users| && matches(users[r.value])
    ensures r.None? <==> forall i :: 0 <= i < |users| ==> !matches(users[i])
    ensures r.Some? ==> forall i :: 0 <= i < r.value ==> !matches(users[i])
  {
    if |users| == 0 then None
    else if matches(users[0]) then Some(0)
    else
      match FindUser(users[1..], matches)
      case None => None
      case Some(k) => Some(k + 1)
  }

  /** createUser: a new user from the provider's identity, who is then given
      the free plan. The email column is unique, so a second account with a
      taken email cannot be stored. */
  function CreateUser(L: Ledger, who: OAuthUser, today: DateTime): (r: Step<nat>)
    requires WellFormed(L)
    ensures WellFormed(r.ledger)
    ensures r.result.Err? ==> r.result.status == InternalServerError
    ensures (exists i :: 0 <= i < |L.users| && L.users[i].email == who.email) ==> r == Step(L, Err(InternalServerError))
    ensures r.result.Ok? ==>
              && r.result.value == |L.users|
              && r.ledger.users == L.users + [User(|L.users|, who.sub, who.email, who.name)]
              && r.ledger.plans == L.plans && r.ledger.invoices == L.invoices && r.ledger.payments == L.payments
              && r.ledger.methods == L.methods
              && r.ledger == SubscriptionService.AssignFreePlan(L.(users := r.ledger.users), |L.users|, today).ledger
  {
    if exists i :: 0 <= i < |L.users| && L.users[i].email == who.email then Step(L, Err(InternalServerError))
    else
      var id := |L.users|;
      var withUser := L.(users := L.users + [User(id, who.sub, who.email, who.name)]);
      var granted := SubscriptionService.AssignFreePlan(withUser, id, today);
      Step(granted.ledger, if granted.result.Ok? then Ok(id) else Err(InternalServerError))
  }

  // --------------------------------------------------------------- sessions

  /** The session a login continues: the user's session on this device, or
      a new one. The device id column is unique across users, so a device
      already signed in by someone else cannot get a session. */
  function SessionFor(A: Accounts, userId: nat, device: DeviceInfo, location: Option<Location>, now: Instant)
    : (r: Result<(seq<Session>, nat)>)
    requires AccountsWf(A)
    ensures r.Err? ==> r.status == InternalServerError
    ensures r.Ok? ==>
              var (ss, k) := r.value;
              && k < |ss| && ss[k].userId == userId && ss[k].deviceId == device.deviceId
              && (ss == A.sessions || ss == A.sessions + [Sessions.Create(|A.sessions|, userId, device, location, now)])
              && (forall i :: 0 <= i < |ss| ==> ss[i].id == i)
    ensures r.Ok? && r.value.0 != A.sessions ==>
              forall i :: 0 <= i < |A.sessions| ==> A.sessions[i].deviceId != device.deviceId
    ensures r.Ok? && r.value.0 == A.sessions ==> A.sessions[r.value.1].userId == userId
  {
    match SingleResult(Where(A.sessions, (s: Session) => s.userId == userId && s.deviceId == device.deviceId))
    case Err(e) => Err(e)
    case Ok(Some(k)) => Ok((A.sessions, k))
    case Ok(None) =>
      if exists i :: 0 <= i < |A.sessions| && A.sessions[i].deviceId == device.deviceId then Err(InternalServerError)
      else
        var s := Sessions.Create(|A.sessions|, userId, device, location, now);
        Ok((A.sessions + [s], |A.sessions|))
  }

  /** The device's session given a new token and the access details, then
      the user's sessions capped. Identities, owners and devices stay. */
  function StampAndCap(ss: seq<Session>, k: nat, userId: nat, t: RefreshToken, location: Option<Location>,
                       now: Instant): (r: seq<Session>)
    requires k < |ss| && ss[k].userId == userId
    ensures |r| == |ss|
    ensures forall i :: 0 <= i < |r| ==> r[i].id == ss[i].id && r[i].userId == ss[i].userId && r[i].deviceId == ss[i].deviceId
    ensures forall i :: 0 <= i < |r| && ss[i].userId != userId ==> r[i] == ss[i]
  {
    var s := UpdateAccessInfo(UpdateRefreshToken(ss[k], Some(t)), location, now);
    RemoveOldestSessions(ss[k := s], userId, now)
  }

  /** A token issued now, into a session whose siblings all hold older
      tokens, survives the cap. */
  lemma StampKeepsNewToken(ss: seq<Session>, k: nat, userId: nat, t: RefreshToken, location: Option<Location>, now: Instant)
    requires k < |ss| && ss[k].userId == userId && t.expiresAt > now && t.createdAt == now
    requires forall i :: 0 <= i < |ss| && i != k ==> CreatedAt(ss[i]) < now
    ensures StampAndCap(ss, k, userId, t, location, now)[k].refreshToken == Some(t)
  {
    var s := UpdateAccessInfo(UpdateRefreshToken(ss[k], Some(t)), location, now);
    NewestTokenIsKept(ss[k := s], userId, now, k);
  }

  /** A login for a known user: the device's session receives a new refresh
      token and the access details, then the user's older sessions are
      capped. */
  function OpenSession(A: Accounts, userId: nat, device: DeviceInfo, location: Option<Location>,
                       tokenValue: string, refreshTtl: int, now: Instant): (r: Result<(Accounts, nat)>)
    requires AccountsWf(A)
    ensures r.Err? ==> r.status == InternalServerError
    ensures r.Ok? ==>
              && AccountsWf(r.value.0) && r.value.0.blacklist == A.blacklist && r.value.1 < |r.value.0.sessions|
              && r.value.0.sessions[r.value.1].userId == userId
              && r.value.0.sessions[r.value.1].deviceId == device.deviceId
              && (|r.value.0.sessions| == |A.sessions| || |r.value.0.sessions| == |A.sessions| + 1)
              && (forall i :: 0 <= i < |A.sessions| && A.sessions[i].userId != userId ==> r.value.0.sessions[i] == A.sessions[i])
  {
    match SessionFor(A, userId, device, location, now)
    case Err(e) => Err(e)
    case Ok((ss, k)) =>
      var ss' := StampAndCap(ss, k, userId, RefreshToken(tokenValue, now + refreshTtl, now), location, now);
      Ok((A.(sessions := ss'), k))
  }

  /** A login reuses the device's session: it adds a session only for a
      device the user has not signed in from. */
  lemma LoginReusesDeviceSession(A: Accounts, userId: nat, device: DeviceInfo, location: Option<Location>,
                                 tokenValue: string, refreshTtl: int, now: Instant, k: nat)
    requires AccountsWf(A) && k < |A.sessions|
    requires A.sessions[k].userId == userId && A.sessions[k].deviceId == device.deviceId
    ensures var r := OpenSession(A, userId, device, location, tokenValue, refreshTtl, now);
            r.Ok? ==> |r.value.0.sessions| == |A.sessions|
  {
  }

  /** A fresh token whose lifetime is positive leaves the session just
      signed in live, whatever the cap removed, when every other token was
      created before this moment. */
  lemma LoginLeavesSessionLive(A: Accounts, userId: nat, device: DeviceInfo, location: Option<Location>,
                               tokenValue: string, refreshTtl: int, now: Instant)
    requires AccountsWf(A) && refreshTtl > 0
    requires forall i :: 0 <= i < |A.sessions| ==> CreatedAt(A.sessions[i]) < now
    requires OpenSession(A, userId, device, location, tokenValue, refreshTtl, now).Ok?
    ensures var (A', k) := OpenSession(A, userId, device, location, tokenValue, refreshTtl, now).value;
            Live(A'.sessions[k], now) && A'.sessions[k].refreshToken.value.token == tokenValue
  {
    var (ss, k) := SessionFor(A, userId, device, location, now).value;
    StampKeepsNewToken(ss, k, userId, RefreshToken(tokenValue, now + refreshTtl, now), location, now);
  }

  /** loginWithGoogleCode / loginWithDev after the identity is established:
      the user is found by the lookup or created (and given the free plan),
      then the device's session is opened. */
  function Login(L: Ledger, A: Accounts, matches: User -> bool, who: OAuthUser, device: DeviceInfo,
                 location: Option<Location>, tokenValue: string, refreshTtl: int, now: Instant, today: DateTime)
    : (r: AuthStep<LoginResult>)
    requires WellFormed(L) && AccountsWf(A)
    ensures WellFormed(r.ledger) && AccountsWf(r.accounts)
    ensures FindUser(L.users, matches).Some? ==> r.ledger == L
    ensures r.result.Ok? && FindUser(L.users, matches).Some? ==> r.result.value.userId == FindUser(L.users, matches).value
    ensures r.result.Ok? && FindUser(L.users, matches).None? ==>
              r.result.value.userId == |L.users| && |r.ledger.users| == |L.users| + 1
    ensures r.result.Ok? ==> r.result.value.refreshToken == tokenValue
    ensures r.result.Err? ==> r.accounts == A
  {
    var found := FindUser(L.users, matches);
    var user := if found.Some? then Step(L, Ok(found.value)) else CreateUser(L, who, today);
    match user.result
    case Err(e) => AuthStep(user.ledger, A, Err(e))
    case Ok(userId) =>
      match OpenSession(A, userId, device, location, tokenValue, refreshTtl, now)
      case Err(e) => AuthStep(user.ledger, A, Err(e))
      case Ok((A', _)) => AuthStep(user.ledger, A', Ok(LoginResult(userId, tokenValue)))
  }

  /** loginWithDev looks a user up by email; a new one gets a random
      provider subject. */
  function LoginWithDev(L: Ledger, A: Accounts, email: string, name: string, randomSub: string, device: DeviceInfo,
                        location: Option<Location>, tokenValue: string, refreshTtl: int, now: Instant, today: DateTime)
    : (r: AuthStep<LoginResult>)
    requires WellFormed(L) && AccountsWf(A)
    ensures WellFormed(r.ledger) && AccountsWf(r.accounts)
    ensures r.result.Ok? ==> r.result.value.userId < |r.ledger.users| && r.ledger.users[r.result.value.userId].email == email
  {
    var r := Login(L, A, (u: User) => u.email == email, OAuthUser(randomSub, email, name), device, location,
                   tokenValue, refreshTtl, now, today);
    r
  }

  /** loginWithGoogleCode looks a user up by the provider's subject. */
  function LoginWithGoogle(L: Ledger, A: Accounts, who: OAuthUser, device: DeviceInfo, location: Option<Location>,
                           tokenValue: string, refreshTtl: int, now: Instant, today: DateTime)
    : (r: AuthStep<LoginResult>)
    requires WellFormed(L) && AccountsWf(A)
    ensures WellFormed(r.ledger) && AccountsWf(r.accounts)
    ensures r.result.Ok? ==> r.result.value.userId < |r.ledger.users| && r.ledger.users[r.result.value.userId].providerId == who.sub
  {
    Login(L, A, (u: User) => u.providerId == who.sub, who, device, location, tokenValue, refreshTtl, now, today)
  }

  // ---------------------------------------------------------------- refresh

  /** The session holding a refresh-token value (the column is unique). */
  function FindToken(ss: seq<Session>, value: string): (r: Option<nat>)
    ensures r.Some? ==> r.value < |ss| && ss[r.value].refreshToken.Some? && ss[r.value].refreshToken.value.token == value
    ensures r.None? <==> forall i :: 0 <= i < |ss| ==> !(ss[i].refreshToken.Some? && ss[i].refreshToken.value.token == value)
  {
    if |ss| == 0 then None
    else if ss[|ss| - 1].refreshToken.Some? && ss[|ss| - 1].refreshToken.value.token == value then Some(|ss| - 1)
    else FindToken(ss[..|ss| - 1], value)
  }

  /** refreshToken: an unknown token is INVALID_TOKEN; an expired one is
      withdrawn from its session and is EXPIRED_TOKEN (checked before the
      device); a token presented from another device is INVALID_TOKEN;
      otherwise the session's token is rotated. */
  function Refresh(A: Accounts, value: string, deviceId: string, location: Option<Location>,
                   newValue: string, refreshTtl: int, now: Instant): (r: (Accounts, Result<nat>))
    requires AccountsWf(A)
    ensures AccountsWf(r.0) && r.0.blacklist == A.blacklist && |r.0.sessions| == |A.sessions|
    ensures FindToken(A.sessions, value).None? ==> r == (A, Err(InvalidToken))
    ensures r.1.Ok? <==>
              && FindToken(A.sessions, value).Some?
              && !IsExpired(A.sessions[FindToken(A.sessions, value).value].refreshToken.value, now)
              && A.sessions[FindToken(A.sessions, value).value].deviceId == deviceId
    ensures FindToken(A.sessions, value).Some? ==>
              var k := FindToken(A.sessions, value).value;
              var s := A.sessions[k];
              && (IsExpired(s.refreshToken.value, now) ==>
                    r == (A.(sessions := A.sessions[k := UpdateRefreshToken(s, None)]), Err(ExpiredToken)))
              && (!IsExpired(s.refreshToken.value, now) && s.deviceId != deviceId ==> r == (A, Err(InvalidToken)))
              && (r.1.Ok? ==>
                    && r.1.value == s.userId
                    && r.0.sessions == A.sessions[k := r.0.sessions[k]]
                    && r.0.sessions[k].refreshToken == Some(RefreshToken(newValue, now + refreshTtl, now))
                    && r.0.sessions[k].userId == s.userId && r.0.sessions[k].deviceId == s.deviceId
                    && r.0.sessions[k].lastAccessedAt == now)
  {
    match FindToken(A.sessions, value)
    case None => (A, Err(InvalidToken))
    case Some(k) =>
      var s := A.sessions[k];
      if IsExpired(s.refreshToken.value, now) then
        (A.(sessions := A.sessions[k := UpdateRefreshToken(s, None)]), Err(ExpiredToken))
      else if s.deviceId != deviceId then (A, Err(InvalidToken))
      else
        var t := RefreshToken(newValue, now + refreshTtl, now);
        var s' := UpdateAccessInfo(UpdateRefreshToken(s, Some(t)), location, now);
        (A.(sessions := A.sessions[k := s']), Ok(s.userId))
  }

  /** Rotation retires the old value: once refreshed, the old token is
      refused (when the new value differs from it). */
  lemma RotatedTokenIsRefused(A: Accounts, value: string, deviceId: string, location: Option<Location>,
                              newValue: string, refreshTtl: int, now: Instant,
                              deviceId2: string, location2: Option<Location>, newValue2: string, now2: Instant)
    requires AccountsWf(A) && newValue != value
    requires forall i, j :: 0 <= i < j < |A.sessions| && A.sessions[i].refreshToken.Some? && A.sessions[j].refreshToken.Some? ==>
               A.sessions[i].refreshToken.value.token != A.sessions[j].refreshToken.value.token
    requires Refresh(A, value, deviceId, location, newValue, refreshTtl, now).1.Ok?
    ensures var A' := Refresh(A, value, deviceId, location, newValue, refreshTtl, now).0;
            Refresh(A', value, deviceId2, location2, newValue2, refreshTtl, now2).1 == Err(InvalidToken)
  {
    var k := FindToken(A.sessions, value).value;
    var A' := Refresh(A, value, deviceId, location, newValue, refreshTtl, now).0;
    forall i | 0 <= i < |A'.sessions| && A'.sessions[i].refreshToken.Some?
      ensures A'.sessions[i].refreshToken.value.token != value
    {
      if i != k {
        assert A'.sessions[i] == A.sessions[i];
        if i < k {
          assert A.sessions[i].refreshToken.value.token != A.sessions[k].refreshToken.value.token;
        } else {
          assert A.sessions[k].refreshToken.value.token != A.sessions[i].refreshToken.value.token;
        }
      }
    }
  }

  // ----------------------------------------------------------------- logout

  /** logout: the access token is blacklisted while it still has lifetime
      left; the session holding the refresh token, if any, loses it.
      Reading the access token's remaining lifetime parses it, and an
      expired, malformed or badly signed token throws there, before anything
      is written: the call answers INTERNAL_SERVER_ERROR and the refresh
      token stays usable. */
  function Logout(A: Accounts, accessToken: Option<string>, remaining: Gateway<int>, refreshValue: string): (r: (Accounts, Result<Unit>))
    requires AccountsWf(A)
    ensures accessToken.Some? && remaining.Fail? ==> r == (A, Err(InternalServerError))
    ensures accessToken.None? || remaining.Done? ==>
              && r.1 == Ok(Unit)
              && AccountsWf(r.0) && |r.0.sessions| == |A.sessions|
              && (accessToken.Some? && remaining.value > 0 ==> r.0.blacklist == A.blacklist + {accessToken.value})
              && (!(accessToken.Some? && remaining.value > 0) ==> r.0.blacklist == A.blacklist)
              && (FindToken(A.sessions, refreshValue).None? ==> r.0.sessions == A.sessions)
              && (FindToken(A.sessions, refreshValue).Some? ==>
                    var k := FindToken(A.sessions, refreshValue).value;
                    r.0.sessions == A.sessions[k := UpdateRefreshToken(A.sessions[k], None)])
  {
    if accessToken.Some? && remaining.Fail? then (A, Err(InternalServerError))
    else
      var blacklist := if accessToken.Some? && remaining.value > 0 then A.blacklist + {accessToken.value} else A.blacklist;
      match FindToken(A.sessions, refreshValue)
      case None => (A.(blacklist := blacklist), Ok(Unit))
      case Some(k) => (Accounts(A.sessions[k := UpdateRefreshToken(A.sessions[k], None)], blacklist), Ok(Unit))
  }

  /** After a logout that goes through, the refresh token no longer
      refreshes; after one whose access token cannot be read, it still
      finds its session. */
  lemma LoggedOutTokenIsRefused(A: Accounts, accessToken: Option<string>, remaining: Gateway<int>, refreshValue: string,
                                deviceId: string, location: Option<Location>, newValue: string, refreshTtl: int, now: Instant)
    requires AccountsWf(A)
    requires forall i, j :: 0 <= i < j < |A.sessions| && A.sessions[i].refreshToken.Some? && A.sessions[j].refreshToken.Some? ==>
               A.sessions[i].refreshToken.value.token != A.sessions[j].refreshToken.value.token
    ensures Logout(A, accessToken, remaining, refreshValue).1.Ok? ==>
              Refresh(Logout(A, accessToken, remaining, refreshValue).0, refreshValue, deviceId, location, newValue, refreshTtl, now).1
              == Err(InvalidToken)
    ensures Logout(A, accessToken, remaining, refreshValue).1.Err? ==>
              FindToken(Logout(A, accessToken, remaining, refreshValue).0.sessions, refreshValue) == FindToken(A.sessions, refreshValue)
  {
    var A' := Logout(A, accessToken, remaining, refreshValue).0;
    if Logout(A, accessToken, remaining, refreshValue).1.Ok? {
      match FindToken(A.sessions, refreshValue)
      case None =>
      case Some(k) =>
        forall i | 0 <= i < |A'.sessions| && A'.sessions[i].refreshToken.Some?
          ensures A'.sessions[i].refreshToken.value.token != refreshValue
        {
          if i < k {
            assert A.sessions[i].refreshToken.value.token != A.sessions[k].refreshToken.value.token;
          } else if k < i {
            assert A.sessions[k].refreshToken.value.token != A.sessions[i].refreshToken.value.token;
          }
        }
    }
  }
}

=== FILE: common.dfy ===
/** Shared vocabulary of the billing model: optional values, the API status
    codes a request can fail with, service results, and the two-outcome shape
    of every call into the payment provider. */
module Common {

  /** A nullable value of the source (`null` becomes `None`). */
  datatype Option<+T> = None | Some(value: T) {
    function GetOr(default: T): T {
      match this
      case Some(v) => v
      case None => default
    }
  }

  /** The error codes the services raise (a subset of the API status table). */
  datatype ApiStatus =
    | BadRequest
    | Forbidden
    | ResourceNotFound
    | InternalServerError
    | InvalidToken
    | ExpiredToken

  /** A service call either returns a value or raises a business error. */
  datatype Result<+T> = Ok(value: T) | Err(status: ApiStatus)

  /** A call into the payment provider (charge, schedule create or revoke,
      billing-key or payment lookup) either succeeds with a value or fails. */
  datatype Gateway<+T> = Done(value: T) | Fail

  /** The unit value, for gateway calls and services that return nothing. */
  datatype Unit = Unit

  /** `s` begins with `prefix`. */
  predicate StartsWith(s: string, prefix: string) {
    |prefix| <= |s| && s[..|prefix|] == prefix
  }
}

=== FILE: interview.dfy ===
/** The mock-interview session: a question counter against a planned total
    and a three-state lifecycle (in progress, completed, abandoned).

    The counter is a Java `int`; its increment is unchecked, so it wraps at
    the top of the 32-bit range. The clock and the id generator are
    inputs. */
module Interviews {
  import opened Common
  import opened Time

  const INT_MAX: int := 0x7FFF_FFFF
  const INT_MIN: int := -0x8000_0000

  datatype InterviewStatus = InProgress | Completed | Abandoned

  datatype ExperienceLevel = NewGrad | Junior | Mid | Senior

  /** The style enum is not part of this model; a style is kept by name. */
  datatype InterviewStyle = InterviewStyle(name: string)

  datatype InterviewSession = InterviewSession(
    id: Option<string>,
    userId: nat,
    position: string,
    experienceLevel: ExperienceLevel,
    interviewStyle: InterviewStyle,
    totalQuestions: int,
    currentQuestionNumber: int,
    status: InterviewStatus,
    completedAt: Option<Instant>)

  /** A new session: no id until it is first saved, no question asked yet. */
  function Create(userId: nat, position: string, level: ExperienceLevel, style: InterviewStyle, totalQuestions: int): (r: InterviewSession)
    ensures r.currentQuestionNumber == 0 && r.status == InProgress && r.completedAt.None? && r.id.None?
    ensures r.userId == userId && r.position == position && r.experienceLevel == level
    ensures r.interviewStyle == style && r.totalQuestions == totalQuestions
  {
    InterviewSession(None, userId, position, level, style, totalQuestions, 0, InProgress, None)
  }

  /** The next question: the counter goes up by one, with no check against
      the total, wrapping from the largest `int` to the smallest. */
  function IncrementQuestionNumber(s: InterviewSession): (r: InterviewSession)
    ensures s.currentQuestionNumber < INT_MAX ==> r.currentQuestionNumber == s.currentQuestionNumber + 1
    ensures s.currentQuestionNumber == INT_MAX ==> r.currentQuestionNumber == INT_MIN
    ensures r.(currentQuestionNumber := s.currentQuestionNumber) == s
  {
    var next := if s.currentQuestionNumber == INT_MAX then INT_MIN else s.currentQuestionNumber + 1;
    s.(currentQuestionNumber := next)
  }

  /** Finishing: COMPLETED, with the completion instant recorded. */
  function Complete(s: InterviewSession, now: Instant): (r: InterviewSession)
    ensures r.status == Completed && r.completedAt == Some(now)
    ensures r.(status := s.status, completedAt := s.completedAt) == s
  {
    s.(status := Completed, completedAt := Some(now))
  }

  /** Giving up: ABANDONED; no completion instant is recorded. */
  function Abandon(s: InterviewSession): (r: InterviewSession)
    ensures r.status == Abandoned && r.completedAt == s.completedAt
    ensures r.(status := s.status) == s
  {
    s.(status := Abandoned)
  }

  predicate IsAllQuestionsAnswered(s: InterviewSession) {
    s.currentQuestionNumber >= s.totalQuestions
  }

  /** Before the first save: keeps an existing id, otherwise takes the
      generator's fresh one. */
  function GenerateId(s: InterviewSession, generated: string): (r: InterviewSession)
    ensures s.id.Some? ==> r == s
    ensures s.id.None? ==> r == s.(id := Some(generated))
    ensures r.id.Some?
  {
    if s.id.None? then s.(id := Some(generated)) else s
  }

  /** Saving twice does not change the id: the second generation keeps the
      first one, whatever the generator offers. */
  lemma GenerateIdIsStable(s: InterviewSession, first: string, second: string)
    ensures GenerateId(GenerateId(s, first), second) == GenerateId(s, first)
  {
  }

  /** Asking `n` more questions. */
  function Ask(s: InterviewSession, n: nat): (r: InterviewSession)
    decreases n
  {
    if n == 0 then s else Ask(IncrementQuestionNumber(s), n - 1)
  }

  /** Below the top of the `int` range, `n` questions raise the counter by
      exactly `n` and change nothing else. */
  lemma {:induction false} AskedCountsUp(s: InterviewSession, n: nat)
    requires 0 <= s.currentQuestionNumber && s.currentQuestionNumber + n <= INT_MAX
    ensures Ask(s, n).currentQuestionNumber == s.currentQuestionNumber + n
    ensures Ask(s, n).(currentQuestionNumber := s.currentQuestionNumber) == s
    decreases n
  {
    if n > 0 {
      AskedCountsUp(IncrementQuestionNumber(s), n - 1);
    }
  }

  /** A fresh session with a positive total reports all questions answered
      after exactly `totalQuestions` questions, and not one question earlier. */
  lemma AllAnsweredExactlyAtTotal(userId: nat, position: string, level: ExperienceLevel, style: InterviewStyle, total: int, n: nat)
    requires 0 < total <= INT_MAX && n <= INT_MAX
    ensures IsAllQuestionsAnswered(Ask(Create(userId, position, level, style, total), n)) <==> n >= total
  {
    AskedCountsUp(Create(userId, position, level, style, total), n);
  }

  /** Asking the question after the largest `int` wraps the counter to the
      smallest, so a session that had answered everything no longer has. */
  lemma CounterWrapUndoesAnswered(s: InterviewSession)
    requires s.currentQuestionNumber == INT_MAX && INT_MIN < s.totalQuestions <= INT_MAX
    ensures IsAllQuestionsAnswered(s) && !IsAllQuestionsAnswered(IncrementQuestionNumber(s))
  {
  }
}

=== FILE: invoice.dfy ===
/** The Invoice entity: one billing period of one subscription. */
module Invoices {
  import opened Common
  import opened Time
  import opened Plans

  datatype InvoiceStatus = Pending | Paid | Failed

  datatype Invoice = Invoice(
    id: string,
    subscriptionId: nat,
    amount: Decimal,
    currency: Currency,
    status: InvoiceStatus,
    periodStart: Option<DateTime>,
    periodEnd: Option<DateTime>,
    paidAt: Option<DateTime>)

  /** The identifier of a new invoice: "inv_" followed by a fresh UUID. */
  function InvoiceId(uuid: string): (r: string)
    ensures StartsWith(r, "inv_")
    ensures r[4..] == uuid
  {
    "inv_" + uuid
  }

  /** Distinct UUIDs give distinct invoice ids. */
  lemma InvoiceIdInjective(u: string, v: string)
    requires InvoiceId(u) == InvoiceId(v)
    ensures u == v
  {
    assert u == InvoiceId(u)[4..];
  }

  /** A new PENDING invoice, exactly for the given subscription, amount,
      currency and period, not yet paid. */
  function Create(uuid: string, subscriptionId: nat, amount: Decimal, currency: Currency,
                  periodStart: Option<DateTime>, periodEnd: Option<DateTime>): (r: Invoice)
    ensures StartsWith(r.id, "inv_")
    ensures r.status == Pending && r.paidAt.None?
    ensures r.subscriptionId == subscriptionId && r.amount == amount && r.currency == currency
    ensures r.periodStart == periodStart && r.periodEnd == periodEnd
  {
    Invoice(InvoiceId(uuid), subscriptionId, amount, currency, Pending, periodStart, periodEnd, None)
  }

  /** What no invoice transition may change. */
  predicate SameTerms(a: Invoice, b: Invoice) {
    && a.id == b.id && a.subscriptionId == b.subscriptionId
    && a.amount == b.amount && a.currency == b.currency
    && a.periodStart == b.periodStart && a.periodEnd == b.periodEnd
  }

  function MarkAsPaid(i: Invoice, now: DateTime): (r: Invoice)
    ensures r.status == Paid && r.paidAt == Some(now)
    ensures SameTerms(i, r)
  {
    i.(status := Paid, paidAt := Some(now))
  }

  /** Failure keeps an earlier payment time, if any. */
  function MarkAsFailed(i: Invoice): (r: Invoice)
    ensures r.status == Failed && r.paidAt == i.paidAt
    ensures SameTerms(i, r)
  {
    i.(status := Failed)
  }
}

=== FILE: jwt_filter.dfy ===
/** The request filter that authenticates a caller from the `Authorization`
    header: the bearer token is extracted, a logged-out (blacklisted) token
    is refused before its signature is looked at, and a valid token makes
    its user id the request's principal.

    The blacklist and the token validation are inputs: the blacklist is a
    predicate on token strings, and validation reports one of the four
    outcomes the token service can produce. */
module JwtFilter {
  import opened Common

  const BEARER_PREFIX: string := "Bearer "

  /** Java's `Character.isWhitespace`: the Unicode space, line and paragraph
      separators other than the three non-breaking spaces, plus the ASCII
      controls TAB, LF, VT, FF, CR and FS, GS, RS, US. */
  predicate IsWhitespace(c: char) {
    || c == ' '
    || '\t' <= c <= '\r'
    || '\U{1C}' <= c <= '\U{1F}'
    || c == '\U{1680}'
    || '\U{2000}' <= c <= '\U{2006}'
    || '\U{2008}' <= c <= '\U{200A}'
    || c == '\U{2028}' || c == '\U{2029}'
    || c == '\U{205F}'
    || c == '\U{3000}'
  }

  /** `StringUtils.hasText`: present, and holding a non-whitespace char. */
  predicate HasText(header: Option<string>) {
    header.Some? && exists i :: 0 <= i < |header.value| && !IsWhitespace(header.value[i])
  }

  /** `extractToken`: the header without its `Bearer ` prefix, or nothing. */
  function ExtractToken(header: Option<string>): (r: Option<string>)
    ensures r.Some? <==> HasText(header) && StartsWith(header.value, BEARER_PREFIX)
    ensures r.Some? ==> header.value == BEARER_PREFIX + r.value
  {
    if HasText(header) && StartsWith(header.value, BEARER_PREFIX) then
      var h := header.value;
      assert h == h[..|BEARER_PREFIX|] + h[|BEARER_PREFIX|..];
      Some(h[|BEARER_PREFIX|..])
    else None
  }

  /** The text check is implied by the prefix: a header that starts with
      `Bearer ` always yields a token, even when nothing follows the prefix. */
  lemma PrefixAloneDecides(header: Option<string>)
    ensures ExtractToken(header).Some? <==> header.Some? && StartsWith(header.value, BEARER_PREFIX)
  {
    if header.Some? && StartsWith(header.value, BEARER_PREFIX) {
      assert header.value[0] == 'B' && !IsWhitespace(header.value[0]);
    }
  }

  /** Building the header from a token and extracting it gives the token back. */
  lemma ExtractRoundTrip(token: string)
    ensures ExtractToken(Some(BEARER_PREFIX + token)) == Some(token)
  {
    var h := BEARER_PREFIX + token;
    assert h[..|BEARER_PREFIX|] == BEARER_PREFIX;
    PrefixAloneDecides(Some(h));
    assert h[|BEARER_PREFIX|..] == token;
  }

  /** What validating an access token can report: its user id, an expired
      signature, any other token error, or an unexpected failure (such as a
      subject that is not a user id). */
  datatype TokenCheck = Valid(userId: nat) | ExpiredJwt | MalformedJwt | Unexpected

  /** The filter either lets the request continue, with or without an
      authenticated principal, or answers it with an error status. */
  datatype FilterOutcome = Proceed(principal: Option<nat>) | Reject(status: ApiStatus)

  /** The status the exception resolver answers a validation failure with. */
  function FailureStatus(c: TokenCheck): (r: ApiStatus)
    requires !c.Valid?
    ensures r == ExpiredToken <==> c.ExpiredJwt?
    ensures r == InvalidToken <==> c.MalformedJwt?
    ensures r == InternalServerError <==> c.Unexpected?
  {
    match c
    case ExpiredJwt => ExpiredToken
    case MalformedJwt => InvalidToken
    case Unexpected => InternalServerError
  }

  /** `doFilterInternal`. */
  function Filter(header: Option<string>, blacklisted: string -> bool, validate: string -> TokenCheck): (r: FilterOutcome)
    ensures ExtractToken(header).None? ==> r == Proceed(None)
    ensures ExtractToken(header).Some? && blacklisted(ExtractToken(header).value) ==> r == Reject(ExpiredToken)
    ensures r.Proceed? && r.principal.Some? <==>
              ExtractToken(header).Some? && !blacklisted(ExtractToken(header).value) && validate(ExtractToken(header).value).Valid?
    ensures r.Proceed? && r.principal.Some? ==> r.principal.value == validate(ExtractToken(header).value).userId
    ensures r.Reject? <==> ExtractToken(header).Some? && (blacklisted(ExtractToken(header).value) || !validate(ExtractToken(header).value).Valid?)
  {
    match ExtractToken(header)
    case None => Proceed(None)
    case Some(token) =>
      if blacklisted(token) then Reject(ExpiredToken)
      else
        var check := validate(token);
        if check.Valid? then Proceed(Some(check.userId)) else Reject(FailureStatus(check))
  }

  /** A blacklisted token is refused whatever its signature says: the outcome
      does not depend on validation at all. */
  lemma BlacklistedIgnoresValidation(header: Option<string>, blacklisted: string -> bool,
                                     v1: string -> TokenCheck, v2: string -> TokenCheck)
    requires ExtractToken(header).Some? && blacklisted(ExtractToken(header).value)
    ensures Filter(header, blacklisted, v1) == Filter(header, blacklisted, v2) == Reject(ExpiredToken)
  {
  }

  /** A request authenticated as user `u` carried the bearer header of a
      token that is not blacklisted and validates to `u`. */
  lemma AuthenticatedHadValidBearer(header: Option<string>, blacklisted: string -> bool, validate: string -> TokenCheck, u: nat)
    requires Filter(header, blacklisted, validate) == Proceed(Some(u))
    ensures exists t :: header == Some(BEARER_PREFIX + t) && !blacklisted(t) && validate(t) == Valid(u)
  {
    var t := ExtractToken(header).value;
    assert header == Some(BEARER_PREFIX + t);
  }
}

=== FILE: ledger.dfy ===
/** The persistent state the billing services work on: the plan catalog,
    users, subscriptions, invoices, payments and payment methods, plus the
    provider's side: the payment schedules it holds and the payments it has
    charged.

    Database-generated identities (users, subscriptions, payment methods) are
    positions in their sequences; invoices and payments are keyed by their
    string ids. A repository `save` of an existing entity is a map or
    sequence update. */
module Ledgers {
  import opened Common
  import opened Plans
  import opened Subscriptions
  import opened Invoices
  import opened Payments
  import opened PaymentMethods

  datatype User = User(id: nat, providerId: string, email: string, name: string)

  datatype Ledger = Ledger(
    plans: seq<SubscriptionPlan>,
    users: seq<User>,
    subs: seq<Subscription>,
    invoices: map<string, Invoice>,
    payments: map<string, Payment>,
    methods: seq<PaymentMethod>,
    schedules: set<string>,
    charges: set<string>)

  /** The positions of the rows a repository query matches, in order. */
  function Where<T>(rows: seq<T>, matches: T -> bool): (r: seq<nat>)
    ensures forall k :: 0 <= k < |r| ==> r[k] < |rows| && matches(rows[r[k]])
    ensures forall i {:trigger i in r} :: 0 <= i < |rows| && matches(rows[i]) ==> i in r
    ensures forall a, b :: 0 <= a < b < |r| ==> r[a] < r[b]
  {
    if |rows| == 0 then []
    else
      var init := Where(rows[..|rows| - 1], matches);
      if matches(rows[|rows| - 1]) then init + [|rows| - 1] else init
  }

  /** A repository query declared to return at most one row: nothing, the
      one row, or a failure when several rows match. */
  function SingleResult(rows: seq<nat>): (r: Result<Option<nat>>)
    ensures |rows| == 0 <==> r == Ok(None)
    ensures |rows| == 1 ==> r == Ok(Some(rows[0]))
    ensures |rows| > 1 <==> r == Err(InternalServerError)
  {
    if |rows| == 0 then Ok(None)
    else if |rows| == 1 then Ok(Some(rows[0]))
    else Err(InternalServerError)
  }

  /** The user's active payment methods, oldest first. */
  function ActiveMethodsOf(L: Ledger, userId: nat): (r: seq<nat>)
    ensures forall k :: 0 <= k < |r| ==> r[k] < |L.methods| && L.methods[r[k]].userId == userId && L.methods[r[k]].isActive
    ensures forall i :: 0 <= i < |L.methods| && L.methods[i].userId == userId && L.methods[i].isActive ==> i in r
    ensures forall a, b :: 0 <= a < b < |r| ==> r[a] < r[b]
  {
    Where(L.methods, (m: PaymentMethod) => m.userId == userId && m.isActive)
  }

  /** A user none of whose methods is active gets nothing from the lookup. */
  lemma {:induction false} NoActiveMethods(L: Ledger, userId: nat)
    requires forall i :: 0 <= i < |L.methods| ==> !(L.methods[i].userId == userId && L.methods[i].isActive)
    ensures ActiveMethodsOf(L, userId) == []
    decreases |L.methods|
  {
    if |L.methods| > 0 {
      NoActiveMethods(L.(methods := L.methods[..|L.methods| - 1]), userId);
    }
  }

  /** Saving a new active method for the user adds its position to the end
      of the lookup's answer. */
  lemma AppendActiveMethod(L: Ledger, userId: nat, m: PaymentMethod)
    requires m.userId == userId && m.isActive
    ensures ActiveMethodsOf(L.(methods := L.methods + [m]), userId) == ActiveMethodsOf(L, userId) + [|L.methods|]
  {
    assert (L.methods + [m])[..|L.methods|] == L.methods;
  }

  /** The state between requests: identities match positions and keys, every
      subscription is well formed, every invoice belongs to a stored
      subscription and every payment to a stored invoice, and no user has two
      active default payment methods. */
  predicate WellFormed(L: Ledger) {
    && UniqueCatalog(L.plans)
    && (forall i :: 0 <= i < |L.users| ==> L.users[i].id == i)
    && (forall i :: 0 <= i < |L.subs| ==> L.subs[i].id == i && Wf(L.subs[i]))
    && (forall k :: k in L.invoices ==> L.invoices[k].id == k && L.invoices[k].subscriptionId < |L.subs|)
    && (forall k :: k in L.payments ==> L.payments[k].id == k && L.payments[k].invoiceId in L.invoices)
    && (forall i :: 0 <= i < |L.methods| ==> L.methods[i].id == i)
    && AtMostOneActiveDefault(L.methods)
  }

  /** What a service call leaves behind: the state as of the end of the call
      (before any rollback) and its result. */
  datatype Step<T> = Step(ledger: Ledger, result: Result<T>)

  /** The subscription a stored payment ultimately bills. */
  function SubscriptionOf(L: Ledger, paymentId: string): (r: nat)
    requires WellFormed(L) && paymentId in L.payments
    ensures r < |L.subs|
    ensures r == L.invoices[L.payments[paymentId].invoiceId].subscriptionId
  {
    L.invoices[L.payments[paymentId].invoiceId].subscriptionId
  }

  /** Saving a changed subscription keeps the state well formed when the
      subscription is well formed and keeps its identity. */
  lemma PutSubscriptionPreserves(L: Ledger, s: Subscription)
    requires WellFormed(L) && s.id < |L.subs| && Wf(s)
    ensures WellFormed(L.(subs := L.subs[s.id := s]))
  {
  }

  /** Saving a new invoice for a stored subscription, and a new payment for
      a stored invoice, keeps the state well formed. */
  lemma AddInvoiceAndPaymentPreserves(L: Ledger, inv: Invoice, p: Payment)
    requires WellFormed(L) && inv.subscriptionId < |L.subs|
    requires p.invoiceId == inv.id
    ensures WellFormed(L.(invoices := L.invoices[inv.id := inv], payments := L.payments[p.id := p]))
  {
  }
}

=== FILE: outbox.dfy ===
/** The OutboxEvent entity: a durable "create the payment schedule of
    subscription X with billing key Y" work item, its status and retry
    bookkeeping, and its serialized payload.

    The payload is the JSON object {"subscriptionId":N,"billingKey":"K"}.
    This model's encoder escapes the key as follows: a quote and a backslash
    get a backslash, a control character below U+0020 becomes \u00XX, and
    every other character is copied.

    The failure reason is kept as Java holds it, a sequence of UTF-16 code
    units, because its 500-character cut counts those units. */
module Outbox {
  import opened Common

  datatype OutboxStatus = Pending | Processed | Failed

  datatype OutboxEvent = OutboxEvent(
    id: nat,
    aggregateType: string,
    aggregateId: nat,
    eventType: string,
    payload: string,
    status: OutboxStatus,
    retryCount: nat,
    failReason: Option<JavaString>)

  const AGGREGATE_SUBSCRIPTION: string := "SUBSCRIPTION"
  const SCHEDULE_CREATE: string := "SCHEDULE_CREATE"
  const MAX_REASON_LENGTH: nat := 500

  datatype SchedulePayload = SchedulePayload(subscriptionId: nat, billingKey: string)

  // ---------------------------------------------------------------- numbers

  predicate IsDigit(c: char) {
    '0' <= c <= '9'
  }

  function DigitChar(d: nat): (c: char)
    requires d < 10
    ensures IsDigit(c)
  {
    "0123456789"[d]
  }

  function DigitValue(c: char): nat
    requires IsDigit(c)
  {
    (c as int - '0' as int) as nat
  }

  /** Decimal digits of a number, most significant first. */
  function NatToString(n: nat): (s: string)
    ensures |s| > 0
    ensures forall i :: 0 <= i < |s| ==> IsDigit(s[i])
    decreases n
  {
    if n < 10 then [DigitChar(n)] else NatToString(n / 10) + [DigitChar(n % 10)]
  }

  /** The value of a string of digits. */
  function DigitsValue(ds: string): nat
    requires forall i :: 0 <= i < |ds| ==> IsDigit(ds[i])
  {
    if |ds| == 0 then 0 else 10 * DigitsValue(ds[..|ds| - 1]) + DigitValue(ds[|ds| - 1])
  }

  /** The longest prefix of `s` made of digits. */
  function TakeDigits(s: string): (ds: string)
    ensures |ds| <= |s| && ds == s[..|ds|]
    ensures forall i :: 0 <= i < |ds| ==> IsDigit(ds[i])
    ensures |ds| < |s| ==> !IsDigit(s[|ds|])
  {
    if |s| == 0 || !IsDigit(s[0]) then [] else [s[0]] + TakeDigits(s[1..])
  }

  lemma {:induction false} DigitsValueOfNatToString(n: nat)
    ensures DigitsValue(NatToString(n)) == n
    decreases n
  {
    var s := NatToString(n);
    if n < 10 {
      assert s[..0] == [];
      assert DigitValue("0123456789"[n]) == n;
    } else {
      DigitsValueOfNatToString(n / 10);
      assert s[..|s| - 1] == NatToString(n / 10);
      assert DigitValue("0123456789"[n % 10]) == n % 10;
    }
  }

  lemma {:induction false} TakeDigitsOfDigitsThenOther(ds: string, rest: string)
    requires forall i :: 0 <= i < |ds| ==> IsDigit(ds[i])
    requires |rest| > 0 && !IsDigit(rest[0])
    ensures TakeDigits(ds + rest) == ds
    decreases |ds|
  {
    if |ds| > 0 {
      assert (ds + rest)[1..] == ds[1..] + rest;
      TakeDigitsOfDigitsThenOther(ds[1..], rest);
      assert [ds[0]] + ds[1..] == ds;
    } else {
      assert (ds + rest)[0] == rest[0];
    }
  }

  // ---------------------------------------------------------------- strings

  const HEX: string := "0123456789ABCDEF"

  function HexValue(c: char): Option<nat> {
    if '0' <= c <= '9' then Some((c as int - '0' as int) as nat)
    else if 'A' <= c <= 'F' then Some((c as int - 'A' as int + 10) as nat)
    else if 'a' <= c <= 'f' then Some((c as int - 'a' as int + 10) as nat)
    else None
  }

  /** The JSON escape of one character. */
  function EscapeChar(c: char): (r: string)
    ensures |r| > 0
  {
    if c == '"' then "\\\""
    else if c == '\\' then "\\\\"
    else if c < ' ' then "\\u00" + [HEX[(c as int) / 16], HEX[(c as int) % 16]]
    else [c]
  }

  /** The JSON escape of a string (without the surrounding quotes). */
  function Escape(s: string): string {
    if |s| == 0 then "" else EscapeChar(s[0]) + Escape(s[1..])
  }

  /** Reads the body of a JSON string literal up to and including its closing
      quote; returns the decoded text and what follows the quote. */
  function ParseString(s: string): Option<(string, string)>
    decreases |s|
  {
    if |s| == 0 then None
    else if s[0] == '"' then Some(("", s[1..]))
    else if s[0] != '\\' then
      match ParseString(s[1..])
      case None => None
      case Some((t, rest)) => Some(([s[0]] + t, rest))
    else if |s| < 2 then None
    else if s[1] == '"' || s[1] == '\\' || s[1] == '/' then
      match ParseString(s[2..])
      case None => None
      case Some((t, rest)) => Some(([s[1]] + t, rest))
    else if s[1] == 'u' && |s| >= 6 then
      match (HexValue(s[2]), HexValue(s[3]), HexValue(s[4]), HexValue(s[5]))
      case (Some(a), Some(b), Some(c), Some(d)) =>
        var code := ((a * 16 + b) * 16 + c) * 16 + d;
        if 0xD800 <= code < 0xE000 then None
        else (
          match ParseString(s[6..])
          case None => None
          case Some((t, rest)) => Some(([code as char] + t, rest)))
      case _ => None
    else None
  }

  lemma EscapeCharParses(c: char, tail: string, t: string, rest: string)
    requires ParseString(tail) == Some((t, rest))
    ensures ParseString(EscapeChar(c) + tail) == Some(([c] + t, rest))
  {
    var e := EscapeChar(c) + tail;
    if c == '"' || c == '\\' {
      assert e[2..] == tail;
    } else if c < ' ' {
      var n := c as int;
      assert e[2..6] == ['0', '0', HEX[n / 16], HEX[n % 16]];
      assert e[6..] == tail;
      assert HexValue(HEX[n / 16]) == Some(n / 16);
      assert HexValue(HEX[n % 16]) == Some(n % 16);
      assert ((0 * 16 + 0) * 16 + n / 16) * 16 + n % 16 == n;
    } else {
      assert e[1..] == tail;
    }
  }

  /** Escaping, closing the literal and reading it back gives the text. */
  lemma {:induction false} EscapeRoundTrip(s: string, rest: string)
    ensures ParseString(Escape(s) + "\"" + rest) == Some((s, rest))
    decreases |s|
  {
    if |s| == 0 {
      assert Escape(s) + "\"" + rest == "\"" + rest;
      assert ("\"" + rest)[1..] == rest;
    } else {
      var tail := Escape(s[1..]) + "\"" + rest;
      EscapeRoundTrip(s[1..], rest);
      EscapeCharParses(s[0], tail, s[1..], rest);
      assert Escape(s) == EscapeChar(s[0]) + Escape(s[1..]);
      assert Escape(s) + "\"" + rest == EscapeChar(s[0]) + tail;
      assert [s[0]] + s[1..] == s;
    }
  }

  // ---------------------------------------------------------------- payload

  const PAYLOAD_HEAD: string := "{\"subscriptionId\":"
  const PAYLOAD_MIDDLE: string := ",\"billingKey\":\""
  const PAYLOAD_TAIL: string := "}"

  function EncodePayload(p: SchedulePayload): string {
    PAYLOAD_HEAD + NatToString(p.subscriptionId) + PAYLOAD_MIDDLE + Escape(p.billingKey) + "\"" + PAYLOAD_TAIL
  }

  function DecodePayload(s: string): Option<SchedulePayload> {
    if !StartsWith(s, PAYLOAD_HEAD) then None
    else
      var afterHead := s[|PAYLOAD_HEAD|..];
      var ds := TakeDigits(afterHead);
      var afterId := afterHead[|ds|..];
      if |ds| == 0 || !StartsWith(afterId, PAYLOAD_MIDDLE) then None
      else
        match ParseString(afterId[|PAYLOAD_MIDDLE|..])
        case None => None
        case Some((key, rest)) =>
          if rest == PAYLOAD_TAIL then Some(SchedulePayload(DigitsValue(ds), key)) else None
  }

  /** Reading a written payload gives back exactly what was written. */
  lemma PayloadRoundTrip(p: SchedulePayload)
    ensures DecodePayload(EncodePayload(p)) == Some(p)
  {
    var digits := NatToString(p.subscriptionId);
    var keyPart := Escape(p.billingKey) + "\"" + PAYLOAD_TAIL;
    assert EncodePayload(p) == PAYLOAD_HEAD + (digits + (PAYLOAD_MIDDLE + keyPart));
    EscapeRoundTrip(p.billingKey, PAYLOAD_TAIL);
    DecodeParts(digits, keyPart, p.billingKey);
    DigitsValueOfNatToString(p.subscriptionId);
  }

  /** A payload made of the head, a number's digits, the middle and a string
      literal closed by the tail reads back as that number and string. */
  lemma DecodeParts(digits: string, keyPart: string, key: string)
    requires |digits| > 0 && forall i :: 0 <= i < |digits| ==> IsDigit(digits[i])
    requires ParseString(keyPart) == Some((key, PAYLOAD_TAIL))
    ensures DecodePayload(PAYLOAD_HEAD + (digits + (PAYLOAD_MIDDLE + keyPart))) == Some(SchedulePayload(DigitsValue(digits), key))
  {
    var s := PAYLOAD_HEAD + (digits + (PAYLOAD_MIDDLE + keyPart));
    assert s[..|PAYLOAD_HEAD|] == PAYLOAD_HEAD;
    var afterHead := s[|PAYLOAD_HEAD|..];
    assert afterHead == digits + (PAYLOAD_MIDDLE + keyPart);
    TakeDigitsOfDigitsThenOther(digits, PAYLOAD_MIDDLE + keyPart);
    var afterId := afterHead[|digits|..];
    assert afterId == PAYLOAD_MIDDLE + keyPart;
    assert afterId[..|PAYLOAD_MIDDLE|] == PAYLOAD_MIDDLE;
    assert afterId[|PAYLOAD_MIDDLE|..] == keyPart;
  }

  // -------------------------------------------------------------- Java text

  /** A Java `char`: one UTF-16 code unit. */
  type CodeUnit = u: int | 0 <= u < 0x1_0000

  /** A Java `String`: its `length()` and `substring` count code units, so a
      character outside the Basic Multilingual Plane counts as two. */
  type JavaString = seq<CodeUnit>

  predicate IsHighSurrogate(u: CodeUnit) {
    0xD800 <= u < 0xDC00
  }

  predicate IsLowSurrogate(u: CodeUnit) {
    0xDC00 <= u < 0xE000
  }

  /** The UTF-16 encoding of one character: the character itself below
      U+10000, otherwise a high surrogate followed by a low one. */
  function Utf16Char(c: char): (r: JavaString)
    ensures |r| == (if IsWide(c) then 2 else 1)
    ensures IsWide(c) ==> IsHighSurrogate(r[0]) && IsLowSurrogate(r[1])
    ensures !IsWide(c) ==> !IsHighSurrogate(r[0]) && !IsLowSurrogate(r[0])
  {
    var n := c as int;
    if n < 0x1_0000 then [n]
    else [0xD800 + (n - 0x1_0000) / 0x400, 0xDC00 + (n - 0x1_0000) % 0x400]
  }

  /** The UTF-16 encoding of a text. */
  function Utf16(s: string): (r: JavaString)
    ensures |s| <= |r| <= 2 * |s|
    ensures |r| > 0 ==> !IsHighSurrogate(r[|r| - 1])
  {
    if |s| == 0 then [] else Utf16Char(s[0]) + Utf16(s[1..])
  }

  /** Reads UTF-16 back into text; a surrogate without its partner is not
      text. */
  function FromUtf16(u: JavaString): Option<string>
    decreases |u|
  {
    if |u| == 0 then Some([])
    else if IsHighSurrogate(u[0]) then
      if |u| >= 2 && IsLowSurrogate(u[1]) then
        match FromUtf16(u[2..])
        case None => None
        case Some(t) => Some([((u[0] as int - 0xD800) * 0x400 + (u[1] as int - 0xDC00) + 0x1_0000) as char] + t)
      else None
    else if IsLowSurrogate(u[0]) then None
    else
      match FromUtf16(u[1..])
      case None => None
      case Some(t) => Some([u[0] as char] + t)
  }

  lemma Utf16CharDecodes(c: char, tail: JavaString, t: string)
    requires FromUtf16(tail) == Some(t)
    ensures FromUtf16(Utf16Char(c) + tail) == Some([c] + t)
  {
    var e := Utf16Char(c) + tail;
    var n := c as int;
    if IsWide(c) {
      assert e[2..] == tail;
      var m := n - 0x1_0000;
      assert (m / 0x400) * 0x400 + m % 0x400 == m;
    } else {
      assert e[1..] == tail;
    }
  }

  /** Encoding a text in UTF-16 and reading it back gives the text. */
  lemma {:induction false} Utf16RoundTrip(s: string)
    ensures FromUtf16(Utf16(s)) == Some(s)
    decreases |s|
  {
    if |s| > 0 {
      Utf16RoundTrip(s[1..]);
      Utf16CharDecodes(s[0], Utf16(s[1..]), s[1..]);
      assert [s[0]] + s[1..] == s;
    }
  }

  /** A text of wide characters takes two code units per character, and
      every character begins at an even unit with its high surrogate. */
  lemma {:induction false} WideUtf16(s: string)
    requires forall i :: 0 <= i < |s| ==> IsWide(s[i])
    ensures |Utf16(s)| == 2 * |s|
    ensures forall k :: 0 <= k < |s| ==> IsHighSurrogate(Utf16(s)[2 * k])
    decreases |s|
  {
    if |s| > 0 {
      WideUtf16(s[1..]);
      var u := Utf16(s);
      assert u == Utf16Char(s[0]) + Utf16(s[1..]);
      forall k | 0 <= k < |s|
        ensures IsHighSurrogate(u[2 * k])
      {
        if k > 0 {
          assert u[2 * k] == Utf16(s[1..])[2 * (k - 1)];
        }
      }
    }
  }

  /** Units that end in a high surrogate are not the encoding of any text. */
  lemma {:induction false} EndsHighIsNoText(u: JavaString)
    requires |u| > 0 && IsHighSurrogate(u[|u| - 1])
    ensures FromUtf16(u).None?
    decreases |u|
  {
    if |u| >= 2 && IsHighSurrogate(u[0]) && IsLowSurrogate(u[1]) {
      if |u| > 2 {
        EndsHighIsNoText(u[2..]);
      }
    } else if !IsHighSurrogate(u[0]) && !IsLowSurrogate(u[0]) && |u| > 1 {
      EndsHighIsNoText(u[1..]);
    }
  }

  // ----------------------------------------------------------------- entity

  /** A new SCHEDULE_CREATE event for a subscription, PENDING, never retried. */
  function ScheduleCreate(id: nat, subscriptionId: nat, billingKey: string): (e: OutboxEvent)
    ensures e.aggregateType == AGGREGATE_SUBSCRIPTION && e.aggregateId == subscriptionId
    ensures e.eventType == SCHEDULE_CREATE
    ensures e.status == Pending && e.retryCount == 0 && e.failReason.None?
    ensures DecodePayload(e.payload) == Some(SchedulePayload(subscriptionId, billingKey))
  {
    PayloadRoundTrip(SchedulePayload(subscriptionId, billingKey));
    OutboxEvent(id, AGGREGATE_SUBSCRIPTION, subscriptionId, SCHEDULE_CREATE,
                EncodePayload(SchedulePayload(subscriptionId, billingKey)), Pending, 0, None)
  }

  /** The billing key stored in the payload; `None` where reading the payload
      fails. */
  function ExtractBillingKey(e: OutboxEvent): Option<string> {
    match DecodePayload(e.payload)
    case None => None
    case Some(p) => Some(p.billingKey)
  }

  /** The key an event was created with is the key it hands back. */
  lemma ExtractBillingKeyRoundTrip(id: nat, subscriptionId: nat, billingKey: string)
    ensures ExtractBillingKey(ScheduleCreate(id, subscriptionId, billingKey)) == Some(billingKey)
  {
  }

  /** Cuts a reason to at most `max` code units, as `length()` and
      `substring(0, max)` do; absent stays absent. */
  function Truncate(v: Option<JavaString>, max: nat): (r: Option<JavaString>)
    ensures v.None? <==> r.None?
    ensures r.Some? ==> |r.value| <= max && |r.value| <= |v.value| && r.value == v.value[..|r.value|]
    ensures r.Some? && |v.value| <= max ==> r.value == v.value
    ensures r.Some? && |v.value| > max ==> |r.value| == max
  {
    match v
    case None => None
    case Some(s) => if |s| <= max then Some(s) else Some(s[..max])
  }

  /** A character outside the Basic Multilingual Plane. */
  predicate IsWide(c: char) {
    c as int >= 0x1_0000
  }

  /** Counted in code units, a text of one ASCII letter and 250 wide
      characters is 501 long although it holds 251 characters, so it is cut;
      the cut falls between the two halves of the last character, and what
      is stored is no longer the encoding of any text. */
  lemma TruncateCanSplitAPair(s: string)
    requires |s| == 251 && s[0] == 'a'
    requires forall i :: 1 <= i < |s| ==> IsWide(s[i])
    ensures |Utf16(s)| == 501
    ensures var r := Truncate(Some(Utf16(s)), MAX_REASON_LENGTH).value;
            |r| == MAX_REASON_LENGTH && IsHighSurrogate(r[|r| - 1]) && FromUtf16(r).None?
  {
    var t := s[1..];
    assert Utf16(s) == Utf16Char('a') + Utf16(t);
    WideUtf16(t);
    assert Utf16(s)[499] == Utf16(t)[2 * 249];
    var r := Truncate(Some(Utf16(s)), MAX_REASON_LENGTH).value;
    EndsHighIsNoText(r);
  }

  /** The fields fixed at creation. */
  predicate SameIdentity(a: OutboxEvent, b: OutboxEvent) {
    && a.id == b.id && a.aggregateType == b.aggregateType && a.aggregateId == b.aggregateId
    && a.eventType == b.eventType && a.payload == b.payload
  }

  function MarkAsProcessed(e: OutboxEvent): (r: OutboxEvent)
    ensures r.status == Processed
    ensures r.(status := e.status) == e
  {
    e.(status := Processed)
  }

  function MarkAsFailed(e: OutboxEvent, reason: Option<JavaString>): (r: OutboxEvent)
    ensures r.status == Failed
    ensures r.failReason.Some? ==> |r.failReason.value| <= MAX_REASON_LENGTH
    ensures r.failReason == Truncate(reason, MAX_REASON_LENGTH)
    ensures r.retryCount == e.retryCount && SameIdentity(e, r)
  {
    e.(status := Failed, failReason := Truncate(reason, MAX_REASON_LENGTH))
  }

  function RecordRetryFailure(e: OutboxEvent, reason: Option<JavaString>): (r: OutboxEvent)
    ensures r.retryCount == e.retryCount + 1
    ensures r.failReason == Truncate(reason, MAX_REASON_LENGTH)
    ensures r.status == e.status && SameIdentity(e, r)
  {
    e.(retryCount := e.retryCount + 1, failReason := Truncate(reason, MAX_REASON_LENGTH))
  }
}

=== FILE: outbox_processor.dfy ===
/** The scheduled outbox relay: each run takes the twenty oldest PENDING
    events, hands every SCHEDULE_CREATE event to the schedule-creation step,
    and counts a failure against the event, giving up after the fifth.

    The outbox is a sequence in creation order (oldest first). What the
    schedule-creation step does is not visible to this model; its outcome for
    each event is an input. */
module OutboxProcessor {
  import opened Common
  import opened Outbox

  const MAX_RETRY_COUNT: nat := 5
  const BATCH_SIZE: nat := 20

  /** How the schedule-creation step ended for one event. */
  datatype Outcome = Succeeded | Threw(message: Option<JavaString>)

  predicate Increasing(s: seq<nat>) {
    forall a, b :: 0 <= a < b < |s| ==> s[a] < s[b]
  }

  /** Positions `from..` of the PENDING events, in order. */
  function PendingFrom(outbox: seq<OutboxEvent>, from: nat): (r: seq<nat>)
    requires from <= |outbox|
    ensures Increasing(r)
    ensures forall k :: 0 <= k < |r| ==> from <= r[k] < |outbox| && outbox[r[k]].status == Pending
    ensures forall i :: from <= i < |outbox| && outbox[i].status == Pending ==> i in r
    decreases |outbox| - from
  {
    if from == |outbox| then []
    else
      var rest := PendingFrom(outbox, from + 1);
      if outbox[from].status == Pending then [from] + rest else rest
  }

  /** The run's selection: the positions of the oldest PENDING events, at
      most twenty; a PENDING event is left out only when twenty older ones
      were taken. */
  function Batch(outbox: seq<OutboxEvent>): (r: seq<nat>)
    ensures |r| <= BATCH_SIZE && Increasing(r)
    ensures forall k :: 0 <= k < |r| ==> r[k] < |outbox| && outbox[r[k]].status == Pending
    ensures forall i :: 0 <= i < |outbox| && outbox[i].status == Pending && i !in r ==>
              |r| == BATCH_SIZE && r[BATCH_SIZE - 1] < i
  {
    var all := PendingFrom(outbox, 0);
    var r := if |all| <= BATCH_SIZE then all else all[..BATCH_SIZE];
    forall i | 0 <= i < |outbox| && outbox[i].status == Pending && i !in r
      ensures |r| == BATCH_SIZE && r[BATCH_SIZE - 1] < i
    {
      var k :| 0 <= k < |all| && all[k] == i;
      assert k >= BATCH_SIZE;
    }
    r
  }

  /** One event's treatment: only SCHEDULE_CREATE events are handled; a
      failure is counted, and the event turns FAILED once the count reaches
      the ceiling. A success leaves the event as it was. */
  function ProcessOne(e: OutboxEvent, o: Outcome): (r: OutboxEvent)
    ensures SameIdentity(e, r)
    ensures e.eventType != SCHEDULE_CREATE || o.Succeeded? ==> r == e
    ensures e.eventType == SCHEDULE_CREATE && o.Threw? ==>
              && r.retryCount == e.retryCount + 1
              && r.failReason == Truncate(o.message, MAX_REASON_LENGTH)
              && (r.status == Failed <==> e.status == Failed || e.retryCount + 1 >= MAX_RETRY_COUNT)
              && (e.retryCount + 1 < MAX_RETRY_COUNT ==> r.status == e.status)
    ensures r.status != Processed || e.status == Processed
  {
    if e.eventType != SCHEDULE_CREATE then e
    else match o
      case Succeeded => e
      case Threw(m) =>
        var counted := RecordRetryFailure(e, m);
        if counted.retryCount >= MAX_RETRY_COUNT then MarkAsFailed(counted, m) else counted
  }

  /** One run of the relay over the whole outbox. */
  method ProcessOutboxEvents(outbox: seq<OutboxEvent>, outcomes: seq<Outcome>)
    returns (r: seq<OutboxEvent>)
    requires |outcomes| == |outbox|
    ensures |r| == |outbox|
    ensures forall i :: 0 <= i < |outbox| && i !in Batch(outbox) ==> r[i] == outbox[i]
    ensures forall i :: 0 <= i < |outbox| && i in Batch(outbox) ==> r[i] == ProcessOne(outbox[i], outcomes[i])
    ensures forall i :: 0 <= i < |outbox| ==> SameIdentity(outbox[i], r[i])
    ensures forall i :: 0 <= i < |outbox| && r[i].status == Processed ==> outbox[i].status == Processed
  {
    var batch := Batch(outbox);
    r := outbox;
    var i := 0;
    while i < |outbox|
      invariant 0 <= i <= |outbox| && |r| == |outbox|
      invariant forall j :: 0 <= j < i ==>
                  r[j] == if j in batch then ProcessOne(outbox[j], outcomes[j]) else outbox[j]
      invariant forall j :: i <= j < |outbox| ==> r[j] == outbox[j]
    {
      if i in batch {
        r := r[i := ProcessOne(r[i], outcomes[i])];
      }
      i := i + 1;
    }
  }

  /** `k` runs of the relay in which the event's creation step fails every
      time it is selected; a FAILED event is no longer selected. */
  function FailingRuns(e: OutboxEvent, k: nat, message: Option<JavaString>): (r: OutboxEvent)
    ensures SameIdentity(e, r)
    decreases k
  {
    if k == 0 then e
    else
      var before := FailingRuns(e, k - 1, message);
      if before.status == Pending then ProcessOne(before, Threw(message)) else before
  }

  /** The retry ceiling: a fresh SCHEDULE_CREATE event that keeps failing is
      retried exactly five times and turns FAILED on the fifth failure. */
  lemma {:induction false} RetryCeiling(e: OutboxEvent, k: nat, message: Option<JavaString>)
    requires e.eventType == SCHEDULE_CREATE && e.status == Pending && e.retryCount == 0
    ensures FailingRuns(e, k, message).retryCount == if k < MAX_RETRY_COUNT then k else MAX_RETRY_COUNT
    ensures FailingRuns(e, k, message).status == Failed <==> k >= MAX_RETRY_COUNT
    ensures FailingRuns(e, k, message).status == Pending <==> k < MAX_RETRY_COUNT
  {
    if k > 0 {
      RetryCeiling(e, k - 1, message);
    }
  }
}

=== FILE: past_due.dfy ===
/** The nightly sweep that expires subscriptions left PAST_DUE beyond the
    grace period, revoking their payment schedule first.

    The clock (`now`), each subscription's last-update instant and the
    provider's answer to each revoke are inputs. */
module PastDue {
  import opened Common
  import opened Time
  import opened Subscriptions
  import opened Ledgers
  import opened ScheduleService

  const GRACE_PERIOD_DAYS: int := 7

  /** Subscriptions last updated strictly before this instant are due. */
  function Cutoff(now: Instant): (r: Instant)
    ensures r + GRACE_PERIOD_DAYS * SECONDS_PER_DAY == now
  {
    now - GRACE_PERIOD_DAYS * SECONDS_PER_DAY
  }

  /** The sweep's query: PAST_DUE and last updated before the cutoff. */
  predicate Due(s: Subscription, updatedAt: Instant, now: Instant) {
    s.status.PastDue? && updatedAt < Cutoff(now)
  }

  /** A due subscription is expired unless it names a schedule whose revoke
      fails: that failure is logged and the subscription is left as it was. */
  predicate Expires(s: Subscription, updatedAt: Instant, now: Instant, revoke: Gateway<Unit>) {
    Due(s, updatedAt, now) && (s.scheduleId.None? || revoke.Done?)
  }

  /** One subscription after the sweep. */
  function SweepOne(s: Subscription, updatedAt: Instant, now: Instant, revoke: Gateway<Unit>): (r: Subscription)
    ensures Wf(s) ==> Wf(r)
    ensures Expires(s, updatedAt, now, revoke) ==> r.status.Expired? && r.scheduleId.None?
    ensures !Expires(s, updatedAt, now, revoke) ==> r == s
    ensures r.(status := s.status, scheduleId := s.scheduleId) == s
  {
    if Expires(s, updatedAt, now, revoke) then Expire(SetScheduleId(s, None)) else s
  }

  /** Expiring one subscription: its schedule is revoked at the provider,
      its id cleared, and the subscription EXPIRED. */
  function ExpireOne(L: Ledger, subId: nat): (r: Ledger)
    requires WellFormed(L) && subId < |L.subs|
    ensures WellFormed(r) && OnlyBilling(L, r, subId)
    ensures r.invoices == L.invoices && r.payments == L.payments
    ensures r.subs[subId] == Expire(SetScheduleId(L.subs[subId], None))
    ensures r.schedules == L.schedules - ScheduleSet(L.subs[subId].scheduleId)
  {
    var c := RevokeAndClear(L, subId);
    var s := Expire(c.subs[subId]);
    PutSubscriptionPreserves(c, s);
    c.(subs := c.subs[subId := s])
  }

  /** Expiring a subscription keeps every remaining schedule id live. */
  lemma ExpireOneKeepsIdsLive(L: Ledger, subId: nat)
    requires WellFormed(L) && subId < |L.subs| && ScheduleIdsLive(L)
    ensures ScheduleIdsLive(ExpireOne(L, subId))
  {
    RevokeAndClearKeepsIdsLive(L, subId);
  }

  /** Schedule `x` belongs to one of the first `n` subscriptions, and that
      subscription expires in the sweep. */
  predicate RevokedBy(L: Ledger, updatedAt: seq<Instant>, now: Instant, revokes: seq<Gateway<Unit>>, n: nat, x: string)
    requires n <= |L.subs| == |updatedAt| == |revokes|
  {
    exists j :: 0 <= j < n && Expires(L.subs[j], updatedAt[j], now, revokes[j]) && L.subs[j].scheduleId == Some(x)
  }

  /** The state after the sweep has visited the first `i` subscriptions. */
  predicate SweptUpTo(L: Ledger, r: Ledger, updatedAt: seq<Instant>, now: Instant, revokes: seq<Gateway<Unit>>, i: nat)
    requires i <= |L.subs| == |updatedAt| == |revokes|
  {
    && WellFormed(r)
    && r.plans == L.plans && r.users == L.users && r.methods == L.methods && r.charges == L.charges
    && r.invoices == L.invoices && r.payments == L.payments
    && |r.subs| == |L.subs|
    && (forall j :: 0 <= j < i ==> r.subs[j] == SweepOne(L.subs[j], updatedAt[j], now, revokes[j]))
    && (forall j :: i <= j < |L.subs| ==> r.subs[j] == L.subs[j])
    && r.schedules <= L.schedules
    && (forall j :: 0 <= j < i && Expires(L.subs[j], updatedAt[j], now, revokes[j]) && L.subs[j].scheduleId.Some? ==>
          L.subs[j].scheduleId.value !in r.schedules)
    && (forall x :: x in L.schedules && x !in r.schedules ==> RevokedBy(L, updatedAt, now, revokes, i, x))
    && (ScheduleIdsLive(L) ==> ScheduleIdsLive(r))
  }

  /** The sweep's visit to subscription `i`. */
  function SweepAt(r: Ledger, i: nat, expires: bool): (r': Ledger)
    requires WellFormed(r) && i < |r.subs|
    ensures WellFormed(r')
  {
    if expires then ExpireOne(r, i) else r
  }

  /** Visiting one more subscription extends the sweep's progress. */
  lemma SweepStep(L: Ledger, r: Ledger, updatedAt: seq<Instant>, now: Instant, revokes: seq<Gateway<Unit>>, i: nat)
    requires i < |L.subs| == |updatedAt| == |revokes|
    requires SweptUpTo(L, r, updatedAt, now, revokes, i)
    ensures SweptUpTo(L, SweepAt(r, i, Expires(L.subs[i], updatedAt[i], now, revokes[i])), updatedAt, now, revokes, i + 1)
  {
    if Expires(L.subs[i], updatedAt[i], now, revokes[i]) {
      if ScheduleIdsLive(L) {
        ExpireOneKeepsIdsLive(r, i);
      }
      var r' := ExpireOne(r, i);
      forall x | x in L.schedules && x !in r'.schedules
        ensures RevokedBy(L, updatedAt, now, revokes, i + 1, x)
      {
        if x in r.schedules {
          assert L.subs[i].scheduleId == Some(x);
        }
      }
    }
  }

  /** processExpiredPastDueSubscriptions. */
  method ExpirePastDue(L: Ledger, updatedAt: seq<Instant>, now: Instant, revokes: seq<Gateway<Unit>>)
    returns (r: Ledger)
    requires WellFormed(L) && |updatedAt| == |L.subs| && |revokes| == |L.subs|
    ensures WellFormed(r)
    ensures r.plans == L.plans && r.users == L.users && r.methods == L.methods && r.charges == L.charges
    ensures r.invoices == L.invoices && r.payments == L.payments
    ensures |r.subs| == |L.subs|
    ensures forall i :: 0 <= i < |L.subs| ==> r.subs[i] == SweepOne(L.subs[i], updatedAt[i], now, revokes[i])
    ensures r.schedules <= L.schedules
    ensures forall i :: 0 <= i < |L.subs| && Expires(L.subs[i], updatedAt[i], now, revokes[i]) && L.subs[i].scheduleId.Some? ==>
              L.subs[i].scheduleId.value !in r.schedules
    ensures forall x :: x in L.schedules && x !in r.schedules ==> RevokedBy(L, updatedAt, now, revokes, |L.subs|, x)
    ensures ScheduleIdsLive(L) ==> ScheduleIdsLive(r)
  {
    r := L;
    for i := 0 to |L.subs|
      invariant SweptUpTo(L, r, updatedAt, now, revokes, i)
    {
      SweepStep(L, r, updatedAt, now, revokes, i);
      r := SweepAt(r, i, Expires(L.subs[i], updatedAt[i], now, revokes[i]));
    }
  }
}

=== FILE: payment.dfy ===
/** The Payment entity (one charge attempt for one invoice) and the mapping
    of the provider's payment-method variants onto the stored method type. */
module Payments {
  import opened Common
  import opened Time
  import opened Plans
  import Invoices

  datatype PaymentStatus = Pending | Paid | Failed | Canceled

  datatype PaymentMethodType = Card | EasyPay | Mobile | Unknown

  /** The provider's payment-method variants. */
  datatype ProviderMethod =
    | CardMethod
    | EasyPayMethod
    | MobileMethod
    | TransferMethod
    | VirtualAccountMethod
    | GiftCertificateMethod

  /** Total mapping of a (possibly absent) provider method onto the enum. */
  function MethodTypeFrom(m: Option<ProviderMethod>): (r: PaymentMethodType)
    ensures m.None? ==> r == Unknown
    ensures m == Some(CardMethod) <==> r == Card
    ensures m == Some(EasyPayMethod) <==> r == EasyPay
    ensures m == Some(MobileMethod) <==> r == Mobile
  {
    match m
    case None => Unknown
    case Some(CardMethod) => Card
    case Some(EasyPayMethod) => EasyPay
    case Some(MobileMethod) => Mobile
    case Some(_) => Unknown
  }

  datatype Payment = Payment(
    id: string,
    invoiceId: string,
    amount: Decimal,
    currency: Currency,
    status: PaymentStatus,
    methodType: Option<PaymentMethodType>,
    paidAt: Option<DateTime>,
    failedReason: Option<string>)

  /** The identifier of a new payment: "pay_" followed by a fresh UUID; it is
      also the id the provider knows the payment by. */
  function PaymentId(uuid: string): (r: string)
    ensures StartsWith(r, "pay_")
    ensures r[4..] == uuid
  {
    "pay_" + uuid
  }

  /** A payment id is never an invoice id, whatever the two UUIDs: the
      prefixes differ in their first character. */
  lemma PaymentIdIsNoInvoiceId(u: string, v: string)
    ensures PaymentId(u) != Invoices.InvoiceId(v)
  {
  }

  /** A new PENDING payment for an invoice, with no method, time or reason. */
  function Create(uuid: string, invoiceId: string, amount: Decimal, currency: Currency): (r: Payment)
    ensures StartsWith(r.id, "pay_")
    ensures r.status == Pending && r.invoiceId == invoiceId
    ensures r.amount == amount && r.currency == currency
    ensures r.methodType.None? && r.paidAt.None? && r.failedReason.None?
  {
    Payment(PaymentId(uuid), invoiceId, amount, currency, Pending, None, None, None)
  }

  /** What no payment transition may change. */
  predicate SameTerms(a: Payment, b: Payment) {
    a.id == b.id && a.invoiceId == b.invoiceId && a.amount == b.amount && a.currency == b.currency
  }

  function MarkAsPaid(p: Payment, mt: PaymentMethodType, now: DateTime): (r: Payment)
    ensures r.status == Paid && r.methodType == Some(mt) && r.paidAt == Some(now)
    ensures r.failedReason == p.failedReason
    ensures SameTerms(p, r)
  {
    p.(status := Paid, methodType := Some(mt), paidAt := Some(now))
  }

  /** Failure stores the reason and keeps method and payment time. */
  function MarkAsFailed(p: Payment, reason: Option<string>): (r: Payment)
    ensures r.status == Failed && r.failedReason == reason
    ensures r.methodType == p.methodType && r.paidAt == p.paidAt
    ensures SameTerms(p, r)
  {
    p.(status := Failed, failedReason := reason)
  }

  /** Cancellation changes the status and nothing else. */
  function Cancel(p: Payment): (r: Payment)
    ensures r.status == Canceled
    ensures r.(status := p.status) == p
  {
    p.(status := Canceled)
  }
}

=== FILE: payment_method.dfy ===
/** The PaymentMethod entity: a user's stored billing key with masked card
    data, an active flag (deletion is deactivation) and a default flag. */
module PaymentMethods {
  import opened Common

  datatype PaymentMethod = PaymentMethod(
    id: nat,
    userId: nat,
    billingKey: string,
    cardNumber: Option<string>,
    cardBrand: Option<string>,
    isActive: bool,
    isDefault: bool)

  /** A new method is active; it is the default exactly when asked to be. */
  function Create(id: nat, userId: nat, billingKey: string, cardNumber: Option<string>,
                  cardBrand: Option<string>, isDefault: bool): (r: PaymentMethod)
    ensures r.isActive && r.isDefault == isDefault
    ensures r.id == id && r.userId == userId && r.billingKey == billingKey
    ensures r.cardNumber == cardNumber && r.cardBrand == cardBrand
  {
    PaymentMethod(id, userId, billingKey, cardNumber, cardBrand, true, isDefault)
  }

  function Deactivate(m: PaymentMethod): (r: PaymentMethod)
    ensures !r.isActive
    ensures r.(isActive := m.isActive) == m
  {
    m.(isActive := false)
  }

  function SetAsDefault(m: PaymentMethod): (r: PaymentMethod)
    ensures r.isDefault
    ensures r.(isDefault := m.isDefault) == m
  {
    m.(isDefault := true)
  }

  function UnsetDefault(m: PaymentMethod): (r: PaymentMethod)
    ensures !r.isDefault
    ensures r.(isDefault := m.isDefault) == m
  {
    m.(isDefault := false)
  }

  /** Re-registration: new key and card data, active again, default flag kept. */
  function Update(m: PaymentMethod, billingKey: string, cardNumber: Option<string>,
                  cardBrand: Option<string>): (r: PaymentMethod)
    ensures r.isActive && r.isDefault == m.isDefault
    ensures r.billingKey == billingKey && r.cardNumber == cardNumber && r.cardBrand == cardBrand
    ensures r.id == m.id && r.userId == m.userId
  {
    m.(billingKey := billingKey, cardNumber := cardNumber, cardBrand := cardBrand, isActive := true)
  }

  predicate ActiveDefaultOf(m: PaymentMethod, userId: nat) {
    m.userId == userId && m.isActive && m.isDefault
  }

  /** Every user has at most one method that is both active and default. */
  predicate AtMostOneActiveDefault(ms: seq<PaymentMethod>) {
    forall i, j :: 0 <= i < j < |ms| && ms[i].userId == ms[j].userId ==>
      !(ActiveDefaultOf(ms[i], ms[i].userId) && ActiveDefaultOf(ms[j], ms[j].userId))
  }

  /** `Update` reactivates without looking at the default flag, so it keeps
      the invariant only when the method was not a default or the user has no
      other active default. */
  lemma UpdatePreservesUniqueDefault(ms: seq<PaymentMethod>, k: nat, key: string,
                                     number: Option<string>, brand: Option<string>)
    requires AtMostOneActiveDefault(ms) && k < |ms|
    requires ms[k].isDefault ==>
      forall j :: 0 <= j < |ms| && j != k ==> !ActiveDefaultOf(ms[j], ms[k].userId)
    ensures AtMostOneActiveDefault(ms[k := Update(ms[k], key, number, brand)])
  {
  }

  /** Without that side condition the invariant can break: an inactive
      default method updated while another default is active. */
  lemma UpdateCanBreakUniqueDefault()
    ensures exists ms: seq<PaymentMethod>, k: nat ::
      k < |ms| && AtMostOneActiveDefault(ms)
      && !AtMostOneActiveDefault(ms[k := Update(ms[k], "key", None, None)])
  {
    var a := PaymentMethod(0, 7, "old", None, None, false, true);
    var b := PaymentMethod(1, 7, "other", None, None, true, true);
    var ms := [a, b];
    var ms' := ms[0 := Update(ms[0], "key", None, None)];
    assert ActiveDefaultOf(ms'[0], 7) && ActiveDefaultOf(ms'[1], 7);
    assert !AtMostOneActiveDefault(ms');
  }
}

=== FILE: payment_method_service.dfy ===
/** Managing a user's stored payment methods: registering a billing key,
    listing, deleting (deactivating) and choosing the default.

    The provider's billing-key lookup is an input. */
module PaymentMethodService {
  import opened Common
  import opened PaymentMethods
  import opened Ledgers
  import opened Provider

  // ----------------------------------------------------------------- lookups

  /** The card behind a billing key. Every way the key can fail to yield a
      card (lookup failure, key not recognized, no method listed, first
      method not a card) is a BAD_REQUEST. */
  function GetCard(lookup: Gateway<BillingKeyInfo>): (r: Result<Card>)
    ensures r.Err? ==> r.status == BadRequest
    ensures r.Ok? <==> lookup.Done? && FirstMethod(lookup.value).Some? && FirstMethod(lookup.value).value.CardKey?
    ensures r.Ok? ==> r.value == FirstMethod(lookup.value).value.card
  {
    match lookup
    case Fail => Err(BadRequest)
    case Done(info) =>
      match FirstMethod(info)
      case None => Err(BadRequest)
      case Some(CardKey(card)) => Ok(card)
      case Some(_) => Err(BadRequest)
  }

  /** The user's methods that are both active and default. */
  function ActiveDefaultsOf(L: Ledger, userId: nat): (r: seq<nat>)
    requires WellFormed(L)
    ensures |r| <= 1
    ensures forall k :: 0 <= k < |r| ==> r[k] < |L.methods| && ActiveDefaultOf(L.methods[r[k]], userId)
    ensures forall i :: 0 <= i < |L.methods| && ActiveDefaultOf(L.methods[i], userId) ==> i in r
  {
    var r := Where(L.methods, (m: PaymentMethod) => ActiveDefaultOf(m, userId));
    assert |r| <= 1 by {
      if |r| >= 2 {
        TwoDefaultsBreakUniqueness(L.methods, r, userId);
      }
    }
    r
  }

  /** Two rows of active defaults for one user contradict the invariant. */
  lemma TwoDefaultsBreakUniqueness(ms: seq<PaymentMethod>, r: seq<nat>, userId: nat)
    requires |r| >= 2
    requires forall k :: 0 <= k < |r| ==> r[k] < |ms| && ActiveDefaultOf(ms[r[k]], userId)
    requires forall a, b :: 0 <= a < b < |r| ==> r[a] < r[b]
    ensures !AtMostOneActiveDefault(ms)
  {
    assert r[0] < r[1] && ActiveDefaultOf(ms[r[0]], userId) && ActiveDefaultOf(ms[r[1]], userId);
  }

  /** The method the request names, if it is one of the user's active
      methods. */
  predicate OwnedActive(L: Ledger, userId: nat, methodId: nat) {
    methodId < |L.methods| && L.methods[methodId].userId == userId && L.methods[methodId].isActive
  }

  predicate HasActiveSubscription(L: Ledger, userId: nat) {
    exists i :: 0 <= i < |L.subs| && L.subs[i].userId == userId && L.subs[i].status.Active?
  }

  /** Only payment-method flags change. */
  predicate OnlyMethods(L: Ledger, L': Ledger) {
    L'.(methods := L.methods) == L && |L'.methods| == |L.methods|
    && forall i :: 0 <= i < |L.methods| ==>
         L'.methods[i].(isActive := L.methods[i].isActive, isDefault := L.methods[i].isDefault) == L.methods[i]
  }

  // -------------------------------------------------------------------- add

  /** addPaymentMethod: registers the card behind a billing key. The new
      method is the default exactly when the user has no other active
      method. A card without a brand raises a null dereference. */
  function AddPaymentMethod(L: Ledger, userId: nat, billingKey: string, lookup: Gateway<BillingKeyInfo>)
    : (r: Step<PaymentMethod>)
    requires WellFormed(L)
    ensures WellFormed(r.ledger)
    ensures r.result.Err? ==> r.ledger == L
    ensures userId >= |L.users| ==> r.result == Err(ResourceNotFound)
    ensures userId < |L.users| && GetCard(lookup).Err? ==> r.result == Err(BadRequest)
    ensures userId < |L.users| && GetCard(lookup).Ok? && GetCard(lookup).value.brand.None? ==>
              r.result == Err(InternalServerError)
    ensures r.result.Ok? <==> userId < |L.users| && GetCard(lookup).Ok? && GetCard(lookup).value.brand.Some?
    ensures r.result.Ok? ==>
              var m := r.result.value;
              && r.ledger == L.(methods := L.methods + [m])
              && m.id == |L.methods| && m.userId == userId && m.billingKey == billingKey && m.isActive
              && m.cardNumber == GetCard(lookup).value.number && m.cardBrand == GetCard(lookup).value.brand
              && (m.isDefault <==> forall i :: 0 <= i < |L.methods| ==> !(L.methods[i].userId == userId && L.methods[i].isActive))
  {
    if userId >= |L.users| then Step(L, Err(ResourceNotFound))
    else match GetCard(lookup)
      case Err(e) => Step(L, Err(e))
      case Ok(card) =>
        if card.brand.None? then Step(L, Err(InternalServerError))
        else
          var isDefault := |ActiveMethodsOf(L, userId)| == 0;
          assert isDefault <==> forall i :: 0 <= i < |L.methods| ==> !(L.methods[i].userId == userId && L.methods[i].isActive) by {
            if !isDefault {
              assert L.methods[ActiveMethodsOf(L, userId)[0]].userId == userId;
            }
          }
          var m := PaymentMethods.Create(|L.methods|, userId, billingKey, card.number, card.brand, isDefault);
          var L' := L.(methods := L.methods + [m]);
          Step(L', Ok(m))
  }

  /** The first card a user registers becomes their default; later ones do
      not displace it. */
  lemma FirstCardBecomesDefault(L: Ledger, userId: nat, billingKey: string, lookup: Gateway<BillingKeyInfo>)
    requires WellFormed(L)
    requires forall i :: 0 <= i < |L.methods| ==> L.methods[i].userId != userId
    requires AddPaymentMethod(L, userId, billingKey, lookup).result.Ok?
    ensures AddPaymentMethod(L, userId, billingKey, lookup).result.value.isDefault
  {
  }

  // ------------------------------------------------------------------- list

  /** The methods at positions `ps`, last position first. */
  function NewestFirst(ms: seq<PaymentMethod>, ps: seq<nat>): (r: seq<PaymentMethod>)
    requires forall k :: 0 <= k < |ps| ==> ps[k] < |ms|
    ensures |r| == |ps|
    ensures forall k :: 0 <= k < |r| ==> r[k] == ms[ps[|ps| - 1 - k]]
  {
    if |ps| == 0 then []
    else [ms[ps[|ps| - 1]]] + NewestFirst(ms, ps[..|ps| - 1])
  }

  /** getPaymentMethods: the user's active methods, most recently created
      first. */
  function ListPaymentMethods(L: Ledger, userId: nat): (r: seq<PaymentMethod>)
    requires WellFormed(L)
    ensures forall k :: 0 <= k < |r| ==>
              r[k].id < |L.methods| && L.methods[r[k].id] == r[k] && r[k].userId == userId && r[k].isActive
    ensures forall i :: 0 <= i < |L.methods| && L.methods[i].userId == userId && L.methods[i].isActive ==>
              L.methods[i] in r
    ensures forall a, b :: 0 <= a < b < |r| ==> r[a].id > r[b].id
  {
    var ps := ActiveMethodsOf(L, userId);
    var r := NewestFirst(L.methods, ps);
    forall i | 0 <= i < |L.methods| && L.methods[i].userId == userId && L.methods[i].isActive
      ensures L.methods[i] in r
    {
      var k :| 0 <= k < |ps| && ps[k] == i;
      assert r[|ps| - 1 - k] == L.methods[i];
    }
    r
  }

  // ----------------------------------------------------------------- delete

  /** deletePaymentMethod: deactivates one of the user's active methods,
      unless it is the default while the user holds an ACTIVE
      subscription. */
  function DeletePaymentMethod(L: Ledger, userId: nat, methodId: nat): (r: Step<Unit>)
    requires WellFormed(L)
    ensures WellFormed(r.ledger)
    ensures r.result.Err? ==> r.ledger == L
    ensures !OwnedActive(L, userId, methodId) ==> r.result == Err(ResourceNotFound)
    ensures OwnedActive(L, userId, methodId) && HasActiveSubscription(L, userId) && L.methods[methodId].isDefault ==>
              r.result == Err(BadRequest)
    ensures r.result.Ok? <==>
              OwnedActive(L, userId, methodId) && !(HasActiveSubscription(L, userId) && L.methods[methodId].isDefault)
    ensures r.result.Ok? ==>
              && OnlyMethods(L, r.ledger) && !r.ledger.methods[methodId].isActive
              && r.ledger.methods[methodId].isDefault == L.methods[methodId].isDefault
              && forall i :: 0 <= i < |L.methods| && i != methodId ==> r.ledger.methods[i] == L.methods[i]
  {
    if !OwnedActive(L, userId, methodId) then Step(L, Err(ResourceNotFound))
    else if HasActiveSubscription(L, userId) && L.methods[methodId].isDefault then Step(L, Err(BadRequest))
    else Step(L.(methods := L.methods[methodId := Deactivate(L.methods[methodId])]), Ok(Unit))
  }

  /** While a user holds an ACTIVE subscription, no delete takes away their
      active default method. */
  lemma DefaultSurvivesDeleteWhileSubscribed(L: Ledger, userId: nat, methodId: nat, d: nat)
    requires WellFormed(L) && HasActiveSubscription(L, userId)
    requires d < |L.methods| && ActiveDefaultOf(L.methods[d], userId)
    ensures ActiveDefaultOf(DeletePaymentMethod(L, userId, methodId).ledger.methods[d], userId)
  {
  }

  // ------------------------------------------------------------ set default

  /** The user's methods once `methodId` is the default: the previous
      active default, if any, loses the flag. */
  function MoveDefault(L: Ledger, userId: nat, methodId: nat): (ms: seq<PaymentMethod>)
    requires WellFormed(L) && OwnedActive(L, userId, methodId)
    ensures |ms| == |L.methods| && AtMostOneActiveDefault(ms)
    ensures forall i :: 0 <= i < |ms| ==> ms[i].(isDefault := L.methods[i].isDefault) == L.methods[i]
    ensures ActiveDefaultOf(ms[methodId], userId)
    ensures forall i :: 0 <= i < |ms| && i != methodId ==> !ActiveDefaultOf(ms[i], userId)
    ensures forall i :: 0 <= i < |ms| && L.methods[i].userId != userId ==> ms[i] == L.methods[i]
  {
    var cleared := ClearDefault(L, userId);
    cleared[methodId := SetAsDefault(cleared[methodId])]
  }

  /** The user's methods with the flag taken off their active default, the
      one the single-result lookup finds; no method of the user is then an
      active default. */
  function ClearDefault(L: Ledger, userId: nat): (cleared: seq<PaymentMethod>)
    requires WellFormed(L)
    ensures |cleared| == |L.methods|
    ensures forall i :: 0 <= i < |cleared| ==> cleared[i].(isDefault := L.methods[i].isDefault) == L.methods[i]
    ensures forall i :: 0 <= i < |cleared| ==> !ActiveDefaultOf(cleared[i], userId)
    ensures forall i :: 0 <= i < |cleared| && L.methods[i].userId != userId ==> cleared[i] == L.methods[i]
  {
    var found := ActiveDefaultsOf(L, userId);
    match SingleResult(found)
    case Ok(Some(k)) =>
      var cleared := L.methods[k := UnsetDefault(L.methods[k])];
      assert forall i :: 0 <= i < |cleared| && ActiveDefaultOf(L.methods[i], userId) ==> i in found;
      cleared
    case _ => L.methods
  }

  /** setDefaultPaymentMethod: makes one of the user's active methods the
      default, clearing the flag on the previous active default. */
  function SetDefaultPaymentMethod(L: Ledger, userId: nat, methodId: nat): (r: Step<PaymentMethod>)
    requires WellFormed(L)
    ensures WellFormed(r.ledger)
    ensures r.result.Err? ==> r.ledger == L
    ensures r.result.Err? <==> !OwnedActive(L, userId, methodId)
    ensures r.result.Err? ==> r.result.status == ResourceNotFound
    ensures r.result.Ok? ==>
              && OnlyMethods(L, r.ledger)
              && r.result.value == r.ledger.methods[methodId]
              && ActiveDefaultOf(r.ledger.methods[methodId], userId)
              && (forall i :: 0 <= i < |L.methods| && i != methodId ==> !ActiveDefaultOf(r.ledger.methods[i], userId))
              && (forall i :: 0 <= i < |L.methods| ==> r.ledger.methods[i].isActive == L.methods[i].isActive)
              && (forall i :: 0 <= i < |L.methods| && L.methods[i].userId != userId ==> r.ledger.methods[i] == L.methods[i])
  {
    if !OwnedActive(L, userId, methodId) then Step(L, Err(ResourceNotFound))
    else if L.methods[methodId].isDefault then Step(L, Ok(L.methods[methodId]))
    else
      var ms := MoveDefault(L, userId, methodId);
      Step(L.(methods := ms), Ok(ms[methodId]))
  }

  /** Setting a default twice is the same as setting it once. */
  lemma SetDefaultIsIdempotent(L: Ledger, userId: nat, methodId: nat)
    requires WellFormed(L)
    ensures var r := SetDefaultPaymentMethod(L, userId, methodId);
            SetDefaultPaymentMethod(r.ledger, userId, methodId) == Step(r.ledger, r.result)
  {
  }
}

=== FILE: payment_query.dfy ===
/** The payment history query: the request's 1-based page and size become a
    page request (size capped at 20), one of four repository queries is
    chosen by which filters are present, and the result page is reported
    back with a 1-based page number.

    Request parameters are Java `int`s: `page - 1` and `number + 1` wrap
    around at 32 bits. A date filter covers whole UTC days. The table is
    a sequence of rows, each a payment with the user its subscription
    belongs to and its creation instant. */
module PaymentQuery {
  import opened Common
  import opened Time
  import opened Payments
  import opened Ledgers
  import opened Sorting

  const MAX_PAGE_SIZE: int := 20
  const INT_MIN: int := -0x8000_0000
  const INT_MAX: int := 0x7FFF_FFFF
  const TWO_TO_32: int := 0x1_0000_0000

  predicate IsInt32(x: int) {
    INT_MIN <= x <= INT_MAX
  }

  /** Java `int` arithmetic: the result reduced into the 32-bit range. */
  function Wrap32(x: int): (r: int)
    ensures IsInt32(r)
    ensures (r - x) % TWO_TO_32 == 0
    ensures IsInt32(x) ==> r == x
  {
    (x - INT_MIN) % TWO_TO_32 + INT_MIN
  }

  /** A Spring page request: a 0-based index and a positive size. */
  datatype PageRequest = PageRequest(index: nat, size: nat)

  /** `PageRequest.of(page - 1, min(size, 20))`: an index below zero or a
      size below one is refused (an unchecked exception, answered as an
      internal error). */
  function ToPageRequest(page: int, size: int): (r: Result<PageRequest>)
    requires IsInt32(page) && IsInt32(size)
    ensures r.Ok? <==> (page >= 1 || page == INT_MIN) && size >= 1
    ensures r.Err? ==> r.status == InternalServerError
    ensures r.Ok? ==> 1 <= r.value.size <= MAX_PAGE_SIZE && r.value.size == Min(size, MAX_PAGE_SIZE)
    ensures r.Ok? && page >= 1 ==> r.value.index == page - 1
    ensures r.Ok? && page == INT_MIN ==> r.value.index == INT_MAX
    ensures r.Ok? ==> r.value.index == Wrap32(page - 1)
  {
    var index := Wrap32(page - 1);
    var sz := Min(size, MAX_PAGE_SIZE);
    if index < 0 || sz < 1 then Err(InternalServerError)
    else
      assert page == INT_MIN ==> index == INT_MAX by {
        if page == INT_MIN {
          assert page - 1 - INT_MIN + TWO_TO_32 == INT_MAX - INT_MIN;
        }
      }
      Ok(PageRequest(index, sz))
  }

  // --------------------------------------------------------- filters

  /** The four repository queries: by user, with a status, with a creation
      range, or with both. Range bounds are instants. */
  datatype PaymentQuery =
    | ByUser
    | ByStatus(status: PaymentStatus)
    | ByRange(from: Instant, to: Instant)
    | ByStatusAndRange(status: PaymentStatus, from: Instant, to: Instant)
  {
    predicate HasStatus() { ByStatus? || ByStatusAndRange? }
    predicate HasRange() { ByRange? || ByStatusAndRange? }
  }

  /** `toStartOfDay`: midnight UTC at the start of the date. */
  function ToStartOfDay(d: LocalDate): (r: Instant)
    ensures r / SECONDS_PER_DAY == d && r % SECONDS_PER_DAY == 0
  {
    StartOfDay(d)
  }

  /** `toEndOfDay`: midnight UTC at the start of the following date. */
  function ToEndOfDay(d: LocalDate): (r: Instant)
    ensures r == ToStartOfDay(d) + SECONDS_PER_DAY
  {
    StartOfDay(d + 1)
  }

  /** The query the service chooses: a status filter when a status is
      given, a range filter only when both dates are given. */
  function SelectQuery(status: Option<PaymentStatus>, startDate: Option<LocalDate>, endDate: Option<LocalDate>): (q: PaymentQuery)
    ensures q.HasStatus() <==> status.Some?
    ensures q.HasRange() <==> startDate.Some? && endDate.Some?
    ensures q.HasStatus() ==> q.status == status.value
    ensures q.HasRange() ==> q.from == ToStartOfDay(startDate.value) && q.to == ToEndOfDay(endDate.value)
  {
    var hasStatus := status.Some?;
    var hasDateRange := startDate.Some? && endDate.Some?;
    if hasStatus && hasDateRange then
      ByStatusAndRange(status.value, ToStartOfDay(startDate.value), ToEndOfDay(endDate.value))
    else if hasStatus then ByStatus(status.value)
    else if hasDateRange then ByRange(ToStartOfDay(startDate.value), ToEndOfDay(endDate.value))
    else ByUser
  }

  datatype PaymentRow = PaymentRow(payment: Payment, userId: nat, createdAt: Instant)

  predicate StatusMatches(q: PaymentQuery, row: PaymentRow) {
    !q.HasStatus() || row.payment.status == q.status
  }

  /** How the range condition treats its upper bound: `Inclusive` is the
      repository's `BETWEEN`, which includes both bounds; `HalfOpen` is the
      range the bounds are built for, from the start of the first day up to,
      but excluding, the start of the day after the last. */
  datatype Bounds = Inclusive | HalfOpen

  predicate InRange(b: Bounds, q: PaymentQuery, t: Instant) {
    !q.HasRange() || (q.from <= t && (if b == Inclusive then t <= q.to else t < q.to))
  }

  predicate Matches(b: Bounds, q: PaymentQuery, userId: nat, row: PaymentRow) {
    row.userId == userId && StatusMatches(q, row) && InRange(b, q, row.createdAt)
  }

  /** The positions of the rows the query matches, in table order. */
  function Matching(rows: seq<PaymentRow>, b: Bounds, q: PaymentQuery, userId: nat): (r: seq<nat>)
    ensures forall k :: 0 <= k < |r| ==> r[k] < |rows| && Matches(b, q, userId, rows[r[k]])
    ensures forall i {:trigger i in r} :: 0 <= i < |rows| && Matches(b, q, userId, rows[i]) ==> i in r
    ensures forall a, c :: 0 <= a < c < |r| ==> r[a] < r[c]
    ensures Distinct(r)
  {
    Where(rows, (row: PaymentRow) => Matches(b, q, userId, row))
  }

  /** With the inclusive bound, a payment created exactly at midnight after
      the end date is listed although it was created on a later day. */
  lemma BetweenAdmitsNextMidnight(p: Payment, userId: nat, startDate: LocalDate, endDate: LocalDate)
    requires startDate <= endDate
    ensures var q := SelectQuery(None, Some(startDate), Some(endDate));
            var row := PaymentRow(p, userId, ToStartOfDay(endDate + 1));
            Matches(Inclusive, q, userId, row) && !Matches(HalfOpen, q, userId, row)
            && row.createdAt / SECONDS_PER_DAY == endDate + 1
  {
  }

  /** Midnight at the start of `d` is at or before `t` exactly when `t`
      falls on `d` or later. */
  lemma StartOfDayBefore(d: LocalDate, t: Instant)
    ensures ToStartOfDay(d) <= t <==> d <= t / SECONDS_PER_DAY
  {
    var q := t / SECONDS_PER_DAY;
    assert q * SECONDS_PER_DAY <= t < q * SECONDS_PER_DAY + SECONDS_PER_DAY;
    if d <= q {
      assert d * SECONDS_PER_DAY <= q * SECONDS_PER_DAY;
    } else {
      assert d * SECONDS_PER_DAY >= (q + 1) * SECONDS_PER_DAY;
    }
  }

  /** The half-open range selects exactly the payments created on a day from
      the start date through the end date. */
  lemma RangeCoversExactlyTheDays(status: Option<PaymentStatus>, startDate: LocalDate, endDate: LocalDate, t: Instant)
    ensures InRange(HalfOpen, SelectQuery(status, Some(startDate), Some(endDate)), t) <==>
              startDate <= t / SECONDS_PER_DAY <= endDate
  {
    StartOfDayBefore(startDate, t);
    StartOfDayBefore(endDate + 1, t);
  }

  // --------------------------------------------------------- pages

  /** Most recently created first: a higher creation instant sorts earlier. */
  function NewestFirstKey(rows: seq<PaymentRow>): (key: nat -> int) {
    (i: nat) => if i < |rows| then -rows[i].createdAt else 0
  }

  /** A Spring page: the row positions it shows and its numbering. */
  datatype Page = Page(content: seq<nat>, number: nat, size: nat, totalElements: nat)
  {
    function TotalPages(): (n: nat)
      requires size >= 1
      ensures n == 0 <==> totalElements == 0
    {
      PagesFor(totalElements, size)
    }
    predicate IsFirst() { number == 0 }
    predicate IsLast() requires size >= 1 { number + 1 >= TotalPages() }
  }

  /** The number of pages of `size` rows needed for `total` rows: the
      ceiling of `total / size`, counted a page at a time. */
  function PagesFor(total: nat, size: nat): (n: nat)
    requires size >= 1
    ensures n == 0 <==> total == 0
    decreases total
  {
    if total == 0 then 0 else 1 + PagesFor(if total <= size then 0 else total - size, size)
  }

  /** The page count is the ceiling of the quotient: enough pages for every
      row, and no empty page at the end. */
  lemma {:induction false} PagesForIsCeiling(total: nat, size: nat)
    requires size >= 1
    ensures PagesFor(total, size) * size >= total
    ensures PagesFor(total, size) == 0 || (PagesFor(total, size) - 1) * size < total
    decreases total
  {
    if total > size {
      PagesForIsCeiling(total - size, size);
      var n := PagesFor(total - size, size);
      assert PagesFor(total, size) == n + 1;
      assert (n + 1) * size == n * size + size;
    } else if total > 0 {
      assert PagesFor(total, size) == 1;
    }
  }

  /** Where a page starts in the ordered result: `index` pages of `size`
      rows, counted a page at a time. */
  function Offset(index: nat, size: nat): (r: nat)
    ensures index == 0 ==> r == 0
    ensures index > 0 ==> r >= size
  {
    if index == 0 then 0 else size + Offset(index - 1, size)
  }

  /** The offset is the product of the page index and the page size. */
  lemma {:induction false} OffsetIsProduct(index: nat, size: nat)
    ensures Offset(index, size) == index * size
  {
    if index > 0 {
      OffsetIsProduct(index - 1, size);
      assert index * size == (index - 1) * size + size;
    }
  }

  /** One page of an ordered result: the positions from the offset, at most
      `size` of them. */
  function Slice(ordered: seq<nat>, req: PageRequest): (r: seq<nat>)
    ensures |r| <= req.size
    ensures Offset(req.index, req.size) < |ordered| ==> |r| == Min(req.size, |ordered| - Offset(req.index, req.size))
    ensures Offset(req.index, req.size) >= |ordered| ==> r == []
    ensures forall k :: 0 <= k < |r| ==> r[k] == ordered[Offset(req.index, req.size) + k]
  {
    var off := Offset(req.index, req.size);
    var n := if off < |ordered| then Min(req.size, |ordered| - off) else 0;
    seq(n, k requires 0 <= k < n => ordered[off + k])
  }

  /** A run of consecutive entries of an ordered, duplicate-free sequence
      of positions is itself ordered and duplicate-free. */
  lemma WindowKeepsOrder(ordered: seq<nat>, content: seq<nat>, off: nat, key: nat -> int)
    requires |content| > 0 ==> off + |content| <= |ordered|
    requires forall k :: 0 <= k < |content| ==> content[k] == ordered[off + k]
    requires SortedBy(ordered, key) && Distinct(ordered)
    ensures SortedBy(content, key) && Distinct(content)
  {
    forall a, c | 0 <= a < c < |content|
      ensures key(content[a]) <= key(content[c]) && content[a] != content[c]
    {
      assert content[a] == ordered[off + a] && content[c] == ordered[off + c];
    }
  }

  /** The matching rows' positions, newest first. */
  function NewestFirst(rows: seq<PaymentRow>, matched: seq<nat>): (r: seq<nat>)
    requires Distinct(matched)
    requires forall k :: 0 <= k < |matched| ==> matched[k] < |rows|
    ensures SortedBy(r, NewestFirstKey(rows)) && Distinct(r)
    ensures |r| == |matched| && forall y :: y in r <==> y in matched
    ensures forall k :: 0 <= k < |r| ==> r[k] < |rows|
  {
    var r := SortByKey(matched, NewestFirstKey(rows));
    assert forall k :: 0 <= k < |r| ==> r[k] in matched;
    r
  }

  /** Positions sorted by the newest-first key are in non-increasing order of
      creation. */
  lemma NewestFirstIsDescending(rows: seq<PaymentRow>, ps: seq<nat>)
    requires SortedBy(ps, NewestFirstKey(rows))
    requires forall k :: 0 <= k < |ps| ==> ps[k] < |rows|
    ensures forall a, b :: 0 <= a < b < |ps| ==> rows[ps[a]].createdAt >= rows[ps[b]].createdAt
  {
    forall a, b | 0 <= a < b < |ps|
      ensures rows[ps[a]].createdAt >= rows[ps[b]].createdAt
    {
      assert NewestFirstKey(rows)(ps[a]) <= NewestFirstKey(rows)(ps[b]);
    }
  }

  /** The query's page: matching rows, newest first, cut to the request. */
  function PageOf(rows: seq<PaymentRow>, b: Bounds, q: PaymentQuery, userId: nat, req: PageRequest): (p: Page)
    requires req.size >= 1
    ensures p.number == req.index && p.size == req.size
    ensures p.totalElements == |Matching(rows, b, q, userId)|
    ensures |p.content| == if Offset(req.index, req.size) < p.totalElements then Min(req.size, p.totalElements - Offset(req.index, req.size)) else 0
    ensures forall k :: 0 <= k < |p.content| ==> p.content[k] < |rows| && Matches(b, q, userId, rows[p.content[k]])
    ensures p.content == Slice(NewestFirst(rows, Matching(rows, b, q, userId)), req)
  {
    var matched := Matching(rows, b, q, userId);
    var ordered := NewestFirst(rows, matched);
    var content := Slice(ordered, req);
    assert forall k :: 0 <= k < |content| ==> content[k] in matched;
    Page(content, req.index, req.size, |matched|)
  }

  /** The page is exactly the window of the matching rows, newest first,
      that starts `index * size` rows in: nothing in the window is skipped
      and nothing outside it is shown. */
  lemma PageIsRankWindow(rows: seq<PaymentRow>, b: Bounds, q: PaymentQuery, userId: nat, req: PageRequest)
    requires req.size >= 1
    ensures var ordered := NewestFirst(rows, Matching(rows, b, q, userId));
            var c := PageOf(rows, b, q, userId, req).content;
            |c| > 0 ==> Offset(req.index, req.size) + |c| <= |ordered|
    ensures var ordered := NewestFirst(rows, Matching(rows, b, q, userId));
            var c := PageOf(rows, b, q, userId, req).content;
            forall k :: 0 <= k < |c| ==> c[k] == ordered[Offset(req.index, req.size) + k]
  {
    var ordered := NewestFirst(rows, Matching(rows, b, q, userId));
    var c := PageOf(rows, b, q, userId, req).content;
    assert c == Slice(ordered, req);
  }

  /** A page lists each row at most once, most recently created first. */
  lemma PageIsNewestFirst(rows: seq<PaymentRow>, b: Bounds, q: PaymentQuery, userId: nat, req: PageRequest)
    requires req.size >= 1
    ensures var c := PageOf(rows, b, q, userId, req).content;
            && Distinct(c)
            && forall a, b :: 0 <= a < b < |c| ==> rows[c[a]].createdAt >= rows[c[b]].createdAt
  {
    var ordered := NewestFirst(rows, Matching(rows, b, q, userId));
    var content := PageOf(rows, b, q, userId, req).content;
    PageIsRankWindow(rows, b, q, userId, req);
    WindowKeepsOrder(ordered, content, Offset(req.index, req.size), NewestFirstKey(rows));
    NewestFirstIsDescending(rows, content);
  }

  /** `PaginationInfo.from`: the 0-based page number plus one (in `int`),
      and the page's size, counts and position flags. */
  datatype PaginationInfo = PaginationInfo(page: int, size: nat, totalElements: nat, totalPages: nat, isFirst: bool, isLast: bool)

  function PaginationFrom(p: Page): (r: PaginationInfo)
    requires p.size >= 1
    ensures r.page == Wrap32(p.number + 1)
    ensures r.size == p.size && r.totalElements == p.totalElements && r.totalPages == p.TotalPages()
    ensures r.isFirst == p.IsFirst() && r.isLast == p.IsLast()
  {
    PaginationInfo(Wrap32(p.number + 1), p.size, p.totalElements, p.TotalPages(), p.IsFirst(), p.IsLast())
  }

  /** Whatever page the request names, the response reports the same page
      back: `page - 1` and `number + 1` undo each other, also at the 32-bit
      wrap-around of the smallest `int`. */
  lemma {:induction false} ReportedPageRoundTrip(page: int, size: int)
    requires IsInt32(page) && IsInt32(size)
    requires ToPageRequest(page, size).Ok?
    ensures Wrap32(ToPageRequest(page, size).value.index + 1) == page
  {
    var index := ToPageRequest(page, size).value.index;
    if page == INT_MIN {
      assert index + 1 - INT_MIN == TWO_TO_32;
    }
  }

  datatype GetPaymentsResponse = GetPaymentsResponse(payments: seq<Payment>, pagination: PaginationInfo)

  /** `p` is the payment of a row the query matches. */
  predicate MatchedPayment(rows: seq<PaymentRow>, b: Bounds, q: PaymentQuery, userId: nat, p: Payment) {
    exists i :: 0 <= i < |rows| && rows[i].payment == p && Matches(b, q, userId, rows[i])
  }

  /** The payments at the page's positions, in page order. */
  function PaymentsAt(rows: seq<PaymentRow>, content: seq<nat>): (r: seq<Payment>)
    requires forall k :: 0 <= k < |content| ==> content[k] < |rows|
    ensures |r| == |content|
    ensures forall k :: 0 <= k < |r| ==> r[k] == rows[content[k]].payment
  {
    seq(|content|, k requires 0 <= k < |content| => rows[content[k]].payment)
  }

  /** The payments on a page are those of the window of matching rows,
      newest first, that starts `index * size` rows in. */
  lemma PagePaymentsAreTheWindow(rows: seq<PaymentRow>, b: Bounds, q: PaymentQuery, userId: nat, req: PageRequest)
    requires req.size >= 1
    ensures var ps := PaymentsAt(rows, PageOf(rows, b, q, userId, req).content);
            var ordered := NewestFirst(rows, Matching(rows, b, q, userId));
            |ps| > 0 ==> Offset(req.index, req.size) + |ps| <= |ordered|
    ensures var ps := PaymentsAt(rows, PageOf(rows, b, q, userId, req).content);
            var ordered := NewestFirst(rows, Matching(rows, b, q, userId));
            forall k :: 0 <= k < |ps| ==> ps[k] == rows[ordered[Offset(req.index, req.size) + k]].payment
  {
    PageIsRankWindow(rows, b, q, userId, req);
    SlicePayments(rows, NewestFirst(rows, Matching(rows, b, q, userId)), PageOf(rows, b, q, userId, req).content, Offset(req.index, req.size));
  }

  /** The payments at a run of positions read off an ordered sequence from
      `off` on are those of the rows at that run. */
  lemma SlicePayments(rows: seq<PaymentRow>, ordered: seq<nat>, content: seq<nat>, off: nat)
    requires forall i :: 0 <= i < |ordered| ==> ordered[i] < |rows|
    requires |content| > 0 ==> off + |content| <= |ordered|
    requires forall k :: 0 <= k < |content| ==> content[k] == ordered[off + k]
    ensures forall k :: 0 <= k < |content| ==> content[k] < |rows|
    ensures var ps := PaymentsAt(rows, content);
            forall k :: 0 <= k < |ps| ==> ps[k] == rows[ordered[off + k]].payment
  {
  }

  /** Every payment on a page is that of a row the query matches. */
  lemma PagePaymentsMatch(rows: seq<PaymentRow>, b: Bounds, q: PaymentQuery, userId: nat, req: PageRequest)
    requires req.size >= 1
    ensures var ps := PaymentsAt(rows, PageOf(rows, b, q, userId, req).content);
            forall k :: 0 <= k < |ps| ==> MatchedPayment(rows, b, q, userId, ps[k])
  {
    var content := PageOf(rows, b, q, userId, req).content;
    var ps := PaymentsAt(rows, content);
    forall k | 0 <= k < |ps|
      ensures MatchedPayment(rows, b, q, userId, ps[k])
    {
      var i := content[k];
      assert 0 <= i < |rows| && rows[i].payment == ps[k] && Matches(b, q, userId, rows[i]);
    }
  }

  /** `GetPaymentsResponse.from` of the query's page. */
  function Respond(rows: seq<PaymentRow>, b: Bounds, q: PaymentQuery, userId: nat, req: PageRequest): (r: GetPaymentsResponse)
    requires req.size >= 1
    ensures r.pagination.page == Wrap32(req.index + 1) && r.pagination.size == req.size
    ensures r.pagination.totalElements == |Matching(rows, b, q, userId)|
    ensures |r.payments| == if Offset(req.index, req.size) < r.pagination.totalElements
                            then Min(req.size, r.pagination.totalElements - Offset(req.index, req.size)) else 0
    ensures forall k :: 0 <= k < |r.payments| ==> MatchedPayment(rows, b, q, userId, r.payments[k])
    ensures r.payments == PaymentsAt(rows, PageOf(rows, b, q, userId, req).content)
  {
    var p := PageOf(rows, b, q, userId, req);
    PagePaymentsMatch(rows, b, q, userId, req);
    GetPaymentsResponse(PaymentsAt(rows, p.content), PaginationFrom(p))
  }

  /** The repository hands the page's offset to the query as an `int`; an
      offset past `Integer.MAX_VALUE` is refused. */
  predicate OffsetFits(req: PageRequest) {
    req.index * req.size <= INT_MAX
  }

  /** `getPayments` with the range condition `b`: the page request is built
      (or refused), the offset must fit an `int`, and the chosen query's
      page is returned. A refusal is an unchecked exception, answered as an
      internal error. */
  function GetPayments(b: Bounds, rows: seq<PaymentRow>, userId: nat, page: int, size: int, status: Option<PaymentStatus>,
                       startDate: Option<LocalDate>, endDate: Option<LocalDate>): (r: Result<GetPaymentsResponse>)
    requires IsInt32(page) && IsInt32(size)
    ensures r.Ok? <==> (page >= 1 || page == INT_MIN) && size >= 1 && Wrap32(page - 1) * Min(size, MAX_PAGE_SIZE) <= INT_MAX
    ensures r.Err? ==> r.status == InternalServerError
    ensures r.Ok? ==> r.value.pagination.page == page && r.value.pagination.size == Min(size, MAX_PAGE_SIZE)
    ensures r.Ok? ==> r.value.pagination.totalElements == |Matching(rows, b, SelectQuery(status, startDate, endDate), userId)|
    ensures r.Ok? ==> var offset := Wrap32(page - 1) * Min(size, MAX_PAGE_SIZE);
                      var total := r.value.pagination.totalElements;
                      |r.value.payments| == if offset < total then Min(Min(size, MAX_PAGE_SIZE), total - offset) else 0
    ensures r.Ok? ==> forall k :: 0 <= k < |r.value.payments| ==>
              MatchedPayment(rows, b, SelectQuery(status, startDate, endDate), userId, r.value.payments[k])
  {
    match ToPageRequest(page, size)
    case Err(e) => Err(e)
    case Ok(req) =>
      if !OffsetFits(req) then Err(InternalServerError)
      else
        ReportedPageRoundTrip(page, size);
        OffsetIsProduct(req.index, req.size);
        Ok(Respond(rows, b, SelectQuery(status, startDate, endDate), userId, req))
  }

  /** The listed payments are exactly the window of the matching rows,
      newest first, that starts `(page - 1) * size` rows in. */
  lemma GetPaymentsIsRankWindow(b: Bounds, rows: seq<PaymentRow>, userId: nat, page: int, size: int, status: Option<PaymentStatus>,
                                startDate: Option<LocalDate>, endDate: Option<LocalDate>)
    requires IsInt32(page) && IsInt32(size)
    requires GetPayments(b, rows, userId, page, size, status, startDate, endDate).Ok?
    ensures var ordered := NewestFirst(rows, Matching(rows, b, SelectQuery(status, startDate, endDate), userId));
            var offset := Wrap32(page - 1) * Min(size, MAX_PAGE_SIZE);
            var ps := GetPayments(b, rows, userId, page, size, status, startDate, endDate).value.payments;
            |ps| > 0 ==> offset + |ps| <= |ordered|
    ensures var ordered := NewestFirst(rows, Matching(rows, b, SelectQuery(status, startDate, endDate), userId));
            var offset := Wrap32(page - 1) * Min(size, MAX_PAGE_SIZE);
            var ps := GetPayments(b, rows, userId, page, size, status, startDate, endDate).value.payments;
            forall k :: 0 <= k < |ps| ==> ps[k] == rows[ordered[offset + k]].payment
  {
    var q := SelectQuery(status, startDate, endDate);
    var req := GetPaymentsAnswersPage(b, rows, userId, page, size, status, startDate, endDate);
    PagePaymentsAreTheWindow(rows, b, q, userId, req);
  }

  /** A successful `getPayments` answers with the chosen query's page for a
      request whose offset is `(page - 1) * size`. */
  lemma GetPaymentsAnswersPage(b: Bounds, rows: seq<PaymentRow>, userId: nat, page: int, size: int, status: Option<PaymentStatus>,
                               startDate: Option<LocalDate>, endDate: Option<LocalDate>) returns (req: PageRequest)
    requires IsInt32(page) && IsInt32(size)
    requires GetPayments(b, rows, userId, page, size, status, startDate, endDate).Ok?
    ensures ToPageRequest(page, size) == Ok(req) && req.size >= 1
    ensures Offset(req.index, req.size) == Wrap32(page - 1) * Min(size, MAX_PAGE_SIZE)
    ensures GetPayments(b, rows, userId, page, size, status, startDate, endDate).value.payments
            == PaymentsAt(rows, PageOf(rows, b, SelectQuery(status, startDate, endDate), userId, req).content)
  {
    req := ToPageRequest(page, size).value;
    OffsetIsProduct(req.index, req.size);
  }

  /** The smallest `int` page wraps to the largest index, so with two or
      more rows a page its offset does not fit an `int` and the request is
      refused. */
  lemma SmallestPageIsRefused(b: Bounds, rows: seq<PaymentRow>, userId: nat, size: int, status: Option<PaymentStatus>,
                              startDate: Option<LocalDate>, endDate: Option<LocalDate>)
    requires 2 <= size <= INT_MAX
    ensures GetPayments(b, rows, userId, INT_MIN, size, status, startDate, endDate) == Err(InternalServerError)
  {
    assert ToPageRequest(INT_MIN, size).value.index == INT_MAX;
  }

  /** A single payment made at the midnight after `d` is one match of a
      one-day filter as written, and none of the half-open one. */
  lemma NextMidnightMatchCounts(p: Payment, userId: nat, d: LocalDate)
    ensures var rows := [PaymentRow(p, userId, ToStartOfDay(d + 1))];
            var q := SelectQuery(None, Some(d), Some(d));
            |Matching(rows, Inclusive, q, userId)| == 1 && |Matching(rows, HalfOpen, q, userId)| == 0
  {
    var rows := [PaymentRow(p, userId, ToStartOfDay(d + 1))];
    var q := SelectQuery(None, Some(d), Some(d));
    BetweenAdmitsNextMidnight(p, userId, d, d);
    var m := Matching(rows, Inclusive, q, userId);
    IncreasingBelow(m, 1);
    assert 0 in m;
    var h := Matching(rows, HalfOpen, q, userId);
    assert forall k :: 0 <= k < |h| ==> h[k] < 0;
    IncreasingBelow(h, 0);
  }

  /** As written, a day filter from `d` to `d` lists a payment made at the
      midnight that starts the next day, which the half-open range leaves
      out. */
  lemma GetPaymentsListsNextMidnight(p: Payment, userId: nat, d: LocalDate)
    ensures var rows := [PaymentRow(p, userId, ToStartOfDay(d + 1))];
            var asWritten := GetPayments(Inclusive, rows, userId, 1, MAX_PAGE_SIZE, None, Some(d), Some(d));
            var corrected := GetPayments(HalfOpen, rows, userId, 1, MAX_PAGE_SIZE, None, Some(d), Some(d));
            asWritten.Ok? && asWritten.value.payments == [p] && corrected.Ok? && corrected.value.payments == []
  {
    var rows := [PaymentRow(p, userId, ToStartOfDay(d + 1))];
    var q := SelectQuery(None, Some(d), Some(d));
    NextMidnightMatchCounts(p, userId, d);
    var r := GetPayments(Inclusive, rows, userId, 1, MAX_PAGE_SIZE, None, Some(d), Some(d));
    assert Wrap32(1 - 1) == 0;
    assert r.Ok?;
    var ps := r.value.payments;
    assert |ps| == 1;
    assert MatchedPayment(rows, Inclusive, q, userId, ps[0]);
  }

  /** Strictly increasing positions below `n` are at most `n` many. */
  lemma {:induction false} IncreasingBelow(m: seq<nat>, n: nat)
    requires forall a, c :: 0 <= a < c < |m| ==> m[a] < m[c]
    requires forall k :: 0 <= k < |m| ==> m[k] < n
    ensures |m| <= n
    decreases |m|
  {
    if |m| > 0 {
      IncreasingBelow(m[..|m| - 1], m[|m| - 1]);
    }
  }

  /** The payment of a matching row, created by the user on a day from
      `from` through `to`. */
  predicate CreatedOnDays(rows: seq<PaymentRow>, userId: nat, p: Payment, from: LocalDate, to: LocalDate) {
    exists i :: 0 <= i < |rows| && rows[i].payment == p && rows[i].userId == userId
                && from <= rows[i].createdAt / SECONDS_PER_DAY <= to
  }

  /** `getPayments` with the range the bounds are built for. */
  function GetPaymentsCorrected(rows: seq<PaymentRow>, userId: nat, page: int, size: int, status: Option<PaymentStatus>,
                                startDate: Option<LocalDate>, endDate: Option<LocalDate>): (r: Result<GetPaymentsResponse>)
    requires IsInt32(page) && IsInt32(size)
    ensures r.Ok? <==> GetPayments(Inclusive, rows, userId, page, size, status, startDate, endDate).Ok?
    ensures r.Ok? && startDate.Some? && endDate.Some? ==>
              forall k :: 0 <= k < |r.value.payments| ==> CreatedOnDays(rows, userId, r.value.payments[k], startDate.value, endDate.value)
    ensures r.Ok? && startDate.Some? && endDate.Some? ==>
              r.value.pagination.totalElements == |Matching(rows, HalfOpen, SelectQuery(status, startDate, endDate), userId)|
  {
    var r := GetPayments(HalfOpen, rows, userId, page, size, status, startDate, endDate);
    if r.Ok? && startDate.Some? && endDate.Some? then
      var q := SelectQuery(status, startDate, endDate);
      assert forall k :: 0 <= k < |r.value.payments| ==> CreatedOnDays(rows, userId, r.value.payments[k], startDate.value, endDate.value) by {
        forall k | 0 <= k < |r.value.payments|
          ensures CreatedOnDays(rows, userId, r.value.payments[k], startDate.value, endDate.value)
        {
          var i :| 0 <= i < |rows| && rows[i].payment == r.value.payments[k] && Matches(HalfOpen, q, userId, rows[i]);
          RangeCoversExactlyTheDays(status, startDate.value, endDate.value, rows[i].createdAt);
        }
      }
      r
    else r
  }
}

=== FILE: plan_info.dfy ===
/** The plan view of the (separate) plan catalog: a plan lists prices in
    several currencies, and its view reports the first Korean-won price. */
module PlanInfos {
  import opened Common
  import opened Plans

  /** The plan catalog's own billing cycles. */
  datatype PlanCycle = PlanMonthly | PlanYearly

  datatype PlanPrice = PlanPrice(price: Decimal, currency: Currency)

  datatype Plan = Plan(
    id: nat, name: string, description: string, features: seq<string>,
    billingCycle: PlanCycle, prices: seq<PlanPrice>)

  datatype PlanInfo = PlanInfo(
    id: nat, name: string, description: string, price: Decimal, currency: Currency,
    features: seq<string>, billingCycle: PlanCycle, isActive: bool)

  /** The first price entry in won, if any. */
  function FirstKrwPrice(prices: seq<PlanPrice>): (r: Option<Decimal>)
    ensures r.None? <==> forall k :: 0 <= k < |prices| ==> prices[k].currency != KRW
    ensures r.Some? ==> exists k :: (0 <= k < |prices| && prices[k] == PlanPrice(r.value, KRW) &&
              forall m :: 0 <= m < k ==> prices[m].currency != KRW)
  {
    if |prices| == 0 then None
    else if prices[0].currency == KRW then Some(prices[0].price)
    else
      var rest := FirstKrwPrice(prices[1..]);
      assert rest.Some? ==> exists k :: (1 <= k < |prices| && prices[k] == PlanPrice(rest.value, KRW) &&
               forall m :: 0 <= m < k ==> prices[m].currency != KRW) by {
        if rest.Some? {
          var k :| 0 <= k < |prices[1..]| && prices[1..][k] == PlanPrice(rest.value, KRW) &&
                   forall m :: 0 <= m < k ==> prices[1..][m].currency != KRW;
          assert prices[k + 1] == PlanPrice(rest.value, KRW);
        }
      }
      rest
  }

  /** `PlanInfo.from`: the plan's fields with its won price; a plan without
      one is a missing resource. */
  function PlanInfoFrom(p: Plan, isActive: bool): (r: Result<PlanInfo>)
    ensures r.Err? <==> forall k :: 0 <= k < |p.prices| ==> p.prices[k].currency != KRW
    ensures r.Err? ==> r.status == ResourceNotFound
    ensures r.Ok? ==> r.value.currency == KRW && Some(r.value.price) == FirstKrwPrice(p.prices)
    ensures r.Ok? ==> r.value.id == p.id && r.value.name == p.name && r.value.description == p.description
    ensures r.Ok? ==> r.value.features == p.features && r.value.billingCycle == p.billingCycle && r.value.isActive == isActive
  {
    match FirstKrwPrice(p.prices)
    case None => Err(ResourceNotFound)
    case Some(price) => Ok(PlanInfo(p.id, p.name, p.description, price, KRW, p.features, p.billingCycle, isActive))
  }

  /** Prices in other currencies listed before the first won price do not
      affect the reported price. */
  lemma {:induction false} OtherCurrenciesFirstIgnored(other: seq<PlanPrice>, rest: seq<PlanPrice>)
    requires forall k :: 0 <= k < |other| ==> other[k].currency != KRW
    ensures FirstKrwPrice(other + rest) == FirstKrwPrice(rest)
  {
    if |other| > 0 {
      assert (other + rest)[0] == other[0];
      assert (other + rest)[1..] == other[1..] + rest;
      OtherCurrenciesFirstIgnored(other[1..], rest);
    } else {
      assert other + rest == rest;
    }
  }
}

=== FILE: plans.dfy ===
/** Subscription plans: decimal prices, billing cycles, the free and lifetime
    tests, and the catalog's uniqueness constraint on
    (product, billing cycle, currency). */
module Plans {
  import opened Common

  /** A decimal number `unscaled / 10^scale`, as a database DECIMAL column holds
      it. Two decimals are numerically equal regardless of their scales. */
  datatype Decimal = Decimal(unscaled: int, scale: nat)

  function Pow10(n: nat): (r: nat)
    ensures r >= 1
  {
    if n == 0 then 1 else 10 * Pow10(n - 1)
  }

  /** Numeric comparison of two decimals, ignoring scale: -1, 0 or 1. */
  function CompareTo(a: Decimal, b: Decimal): (c: int)
    ensures -1 <= c <= 1
    ensures c == 0 <==> a.unscaled * Pow10(b.scale) == b.unscaled * Pow10(a.scale)
  {
    var l := a.unscaled * Pow10(b.scale);
    var r := b.unscaled * Pow10(a.scale);
    if l < r then -1 else if l == r then 0 else 1
  }

  predicate NumEq(a: Decimal, b: Decimal) {
    CompareTo(a, b) == 0
  }

  const ZERO: Decimal := Decimal(0, 0)

  datatype BillingCycle = Monthly | Yearly | Lifetime
  datatype Currency = KRW | USD

  datatype SubscriptionPlan = SubscriptionPlan(
    id: nat,
    productId: nat,
    amount: Decimal,
    currency: Currency,
    billingCycle: BillingCycle)

  /** The price callers read; it is the stored amount. */
  function Price(p: SubscriptionPlan): Decimal {
    p.amount
  }

  /** A plan is free when its amount compares equal to zero. */
  predicate IsFree(p: SubscriptionPlan) {
    CompareTo(p.amount, ZERO) == 0
  }

  predicate IsLifetime(p: SubscriptionPlan) {
    p.billingCycle == Lifetime
  }

  /** Free means an unscaled value of zero, at any scale (0, 0.00, 0.0000). */
  lemma FreeIffZeroAmount(p: SubscriptionPlan)
    ensures IsFree(p) <==> p.amount.unscaled == 0
  {
    assert CompareTo(p.amount, ZERO) == 0 <==> p.amount.unscaled * 1 == 0 * Pow10(p.amount.scale);
  }

  /** Appending a trailing zero digit (raising the scale by one) keeps the
      number: 9900 and 9900.0 compare equal. */
  lemma {:induction false} RescaleKeepsValue(d: Decimal)
    ensures NumEq(d, Decimal(d.unscaled * 10, d.scale + 1))
  {
    var e := Decimal(d.unscaled * 10, d.scale + 1);
    assert Pow10(e.scale) == 10 * Pow10(d.scale);
    calc {
      d.unscaled * Pow10(e.scale);
      d.unscaled * (10 * Pow10(d.scale));
      (d.unscaled * 10) * Pow10(d.scale);
    }
  }

  /** The unique key of a plan in the catalog. */
  predicate SameKey(p: SubscriptionPlan, q: SubscriptionPlan) {
    p.productId == q.productId && p.billingCycle == q.billingCycle && p.currency == q.currency
  }

  /** The catalog's constraint: at most one plan per
      (product, billing cycle, currency), and plan ids are distinct. */
  predicate UniqueCatalog(plans: seq<SubscriptionPlan>) {
    forall i, j :: 0 <= i < j < |plans| ==>
      !SameKey(plans[i], plans[j]) && plans[i].id != plans[j].id
  }

  /** Saving a plan: the database refuses a second plan with an existing key
      or id, and the persistence error surfaces as INTERNAL_SERVER_ERROR. */
  function InsertPlan(plans: seq<SubscriptionPlan>, p: SubscriptionPlan): (r: Result<seq<SubscriptionPlan>>)
    ensures r.Ok? <==> forall q :: q in plans ==> !SameKey(q, p) && q.id != p.id
    ensures r.Ok? ==> r.value == plans + [p]
    ensures r.Err? ==> r.status == InternalServerError
  {
    if exists q :: q in plans && (SameKey(q, p) || q.id == p.id) then Err(InternalServerError)
    else Ok(plans + [p])
  }

  /** Inserting through `InsertPlan` keeps the catalog unique. */
  lemma InsertPreservesUnique(plans: seq<SubscriptionPlan>, p: SubscriptionPlan)
    requires UniqueCatalog(plans)
    requires InsertPlan(plans, p).Ok?
    ensures UniqueCatalog(InsertPlan(plans, p).value)
  {
    var r := plans + [p];
    forall i, j | 0 <= i < j < |r|
      ensures !SameKey(r[i], r[j]) && r[i].id != r[j].id
    {
      if j == |plans| {
        assert r[i] in plans;
      }
    }
  }

  /** Looking a plan up by id. */
  function FindById(plans: seq<SubscriptionPlan>, id: nat): (r: Option<SubscriptionPlan>)
    ensures r.Some? ==> r.value in plans && r.value.id == id
    ensures r.None? ==> forall q :: q in plans ==> q.id != id
  {
    if |plans| == 0 then None
    else if plans[0].id == id then Some(plans[0])
    else FindById(plans[1..], id)
  }

  /** The plans of one billing cycle, in catalog order. */
  function WithCycle(plans: seq<SubscriptionPlan>, c: BillingCycle): (r: seq<SubscriptionPlan>)
    ensures forall q :: q in r <==> q in plans && q.billingCycle == c
    ensures |r| <= |plans|
  {
    if |plans| == 0 then []
    else if plans[0].billingCycle == c then [plans[0]] + WithCycle(plans[1..], c)
    else WithCycle(plans[1..], c)
  }
}

=== FILE: products.dfy ===
/** The product catalog as a caller sees it: every active product with its
    plans, each plan flagged when it is the plan of the caller's ACTIVE
    subscription. */
module Products {
  import opened Common
  import opened Plans
  import opened Subscriptions
  import opened Ledgers

  /** A product and the plans it offers. */
  datatype Product = Product(id: nat, name: string, description: string, features: seq<string>, plans: seq<SubscriptionPlan>)

  datatype SubscriptionPlanInfo = SubscriptionPlanInfo(id: nat, price: Decimal, currency: Currency, billingCycle: BillingCycle, isActive: bool)

  datatype SubscriptionProductInfo = SubscriptionProductInfo(
    id: nat, name: string, description: string, features: seq<string>, plans: seq<SubscriptionPlanInfo>)

  /** The user's ACTIVE subscriptions, oldest first. */
  function ActiveSubscriptionsOf(L: Ledger, userId: nat): (r: seq<nat>)
    ensures forall k :: 0 <= k < |r| ==> r[k] < |L.subs| && L.subs[r[k]].userId == userId && L.subs[r[k]].status.Active?
    ensures forall i :: 0 <= i < |L.subs| && L.subs[i].userId == userId && L.subs[i].status.Active? ==> i in r
    ensures forall a, b :: 0 <= a < b < |r| ==> r[a] < r[b]
  {
    Where(L.subs, (s: Subscription) => s.userId == userId && s.status.Active?)
  }

  /** The plan id of the caller's ACTIVE subscription: none for an anonymous
      caller or one without an ACTIVE subscription; the lookup returns at
      most one row, so a user with several fails. */
  function ActivePlanId(L: Ledger, userId: Option<nat>): (r: Result<Option<nat>>)
    ensures userId.None? ==> r == Ok(None)
    ensures userId.Some? ==>
              (r == Ok(None) <==> forall i :: 0 <= i < |L.subs| ==> !(L.subs[i].userId == userId.value && L.subs[i].status.Active?))
    ensures r.Ok? && r.value.Some? ==>
              (userId.Some? && exists i :: 0 <= i < |L.subs| && L.subs[i].userId == userId.value && L.subs[i].status.Active? && L.subs[i].plan.id == r.value.value)
    ensures r.Err? ==> r.status == InternalServerError && userId.Some? && |ActiveSubscriptionsOf(L, userId.value)| > 1
  {
    if userId.None? then Ok(None)
    else
      var active := ActiveSubscriptionsOf(L, userId.value);
      match SingleResult(active)
      case Err(e) => Err(e)
      case Ok(None) => Ok(None)
      case Ok(Some(i)) => Ok(Some(L.subs[i].plan.id))
  }

  /** Two entries of a strictly increasing sequence cannot both be `i`. */
  lemma TwoEntriesDiffer(s: seq<nat>, i: nat)
    requires |s| >= 2 && forall a, b :: 0 <= a < b < |s| ==> s[a] < s[b]
    ensures exists k :: 0 <= k < |s| && s[k] != i
  {
    if s[0] == i {
      assert s[1] != i;
    }
  }

  /** A user with exactly one ACTIVE subscription sees its plan flagged. */
  lemma SingleActiveSubscriptionNamesItsPlan(L: Ledger, userId: nat, i: nat)
    requires i < |L.subs| && L.subs[i].userId == userId && L.subs[i].status.Active?
    requires forall j :: 0 <= j < |L.subs| && j != i ==> !(L.subs[j].userId == userId && L.subs[j].status.Active?)
    ensures ActivePlanId(L, Some(userId)) == Ok(Some(L.subs[i].plan.id))
  {
    var active := ActiveSubscriptionsOf(L, userId);
    assert i in active;
    assert forall k :: 0 <= k < |active| ==> active[k] == i;
    assert |active| <= 1 by {
      if |active| >= 2 {
        TwoEntriesDiffer(active, i);
      }
    }
  }

  /** `SubscriptionPlanInfo.from`: the plan's fields and whether it is the
      active plan. */
  function PlanInfoFrom(p: SubscriptionPlan, activePlanId: Option<nat>): (r: SubscriptionPlanInfo)
    ensures r.isActive <==> activePlanId == Some(p.id)
    ensures activePlanId.None? ==> !r.isActive
    ensures r.id == p.id && r.price == Price(p) && r.currency == p.currency && r.billingCycle == p.billingCycle
  {
    SubscriptionPlanInfo(p.id, Price(p), p.currency, p.billingCycle, activePlanId.Some? && activePlanId.value == p.id)
  }

  /** Among plans with distinct ids, at most one is flagged. */
  lemma AtMostOnePlanFlagged(plans: seq<SubscriptionPlan>, activePlanId: Option<nat>, i: nat, j: nat)
    requires i < j < |plans| && plans[i].id != plans[j].id
    ensures !(PlanInfoFrom(plans[i], activePlanId).isActive && PlanInfoFrom(plans[j], activePlanId).isActive)
  {
  }

  /** `SubscriptionProductInfo.from`: the product's fields and its plans,
      each flagged against the same plan id. */
  function ProductInfoFrom(p: Product, activePlanId: Option<nat>): (r: SubscriptionProductInfo)
    ensures r.id == p.id && r.name == p.name && r.description == p.description && r.features == p.features
    ensures |r.plans| == |p.plans|
    ensures forall k :: 0 <= k < |p.plans| ==> r.plans[k] == PlanInfoFrom(p.plans[k], activePlanId)
  {
    SubscriptionProductInfo(p.id, p.name, p.description, p.features,
      seq(|p.plans|, k requires 0 <= k < |p.plans| => PlanInfoFrom(p.plans[k], activePlanId)))
  }

  /** `getAllSubscriptionProducts`: the active products, in the order given,
      flagged for the caller. */
  function GetAllSubscriptionProducts(L: Ledger, products: seq<Product>, userId: Option<nat>): (r: Result<seq<SubscriptionProductInfo>>)
    ensures r.Err? <==> ActivePlanId(L, userId).Err?
    ensures r.Ok? ==>
              && |r.value| == |products|
              && (forall k :: 0 <= k < |products| ==>
                    && r.value[k].id == products[k].id && r.value[k].name == products[k].name
                    && r.value[k].description == products[k].description && r.value[k].features == products[k].features
                    && |r.value[k].plans| == |products[k].plans|)
              && (forall k, m :: 0 <= k < |products| && 0 <= m < |products[k].plans| ==>
                    && r.value[k].plans[m].id == products[k].plans[m].id
                    && r.value[k].plans[m].price == Price(products[k].plans[m])
                    && r.value[k].plans[m].currency == products[k].plans[m].currency
                    && r.value[k].plans[m].billingCycle == products[k].plans[m].billingCycle
                    && (r.value[k].plans[m].isActive <==> ActivePlanId(L, userId).value == Some(products[k].plans[m].id)))
    ensures r.Ok? && userId.None? ==> forall k, m :: 0 <= k < |r.value| && 0 <= m < |r.value[k].plans| ==> !r.value[k].plans[m].isActive
  {
    match ActivePlanId(L, userId)
    case Err(e) => Err(e)
    case Ok(active) =>
      Ok(seq(|products|, k requires 0 <= k < |products| => ProductInfoFrom(products[k], active)))
  }
}

=== FILE: provider.dfy ===
/** What the payment provider reports back: billing-key information and the
    state of a payment. Only the parts the billing services read are kept. */
module Provider {
  import opened Common
  import opened Payments

  /** Card data attached to a billing key; either part may be missing. */
  datatype Card = Card(number: Option<string>, brand: Option<string>)

  /** The first-class payment instrument behind a billing key. */
  datatype BillingKeyMethod = CardKey(card: Card) | EasyPayKey | OtherKey

  /** A billing-key lookup either recognizes the key, with its (possibly
      absent) list of methods, or reports it in some other state (deleted,
      unknown to the store, ...). */
  datatype BillingKeyInfo = Recognized(methods: Option<seq<BillingKeyMethod>>) | NotRecognized

  /** The provider's view of one payment. */
  datatype ProviderPayment =
    | PaidPayment(paidWith: Option<ProviderMethod>, billingKey: Option<string>)
    | FailedPayment(reason: Option<string>, pgMessage: Option<string>)
    | OtherPayment

  /** The first method of a recognized key, if the list is present and not
      empty. */
  function FirstMethod(info: BillingKeyInfo): (r: Option<BillingKeyMethod>)
    ensures r.Some? <==> info.Recognized? && info.methods.Some? && |info.methods.value| > 0
    ensures r.Some? ==> r.value == info.methods.value[0]
  {
    if info.Recognized? && info.methods.Some? && |info.methods.value| > 0 then Some(info.methods.value[0]) else None
  }
}

=== FILE: schedule_service.dfy ===
/** Scheduling the next recurring charge at the provider, and replacing a
    subscription's schedule when its payment method changes.

    Provider calls are inputs: `create` is the outcome of the schedule
    creation (the new schedule id), `revoke` the outcome of revoking the old
    one. A failure raises INTERNAL_SERVER_ERROR. */
module ScheduleService {
  import opened Common
  import opened Time
  import opened Plans
  import opened Subscriptions
  import opened Invoices
  import opened Payments
  import opened Ledgers

  /** The invoice and payment a schedule bills: the plan's price and
      currency for the given period. */
  predicate BillsPeriod(L: Ledger, subId: nat, invUuid: string, payUuid: string,
                        periodStart: Option<DateTime>, periodEnd: Option<DateTime>)
    requires subId < |L.subs|
  {
    var plan := L.subs[subId].plan;
    && InvoiceId(invUuid) in L.invoices
    && L.invoices[InvoiceId(invUuid)] == Invoices.Create(invUuid, subId, Price(plan), plan.currency, periodStart, periodEnd)
    && PaymentId(payUuid) in L.payments
    && L.payments[PaymentId(payUuid)] == Payments.Create(payUuid, InvoiceId(invUuid), Price(plan), plan.currency)
  }

  /** Everything apart from the subscription `subId`, the invoices, the
      payments and the provider's schedules is as it was. */
  predicate OnlyBilling(L: Ledger, L': Ledger, subId: nat) {
    && L'.plans == L.plans && L'.users == L.users && L'.methods == L.methods
    && |L'.subs| == |L.subs|
    && (forall j :: 0 <= j < |L.subs| && j != subId ==> L'.subs[j] == L.subs[j])
  }

  /** createSchedule: saves a PENDING invoice and payment for the period,
      then asks the provider to charge at the period start. The period start
      must be present (a missing one fails after the invoice and payment are
      saved). On success the schedule id is stored on the subscription. */
  function CreateSchedule(L: Ledger, subId: nat, billingKey: string,
                          periodStart: Option<DateTime>, periodEnd: Option<DateTime>,
                          invUuid: string, payUuid: string, create: Gateway<string>): (r: Step<string>)
    requires WellFormed(L) && subId < |L.subs|
    ensures WellFormed(r.ledger) && OnlyBilling(L, r.ledger, subId)
    ensures BillsPeriod(r.ledger, subId, invUuid, payUuid, periodStart, periodEnd)
    ensures r.result.Ok? <==> periodStart.Some? && create.Done?
    ensures r.result.Ok? ==>
              && r.result.value == create.value
              && r.ledger.subs[subId] == SetScheduleId(L.subs[subId], Some(create.value))
              && r.ledger.schedules == L.schedules + {create.value}
    ensures r.result.Err? ==>
              && r.result.status == InternalServerError
              && r.ledger.subs == L.subs && r.ledger.schedules == L.schedules
  {
    var sub := L.subs[subId];
    var inv := Invoices.Create(invUuid, subId, Price(sub.plan), sub.plan.currency, periodStart, periodEnd);
    var pay := Payments.Create(payUuid, inv.id, Price(sub.plan), sub.plan.currency);
    var saved := L.(invoices := L.invoices[inv.id := inv], payments := L.payments[pay.id := pay]);
    AddInvoiceAndPaymentPreserves(L, inv, pay);
    if periodStart.None? then Step(saved, Err(InternalServerError))
    else match create
      case Fail => Step(saved, Err(InternalServerError))
      case Done(scheduleId) =>
        PutSubscriptionPreserves(saved, SetScheduleId(sub, Some(scheduleId)));
        Step(saved.(subs := saved.subs[subId := SetScheduleId(sub, Some(scheduleId))],
                    schedules := saved.schedules + {scheduleId}),
             Ok(scheduleId))
  }

  /** calculateNextPeriodEnd: like the period end of a subscription, but a
      missing start is an error for a monthly or yearly plan. */
  function NextPeriodEnd(start: Option<DateTime>, cycle: BillingCycle): (r: Result<Option<DateTime>>)
    ensures r.Err? <==> start.None? && cycle != Lifetime
    ensures r.Err? ==> r.status == InternalServerError
    ensures r.Ok? && start.Some? ==> r.value == PeriodEnd(cycle, start.value)
    ensures r.Ok? && start.None? ==> r.value.None?
  {
    match cycle
    case Lifetime => Ok(None)
    case _ => if start.None? then Err(InternalServerError) else Ok(PeriodEnd(cycle, start.value))
  }

  /** replaceSchedule as written: revoke the current schedule (if any), then
      schedule the next period, which starts where the current one ends,
      with the new method's billing key. Either failure raises
      INTERNAL_SERVER_ERROR. A revoked schedule id is not cleared, so when
      the revoke succeeds and the new schedule fails the subscription keeps
      pointing at a schedule the provider no longer holds. */
  function ReplaceSchedule(L: Ledger, subId: nat, newBillingKey: string, revoke: Gateway<Unit>,
                           invUuid: string, payUuid: string, create: Gateway<string>): (r: Step<Unit>)
    requires WellFormed(L) && subId < |L.subs|
    ensures WellFormed(r.ledger) && OnlyBilling(L, r.ledger, subId)
    ensures L.subs[subId].scheduleId.Some? && revoke.Fail? ==> r == Step(L, Err(InternalServerError))
    ensures r.result.Err? ==> r.result.status == InternalServerError
    ensures r.result.Ok? ==>
              var sub := L.subs[subId];
              && create.Done? && sub.currentPeriodEnd.Some?
              && BillsPeriod(r.ledger, subId, invUuid, payUuid, sub.currentPeriodEnd,
                             PeriodEnd(sub.plan.billingCycle, sub.currentPeriodEnd.value))
              && r.ledger.subs[subId] == SetScheduleId(sub, Some(create.value))
              && r.ledger.schedules == (L.schedules - ScheduleSet(sub.scheduleId)) + {create.value}
    ensures r.result.Err? ==> r.ledger.subs[subId].scheduleId == L.subs[subId].scheduleId
  {
    var sub := L.subs[subId];
    if sub.scheduleId.Some? && revoke.Fail? then Step(L, Err(InternalServerError))
    else
      var revoked := L.(schedules := L.schedules - ScheduleSet(sub.scheduleId));
      match NextPeriodEnd(sub.currentPeriodEnd, sub.plan.billingCycle)
      case Err(_) => Step(revoked, Err(InternalServerError))
      case Ok(nextEnd) =>
        var s := CreateSchedule(revoked, subId, newBillingKey, sub.currentPeriodEnd, nextEnd, invUuid, payUuid, create);
        Step(s.ledger, if s.result.Ok? then Ok(Unit) else Err(InternalServerError))
  }

  /** The schedule ids an optional schedule id stands for. */
  function ScheduleSet(id: Option<string>): (r: set<string>)
    ensures id.None? <==> r == {}
    ensures id.Some? ==> r == {id.value}
  {
    if id.None? then {} else {id.value}
  }

  /** Every subscription's schedule id names a schedule the provider holds,
      and no two subscriptions name the same schedule. */
  predicate ScheduleIdsLive(L: Ledger) {
    && (forall i :: 0 <= i < |L.subs| && L.subs[i].scheduleId.Some? ==> L.subs[i].scheduleId.value in L.schedules)
    && (forall i, j :: 0 <= i < j < |L.subs| && L.subs[i].scheduleId.Some? && L.subs[j].scheduleId.Some? ==>
          L.subs[i].scheduleId != L.subs[j].scheduleId)
  }

  /** The defect of `ReplaceSchedule`: a subscription whose schedule was
      revoked while the next one failed to be created still names the
      revoked schedule. */
  lemma ReplaceScheduleLeavesRevokedId(L: Ledger, subId: nat, key: string, invUuid: string, payUuid: string)
    requires WellFormed(L) && subId < |L.subs| && L.subs[subId].scheduleId.Some?
    requires ScheduleIdsLive(L)
    ensures var r := ReplaceSchedule(L, subId, key, Done(Unit), invUuid, payUuid, Fail);
            r.result.Err? && !ScheduleIdsLive(r.ledger)
  {
    var r := ReplaceSchedule(L, subId, key, Done(Unit), invUuid, payUuid, Fail);
    assert r.ledger.subs[subId].scheduleId == L.subs[subId].scheduleId;
    assert L.subs[subId].scheduleId.value !in r.ledger.schedules;
  }

  /** The state once a subscription's schedule is revoked at the provider
      and the id cleared from the subscription. */
  function RevokeAndClear(L: Ledger, subId: nat): (r: Ledger)
    requires WellFormed(L) && subId < |L.subs|
    ensures WellFormed(r) && OnlyBilling(L, r, subId)
    ensures r.subs[subId] == SetScheduleId(L.subs[subId], None)
    ensures r.schedules == L.schedules - ScheduleSet(L.subs[subId].scheduleId)
    ensures r.invoices == L.invoices && r.payments == L.payments
  {
    var cleared := SetScheduleId(L.subs[subId], None);
    PutSubscriptionPreserves(L, cleared);
    L.(subs := L.subs[subId := cleared], schedules := L.schedules - ScheduleSet(L.subs[subId].scheduleId))
  }

  /** replaceSchedule as intended: a schedule id the provider has revoked is
      cleared from the subscription at once, so that a failure to create the
      next schedule leaves no stale id behind. */
  function ReplaceScheduleClearing(L: Ledger, subId: nat, newBillingKey: string, revoke: Gateway<Unit>,
                                   invUuid: string, payUuid: string, create: Gateway<string>): (r: Step<Unit>)
    requires WellFormed(L) && subId < |L.subs|
    ensures WellFormed(r.ledger) && OnlyBilling(L, r.ledger, subId)
    ensures L.subs[subId].scheduleId.Some? && revoke.Fail? ==> r == Step(L, Err(InternalServerError))
    ensures r.result.Err? ==> r.result.status == InternalServerError
    ensures r.result.Ok? ==> create.Done? && r.ledger.subs[subId].scheduleId == Some(create.value)
    ensures r.result.Err? ==> r.ledger.subs[subId].scheduleId.None? || revoke.Fail?
  {
    var sub := L.subs[subId];
    if sub.scheduleId.Some? && revoke.Fail? then Step(L, Err(InternalServerError))
    else
      var revoked := RevokeAndClear(L, subId);
      match NextPeriodEnd(sub.currentPeriodEnd, sub.plan.billingCycle)
      case Err(_) => Step(revoked, Err(InternalServerError))
      case Ok(nextEnd) =>
        var s := CreateSchedule(revoked, subId, newBillingKey, sub.currentPeriodEnd, nextEnd, invUuid, payUuid, create);
        Step(s.ledger, if s.result.Ok? then Ok(Unit) else Err(InternalServerError))
  }

  lemma RevokeAndClearKeepsIdsLive(L: Ledger, subId: nat)
    requires WellFormed(L) && subId < |L.subs| && ScheduleIdsLive(L)
    ensures ScheduleIdsLive(RevokeAndClear(L, subId))
  {
    var r := RevokeAndClear(L, subId);
    forall i | 0 <= i < |r.subs| && r.subs[i].scheduleId.Some?
      ensures r.subs[i].scheduleId.value in r.schedules
    {
      assert i != subId;
      if L.subs[subId].scheduleId.Some? {
        assert i < subId || subId < i;
        assert L.subs[i].scheduleId != L.subs[subId].scheduleId;
      }
    }
  }

  /** Creating a schedule for a subscription that names none keeps every
      schedule id live when the provider hands out a fresh id. */
  lemma CreateScheduleKeepsIdsLive(L: Ledger, subId: nat, key: string,
                                   periodStart: Option<DateTime>, periodEnd: Option<DateTime>,
                                   invUuid: string, payUuid: string, create: Gateway<string>)
    requires WellFormed(L) && subId < |L.subs| && ScheduleIdsLive(L)
    requires L.subs[subId].scheduleId.None?
    requires create.Done? ==> create.value !in L.schedules
    ensures ScheduleIdsLive(CreateSchedule(L, subId, key, periodStart, periodEnd, invUuid, payUuid, create).ledger)
  {
    var r := CreateSchedule(L, subId, key, periodStart, periodEnd, invUuid, payUuid, create).ledger;
    if r.subs[subId].scheduleId.Some? {
      forall i, j | 0 <= i < j < |r.subs| && r.subs[i].scheduleId.Some? && r.subs[j].scheduleId.Some?
        ensures r.subs[i].scheduleId != r.subs[j].scheduleId
      {
        if i == subId {
          assert r.subs[j].scheduleId.value in L.schedules;
        } else if j == subId {
          assert r.subs[i].scheduleId.value in L.schedules;
        }
      }
    }
  }

  /** The intended replacement keeps every subscription's schedule id live,
      whichever provider call fails. */
  lemma ReplaceScheduleClearingKeepsIdsLive(L: Ledger, subId: nat, key: string, revoke: Gateway<Unit>,
                                            invUuid: string, payUuid: string, create: Gateway<string>)
    requires WellFormed(L) && subId < |L.subs| && ScheduleIdsLive(L)
    requires create.Done? ==> create.value !in L.schedules
    ensures ScheduleIdsLive(ReplaceScheduleClearing(L, subId, key, revoke, invUuid, payUuid, create).ledger)
  {
    var sub := L.subs[subId];
    if !(sub.scheduleId.Some? && revoke.Fail?) {
      RevokeAndClearKeepsIdsLive(L, subId);
      var revoked := RevokeAndClear(L, subId);
      match NextPeriodEnd(sub.currentPeriodEnd, sub.plan.billingCycle)
      case Err(_) =>
      case Ok(nextEnd) =>
        CreateScheduleKeepsIdsLive(revoked, subId, key, sub.currentPeriodEnd, nextEnd, invUuid, payUuid, create);
    }
  }
}

=== FILE: session.dfy ===
/** The Session entity (one signed-in device of a user) with the refresh
    token it currently holds, and the bookkeeping that caps a user's live
    sessions at two.

    A refresh token belongs to exactly one session and is deleted with it
    when replaced, so it is kept inside its session. Coordinates are real
    numbers; the floating-point format is not modelled. */
module Sessions {
  import opened Common
  import opened Time
  import opened Sorting

  /** At most this many of a user's sessions keep a live refresh token. */
  const MAX_LIVE_SESSIONS: nat := 2

  datatype RefreshToken = RefreshToken(token: string, expiresAt: Instant, createdAt: Instant)

  datatype DeviceInfo = DeviceInfo(deviceId: string, deviceName: string)

  datatype Location = Location(latitude: real, longitude: real)

  datatype Session = Session(
    id: nat,
    userId: nat,
    deviceId: string,
    deviceName: string,
    latitude: Option<real>,
    longitude: Option<real>,
    lastAccessedAt: Instant,
    refreshToken: Option<RefreshToken>)

  /** A token is expired once the clock is strictly past its expiry. */
  predicate IsExpired(t: RefreshToken, now: Instant) {
    now > t.expiresAt
  }

  /** A session counts as live while it holds a token whose expiry is still
      ahead of the clock. */
  predicate Live(s: Session, now: Instant) {
    s.refreshToken.Some? && s.refreshToken.value.expiresAt > now
  }

  /** At an instant equal to the expiry a token is neither live nor expired. */
  lemma LiveAndExpiredDisagreeAtExpiry(s: Session, now: Instant)
    requires s.refreshToken.Some? && now == s.refreshToken.value.expiresAt
    ensures !Live(s, now) && !IsExpired(s.refreshToken.value, now)
  {
  }

  function Latitude(location: Option<Location>): (r: Option<real>)
    ensures r.Some? <==> location.Some?
    ensures r.Some? ==> r.value == location.value.latitude
  {
    if location.Some? then Some(location.value.latitude) else None
  }

  function Longitude(location: Option<Location>): (r: Option<real>)
    ensures r.Some? <==> location.Some?
    ensures r.Some? ==> r.value == location.value.longitude
  {
    if location.Some? then Some(location.value.longitude) else None
  }

  /** A new session for a device: no token yet, accessed now. */
  function Create(id: nat, userId: nat, device: DeviceInfo, location: Option<Location>, now: Instant): (r: Session)
    ensures r.id == id && r.userId == userId
    ensures r.deviceId == device.deviceId && r.deviceName == device.deviceName
    ensures location.None? ==> r.latitude.None? && r.longitude.None?
    ensures location.Some? ==> r.latitude == Some(location.value.latitude) && r.longitude == Some(location.value.longitude)
    ensures r.lastAccessedAt == now && r.refreshToken.None?
  {
    Session(id, userId, device.deviceId, device.deviceName, Latitude(location), Longitude(location), now, None)
  }

  /** Records an access: coordinates replaced (cleared when no location is
      given) and the access time set. */
  function UpdateAccessInfo(s: Session, location: Option<Location>, now: Instant): (r: Session)
    ensures location.None? ==> r.latitude.None? && r.longitude.None?
    ensures location.Some? ==> r.latitude == Some(location.value.latitude) && r.longitude == Some(location.value.longitude)
    ensures r.lastAccessedAt == now
    ensures r.(latitude := s.latitude, longitude := s.longitude, lastAccessedAt := s.lastAccessedAt) == s
  {
    s.(latitude := Latitude(location), longitude := Longitude(location), lastAccessedAt := now)
  }

  /** Replaces (or, with `None`, removes) the session's token; user and
      device stay. */
  function UpdateRefreshToken(s: Session, t: Option<RefreshToken>): (r: Session)
    ensures r.refreshToken == t
    ensures r.(refreshToken := s.refreshToken) == s
  {
    s.(refreshToken := t)
  }

  // --------------------------------------------------------- live sessions

  /** When the session's token was created (0 when it holds none). */
  function CreatedAt(s: Session): (r: Instant)
    ensures s.refreshToken.Some? ==> r == s.refreshToken.value.createdAt
  {
    if s.refreshToken.Some? then s.refreshToken.value.createdAt else 0
  }

  /** The creation instant of the token of the session at each position. */
  function TokenCreatedAt(ss: seq<Session>): (key: nat -> int)
    ensures forall i :: 0 <= i < |ss| ==> key(i) == CreatedAt(ss[i])
  {
    (i: nat) => if i < |ss| then CreatedAt(ss[i]) else 0
  }

  /** The positions of the user's live sessions, oldest token first (the
      relative order of tokens created at the same instant is left as
      found). */
  function ActiveSessionsOf(ss: seq<Session>, userId: nat, now: Instant): (r: seq<nat>)
    ensures forall k :: 0 <= k < |r| ==> r[k] < |ss| && ss[r[k]].userId == userId && Live(ss[r[k]], now)
    ensures forall i :: 0 <= i < |ss| && ss[i].userId == userId && Live(ss[i], now) ==> i in r
    ensures Distinct(r)
    ensures forall a, b :: 0 <= a < b < |r| ==> CreatedAt(ss[r[a]]) <= CreatedAt(ss[r[b]])
  {
    var live := LivePositions(ss, userId, now);
    var r := SortByKey(live, TokenCreatedAt(ss));
    assert forall k :: 0 <= k < |r| ==> r[k] in live;
    r
  }

  /** The user's live sessions in position order. */
  function LivePositions(ss: seq<Session>, userId: nat, now: Instant): (r: seq<nat>)
    ensures forall k :: 0 <= k < |r| ==> r[k] < |ss| && ss[r[k]].userId == userId && Live(ss[r[k]], now)
    ensures forall i :: 0 <= i < |ss| && ss[i].userId == userId && Live(ss[i], now) ==> i in r
    ensures forall a, b :: 0 <= a < b < |r| ==> r[a] < r[b]
  {
    if |ss| == 0 then []
    else
      var init := LivePositions(ss[..|ss| - 1], userId, now);
      var last := |ss| - 1;
      if ss[last].userId == userId && Live(ss[last], now) then init + [last] else init
  }

  /** The sessions whose tokens are withdrawn: all but the two newest of
      the user's live sessions. */
  function Oldest(ss: seq<Session>, userId: nat, now: Instant): (r: seq<nat>)
    ensures var active := ActiveSessionsOf(ss, userId, now);
            r == if |active| > MAX_LIVE_SESSIONS then active[..|active| - MAX_LIVE_SESSIONS] else []
  {
    var active := ActiveSessionsOf(ss, userId, now);
    if |active| > MAX_LIVE_SESSIONS then active[..|active| - MAX_LIVE_SESSIONS] else []
  }

  /** removeOldestSessions: with more than two live sessions, the oldest
      ones lose their token so that the two newest remain live. */
  function RemoveOldestSessions(ss: seq<Session>, userId: nat, now: Instant): (r: seq<Session>)
    ensures |r| == |ss|
    ensures |ActiveSessionsOf(ss, userId, now)| <= MAX_LIVE_SESSIONS ==> r == ss
    ensures forall i :: 0 <= i < |ss| ==>
              r[i] == if i in Oldest(ss, userId, now) then UpdateRefreshToken(ss[i], None) else ss[i]
    ensures forall i :: 0 <= i < |ss| ==>
              r[i] == ss[i] || (r[i] == UpdateRefreshToken(ss[i], None) && ss[i].userId == userId && Live(ss[i], now))
    ensures forall i :: 0 <= i < |ss| && ss[i].userId != userId ==> r[i] == ss[i]
  {
    var oldest := Oldest(ss, userId, now);
    seq(|ss|, i requires 0 <= i < |ss| => if i in oldest then UpdateRefreshToken(ss[i], None) else ss[i])
  }

  /** The session belongs to the user and still holds a live token. */
  predicate KeepsLiveToken(s: Session, userId: nat, now: Instant) {
    s.userId == userId && Live(s, now)
  }

  /** `i` is one of the last two entries. */
  predicate IsOneOfLastTwo(active: seq<nat>, i: nat)
    requires |active| >= 2
  {
    i == active[|active| - 2] || i == active[|active| - 1]
  }

  /** Clearing the token of a session exactly when its position is among
      the first `|active| - 2` of a duplicate-free list that names every
      live session of the user, and only live ones at its end, leaves it
      live exactly when it is one of the last two. */
  lemma KeptIffLastTwo(s: Session, kept: Session, active: seq<nat>, i: nat, userId: nat, now: Instant)
    requires |active| > 2 && Distinct(active)
    requires s.userId == userId && Live(s, now) ==> i in active
    requires i == active[|active| - 2] || i == active[|active| - 1] ==> s.userId == userId && Live(s, now)
    requires kept == if i in active[..|active| - 2] then UpdateRefreshToken(s, None) else s
    ensures KeepsLiveToken(kept, userId, now) <==> IsOneOfLastTwo(active, i)
  {
  }

  /** The cap at one position: the token is withdrawn exactly when the
      session is one of the oldest live ones. */
  lemma RemoveOldestAt(ss: seq<Session>, userId: nat, now: Instant, i: nat)
    requires |ActiveSessionsOf(ss, userId, now)| > MAX_LIVE_SESSIONS && i < |ss|
    ensures var active := ActiveSessionsOf(ss, userId, now);
            RemoveOldestSessions(ss, userId, now)[i] ==
              if i in active[..|active| - MAX_LIVE_SESSIONS] then UpdateRefreshToken(ss[i], None) else ss[i]
  {
  }

  /** One session after the cap: it keeps a live token exactly when it is
      one of the two newest. */
  lemma KeptIffNewest(ss: seq<Session>, userId: nat, now: Instant, i: nat)
    requires |ActiveSessionsOf(ss, userId, now)| > MAX_LIVE_SESSIONS && i < |ss|
    ensures KeepsLiveToken(RemoveOldestSessions(ss, userId, now)[i], userId, now) <==>
              IsOneOfLastTwo(ActiveSessionsOf(ss, userId, now), i)
  {
    var active := ActiveSessionsOf(ss, userId, now);
    var n := |active|;
    RemoveOldestAt(ss, userId, now, i);
    assert active[n - 2] < |ss| && active[n - 1] < |ss|;
    KeptIffLastTwo(ss[i], RemoveOldestSessions(ss, userId, now)[i], active, i, userId, now);
  }

  /** With more than two live sessions, exactly the two newest keep a live
      token. */
  lemma RemoveOldestKeepsTwoNewest(ss: seq<Session>, userId: nat, now: Instant)
    requires |ActiveSessionsOf(ss, userId, now)| > MAX_LIVE_SESSIONS
    ensures var active := ActiveSessionsOf(ss, userId, now);
            active[|active| - 2] != active[|active| - 1]
    ensures forall i :: 0 <= i < |ss| ==>
              (KeepsLiveToken(RemoveOldestSessions(ss, userId, now)[i], userId, now) <==>
                 IsOneOfLastTwo(ActiveSessionsOf(ss, userId, now), i))
  {
    forall i | 0 <= i < |ss| {
      KeptIffNewest(ss, userId, now, i);
    }
  }

  /** Every session that lost its token is no newer than every one that
      kept it. */
  lemma {:induction false} RemoveOldestDropsOnlyOlder(ss: seq<Session>, userId: nat, now: Instant, i: nat, j: nat)
    requires |ActiveSessionsOf(ss, userId, now)| > MAX_LIVE_SESSIONS
    requires i < |ss| && j < |ss| && ss[i].userId == userId && Live(ss[i], now)
    requires !Live(RemoveOldestSessions(ss, userId, now)[i], now)
    requires RemoveOldestSessions(ss, userId, now)[j].userId == userId && Live(RemoveOldestSessions(ss, userId, now)[j], now)
    ensures CreatedAt(ss[i]) <= CreatedAt(ss[j])
  {
    var active := ActiveSessionsOf(ss, userId, now);
    var n := |active|;
    RemoveOldestKeepsTwoNewest(ss, userId, now);
    var a :| 0 <= a < n && active[a] == i;
    assert a < n - 2;
  }

  /** A session whose token is strictly newer than every other live
      session's keeps it. */
  lemma NewestTokenIsKept(ss: seq<Session>, userId: nat, now: Instant, k: nat)
    requires k < |ss| && ss[k].userId == userId && Live(ss[k], now)
    requires forall i :: 0 <= i < |ss| && i != k && ss[i].userId == userId && Live(ss[i], now) ==>
               CreatedAt(ss[i]) < CreatedAt(ss[k])
    ensures RemoveOldestSessions(ss, userId, now)[k] == ss[k]
  {
    var active := ActiveSessionsOf(ss, userId, now);
    var n := |active|;
    if n > MAX_LIVE_SESSIONS {
      KeptIffNewest(ss, userId, now, k);
    }
  }
}

=== FILE: sorting.dfy ===
/** Ordering of row positions by a key: the stable insertion sort the
    services use in place of a database ORDER BY. */
module Sorting {

  predicate SortedBy(ps: seq<nat>, key: nat -> int) {
    forall a, b :: 0 <= a < b < |ps| ==> key(ps[a]) <= key(ps[b])
  }

  predicate Distinct(ps: seq<nat>) {
    forall a, b :: 0 <= a < b < |ps| ==> ps[a] != ps[b]
  }

  /** Putting an element no larger than the rest in front keeps the order. */
  lemma ConsSorted(h: nat, t: seq<nat>, key: nat -> int)
    requires SortedBy(t, key) && forall y :: y in t ==> key(h) <= key(y)
    ensures SortedBy([h] + t, key)
  {
    var r := [h] + t;
    forall a, b | 0 <= a < b < |r|
      ensures key(r[a]) <= key(r[b])
    {
      assert r[b] == t[b - 1];
      if a > 0 {
        assert r[a] == t[a - 1];
      }
    }
  }

  /** Putting a new element in front keeps the elements distinct. */
  lemma ConsDistinct(h: nat, t: seq<nat>)
    requires Distinct(t) && h !in t
    ensures Distinct([h] + t)
  {
    var r := [h] + t;
    forall a, b | 0 <= a < b < |r|
      ensures r[a] != r[b]
    {
      assert r[b] == t[b - 1];
      if a > 0 {
        assert r[a] == t[a - 1];
      }
    }
  }

  /** Inserts `x` after every element whose key is not larger. */
  function InsertByKey(x: nat, ps: seq<nat>, key: nat -> int): (r: seq<nat>)
    requires SortedBy(ps, key)
    ensures SortedBy(r, key)
    ensures |r| == |ps| + 1
    ensures forall y :: y in r <==> y == x || y in ps
    ensures x !in ps && Distinct(ps) ==> Distinct(r)
  {
    if |ps| == 0 then [x]
    else if key(x) < key(ps[0]) then
      assert forall y :: y in ps ==> key(x) <= key(y) by {
        forall y | y in ps
          ensures key(x) <= key(y)
        {
          var j :| 0 <= j < |ps| && ps[j] == y;
          assert key(ps[0]) <= key(ps[j]);
        }
      }
      ConsSorted(x, ps, key);
      if x !in ps && Distinct(ps) then ConsDistinct(x, ps); [x] + ps else [x] + ps
    else
      var t := ps[1..];
      assert forall y :: y in ps <==> y == ps[0] || y in t;
      var tail := InsertByKey(x, t, key);
      assert forall y :: y in t ==> key(ps[0]) <= key(y) by {
        forall y | y in t
          ensures key(ps[0]) <= key(y)
        {
          var j :| 0 <= j < |t| && t[j] == y;
          assert y == ps[j + 1];
        }
      }
      ConsSorted(ps[0], tail, key);
      if x !in ps && Distinct(ps) then
        assert Distinct(t) && x !in t && ps[0] !in t by {
          forall a, b | 0 <= a < b < |t|
            ensures t[a] != t[b]
          {
            assert t[a] == ps[a + 1] && t[b] == ps[b + 1];
          }
          forall j | 0 <= j < |t|
            ensures t[j] != ps[0]
          {
            assert t[j] == ps[j + 1];
          }
        }
        ConsDistinct(ps[0], tail);
        [ps[0]] + tail
      else [ps[0]] + tail
  }

  /** A stable insertion sort of positions by key. */
  function SortByKey(ps: seq<nat>, key: nat -> int): (r: seq<nat>)
    ensures SortedBy(r, key)
    ensures |r| == |ps|
    ensures forall y :: y in r <==> y in ps
    ensures Distinct(ps) ==> Distinct(r)
  {
    if |ps| == 0 then []
    else
      var init := ps[..|ps| - 1];
      var x := ps[|ps| - 1];
      assert forall y :: y in ps <==> y == x || y in init;
      InsertByKey(x, SortByKey(init, key), key)
  }
}

=== FILE: subscription.dfy ===
/** The Subscription entity and its state machine.

    The status set includes PAST_DUE, and `MarkAsPastDue`/`Expire` are the
    plain status assignments the webhook handler and the expiration sweep
    rely on; the entity source defines neither (see README). */
module Subscriptions {
  import opened Common
  import opened Time
  import opened Plans

  datatype SubscriptionStatus = Pending | Active | PastDue | Canceled | Expired

  datatype Subscription = Subscription(
    id: nat,
    userId: nat,
    plan: SubscriptionPlan,
    status: SubscriptionStatus,
    startedAt: Option<DateTime>,
    currentPeriodStart: Option<DateTime>,
    currentPeriodEnd: Option<DateTime>,
    canceledAt: Option<DateTime>,
    scheduleId: Option<string>)

  /** The end of a billing period that starts at `start`: one month or one
      year later, and no end at all for a lifetime plan. */
  function PeriodEnd(cycle: BillingCycle, start: DateTime): (r: Option<DateTime>)
    ensures r.None? <==> cycle == Lifetime
    ensures r.Some? ==> Before(start, r.value)
    ensures cycle == Monthly ==> r == Some(PlusMonths(start))
    ensures cycle == Yearly ==> r == Some(PlusYears(start))
  {
    match cycle
    case Monthly => Some(PlusMonths(start))
    case Yearly => Some(PlusYears(start))
    case Lifetime => None
  }

  /** The state every subscription is in between operations: an ACTIVE one
      has started and has a current period; a current period ends after it
      starts, and has no end exactly for a lifetime plan; a CANCELED one
      records when. */
  predicate Wf(s: Subscription) {
    && (s.status == Active ==> s.startedAt.Some? && s.currentPeriodStart.Some?)
    && (s.currentPeriodStart.Some? ==>
          && (s.currentPeriodEnd.None? <==> IsLifetime(s.plan))
          && (s.currentPeriodEnd.Some? ==> Before(s.currentPeriodStart.value, s.currentPeriodEnd.value)))
    && (s.status == Canceled ==> s.canceledAt.Some?)
  }

  /** A new subscription: PENDING, never started, no period, no schedule. */
  function Create(id: nat, userId: nat, plan: SubscriptionPlan): (r: Subscription)
    ensures r.id == id && r.userId == userId && r.plan == plan
    ensures r.status == Pending
    ensures r.startedAt.None? && r.currentPeriodStart.None? && r.currentPeriodEnd.None?
    ensures r.canceledAt.None? && r.scheduleId.None?
    ensures Wf(r)
  {
    Subscription(id, userId, plan, Pending, None, None, None, None, None)
  }

  /** Activation from any status: ACTIVE, started now, first period from now. */
  function Activate(s: Subscription, now: DateTime): (r: Subscription)
    ensures r.status == Active
    ensures r.startedAt == Some(now) && r.currentPeriodStart == Some(now)
    ensures r.currentPeriodEnd == PeriodEnd(s.plan.billingCycle, now)
    ensures r.id == s.id && r.userId == s.userId && r.plan == s.plan
    ensures r.canceledAt == s.canceledAt && r.scheduleId == s.scheduleId
    ensures Wf(s) ==> Wf(r)
  {
    s.(status := Active, startedAt := Some(now), currentPeriodStart := Some(now),
       currentPeriodEnd := PeriodEnd(s.plan.billingCycle, now))
  }

  /** Cancellation: CANCELED at `now`; periods and schedule stay as they were. */
  function Cancel(s: Subscription, now: DateTime): (r: Subscription)
    ensures r.status == Canceled && r.canceledAt == Some(now)
    ensures r.startedAt == s.startedAt
    ensures r.currentPeriodStart == s.currentPeriodStart && r.currentPeriodEnd == s.currentPeriodEnd
    ensures r.scheduleId == s.scheduleId
    ensures r.id == s.id && r.userId == s.userId && r.plan == s.plan
    ensures Wf(s) ==> Wf(r)
  {
    s.(status := Canceled, canceledAt := Some(now))
  }

  /** `isActive()`: the status is ACTIVE. */
  predicate IsActive(s: Subscription) {
    s.status == Active
  }

  /** `isCanceled()`: the status is CANCELED. */
  predicate IsCanceled(s: Subscription) {
    s.status == Canceled
  }

  /** Renewal of the period: only the period bounds move, to start at `now`. */
  function ExtendPeriod(s: Subscription, now: DateTime): (r: Subscription)
    ensures r.currentPeriodStart == Some(now)
    ensures r.currentPeriodEnd == PeriodEnd(s.plan.billingCycle, now)
    ensures r.status == s.status && r.startedAt == s.startedAt
    ensures r.canceledAt == s.canceledAt && r.scheduleId == s.scheduleId
    ensures r.id == s.id && r.userId == s.userId && r.plan == s.plan
    ensures Wf(s) ==> Wf(r)
  {
    s.(currentPeriodStart := Some(now), currentPeriodEnd := PeriodEnd(s.plan.billingCycle, now))
  }

  /** The schedule-id setter; nothing else changes. */
  function SetScheduleId(s: Subscription, scheduleId: Option<string>): (r: Subscription)
    ensures r.scheduleId == scheduleId
    ensures r.(scheduleId := s.scheduleId) == s
    ensures Wf(s) ==> Wf(r)
  {
    s.(scheduleId := scheduleId)
  }

  /** Assumed: `markAsPastDue` sets the status to PAST_DUE and nothing else. */
  function MarkAsPastDue(s: Subscription): (r: Subscription)
    ensures r.status == PastDue
    ensures r.(status := s.status) == s
    ensures Wf(s) ==> Wf(r)
  {
    s.(status := PastDue)
  }

  /** Assumed: `expire` sets the status to EXPIRED and nothing else. */
  function Expire(s: Subscription): (r: Subscription)
    ensures r.status == Expired
    ensures r.(status := s.status) == s
    ensures Wf(s) ==> Wf(r)
  {
    s.(status := Expired)
  }

  /** One entity operation, as a service applies it. */
  datatype Transition =
    | ToActive(at: DateTime)
    | ToCanceled(at: DateTime)
    | Extend(at: DateTime)
    | StoreSchedule(scheduleId: Option<string>)
    | ToPastDue
    | ToExpired

  function Apply(s: Subscription, t: Transition): Subscription {
    match t
    case ToActive(at) => Activate(s, at)
    case ToCanceled(at) => Cancel(s, at)
    case Extend(at) => ExtendPeriod(s, at)
    case StoreSchedule(id) => SetScheduleId(s, id)
    case ToPastDue => MarkAsPastDue(s)
    case ToExpired => Expire(s)
  }

  /** The operations applied one after another, first to last. */
  function Run(s: Subscription, ts: seq<Transition>): Subscription
    decreases |ts|
  {
    if |ts| == 0 then s else Run(Apply(s, ts[0]), ts[1..])
  }

  /** Whatever operations follow one another, and in whatever order, a
      well-formed subscription stays well formed and keeps its identity,
      owner and plan. */
  lemma {:induction false} RunKeepsWf(s: Subscription, ts: seq<Transition>)
    requires Wf(s)
    ensures Wf(Run(s, ts))
    ensures Run(s, ts).id == s.id && Run(s, ts).userId == s.userId && Run(s, ts).plan == s.plan
    decreases |ts|
  {
    if |ts| > 0 {
      RunKeepsWf(Apply(s, ts[0]), ts[1..]);
    }
  }

  /** Every subscription a sequence of operations can reach from `Create`
      that is ACTIVE on a monthly or yearly plan has started and has a
      current period that ends after it starts. */
  lemma ReachableActiveHasPeriodEnd(id: nat, userId: nat, plan: SubscriptionPlan, ts: seq<Transition>)
    requires !IsLifetime(plan)
    ensures var s := Run(Create(id, userId, plan), ts);
            s.status == Active ==>
              && s.startedAt.Some? && s.currentPeriodStart.Some? && s.currentPeriodEnd.Some?
              && Before(s.currentPeriodStart.value, s.currentPeriodEnd.value)
  {
    RunKeepsWf(Create(id, userId, plan), ts);
  }

  /** `activate` has no guard: whatever the prior status, the result is the
      same ACTIVE subscription. */
  lemma ActivateIgnoresPriorStatus(s: Subscription, st: SubscriptionStatus, now: DateTime)
    ensures Activate(s, now) == Activate(s.(status := st), now)
  {
  }
}

=== FILE: subscription_service.dfy ===
/** Purchasing, canceling and granting subscriptions.

    A purchase checks the plan and the user's current subscriptions, writes a
    PENDING subscription, invoice and payment, looks the billing key up,
    charges it, and on success records the payment, activates the
    subscription and remembers the billing key as the user's payment method.
    Any failure after the charge request marks the payment and invoice
    FAILED and raises INTERNAL_SERVER_ERROR.

    The provider's answers (billing-key lookup, charge) are inputs, and so
    are the clock (`now`) and the UUIDs of the new invoice and payment. */
module SubscriptionService {
  import opened Common
  import opened Time
  import opened Plans
  import opened Subscriptions
  import Invoices
  import Payments
  import opened PaymentMethods
  import opened Ledgers
  import opened Provider

  /** Messages of the exceptions the purchase catches; the failure reason
      stored on the payment is the message. */
  const PAYMENT_ERROR_MESSAGE: string := "결제 처리 중 오류가 발생했습니다"
  const INVALID_BILLING_KEY_MESSAGE: string := "유효하지 않은 빌링키입니다."
  const USER_NOT_FOUND_MESSAGE: string := "사용자를 찾을 수 없습니다."
  const NON_UNIQUE_RESULT_MESSAGE: string := "query did not return a unique result"

  // ----------------------------------------------------------------- queries

  /** The user's ACTIVE subscriptions. */
  function ActiveSubsOf(L: Ledger, userId: nat): (r: seq<nat>)
    ensures forall k :: 0 <= k < |r| ==> r[k] < |L.subs| && L.subs[r[k]].userId == userId && L.subs[r[k]].status.Active?
    ensures forall i :: 0 <= i < |L.subs| && L.subs[i].userId == userId && L.subs[i].status.Active? ==> i in r
  {
    Where(L.subs, (s: Subscription) => s.userId == userId && s.status.Active?)
  }

  /** The user's ACTIVE subscriptions to one plan. */
  function ActiveSubsOfPlan(L: Ledger, userId: nat, planId: nat): (r: seq<nat>)
    ensures forall k :: 0 <= k < |r| ==>
              r[k] < |L.subs| && L.subs[r[k]].userId == userId && L.subs[r[k]].plan.id == planId && L.subs[r[k]].status.Active?
    ensures forall i :: 0 <= i < |L.subs| && L.subs[i].userId == userId && L.subs[i].plan.id == planId && L.subs[i].status.Active? ==>
              i in r
  {
    Where(L.subs, (s: Subscription) => s.userId == userId && s.plan.id == planId && s.status.Active?)
  }

  // ------------------------------------------------------------------ guards

  /** The checks made before anything is written. On success: the plan, and
      the user's free ACTIVE subscription to cancel, if there is one. */
  function CheckPurchase(L: Ledger, userId: nat, planId: nat, expectedPrice: Decimal)
    : (r: Result<(SubscriptionPlan, Option<nat>)>)
    ensures FindById(L.plans, planId).None? ==> r == Err(ResourceNotFound)
    ensures FindById(L.plans, planId).Some? && IsFree(FindById(L.plans, planId).value) ==> r == Err(BadRequest)
    ensures FindById(L.plans, planId).Some? && !NumEq(expectedPrice, Price(FindById(L.plans, planId).value)) ==>
              r.Err? && r.status == BadRequest
    ensures r.Ok? ==>
              && FindById(L.plans, planId) == Some(r.value.0)
              && !IsFree(r.value.0) && NumEq(expectedPrice, Price(r.value.0))
              && (r.value.1.Some? ==> r.value.1.value < |L.subs|)
              && (forall i :: 0 <= i < |L.subs| && L.subs[i].userId == userId && L.subs[i].status.Active? ==>
                    r.value.1 == Some(i) && IsFree(L.subs[i].plan))
              && (r.value.1.Some? ==> L.subs[r.value.1.value].userId == userId && L.subs[r.value.1.value].status.Active?)
    ensures r.Err? ==> r.status in {ResourceNotFound, BadRequest, InternalServerError}
  {
    match FindById(L.plans, planId)
    case None => Err(ResourceNotFound)
    case Some(plan) =>
      if IsFree(plan) then Err(BadRequest)
      else if CompareTo(expectedPrice, Price(plan)) != 0 then Err(BadRequest)
      else match SingleResult(ActiveSubsOfPlan(L, userId, planId))
        case Err(e) => Err(e)
        case Ok(Some(_)) => Err(BadRequest)
        case Ok(None) =>
          var active := ActiveSubsOf(L, userId);
          match SingleResult(active)
          case Err(e) => Err(e)
          case Ok(None) => Ok((plan, None))
          case Ok(Some(k)) =>
            if IsFree(L.subs[k].plan) then Ok((plan, Some(k))) else Err(BadRequest)
  }

  /** A user who already holds an ACTIVE paid subscription, or an ACTIVE
      subscription to the requested plan, cannot buy. */
  lemma PaidSubscriberIsRefused(L: Ledger, userId: nat, planId: nat, expectedPrice: Decimal, i: nat)
    requires i < |L.subs| && L.subs[i].userId == userId && L.subs[i].status.Active?
    requires !IsFree(L.subs[i].plan) || L.subs[i].plan.id == planId
    ensures CheckPurchase(L, userId, planId, expectedPrice).Err?
  {
    var r := CheckPurchase(L, userId, planId, expectedPrice);
    if r.Ok? && L.subs[i].plan.id == planId {
      assert IsFree(L.subs[i].plan);
      assert Some(r.value.0) == FindById(L.plans, planId);
      assert L.subs[i].plan.id == r.value.0.id;
    }
  }

  // ------------------------------------------------------------------ writes

  /** The end of the first invoiced period: one month for a monthly plan,
      one year for any other. */
  function FirstPeriodEnd(plan: SubscriptionPlan, now: DateTime): (r: DateTime)
    ensures Before(now, r)
    ensures plan.billingCycle == Monthly ==> r == PlusMonths(now)
    ensures plan.billingCycle != Monthly ==> r == PlusYears(now)
  {
    if plan.billingCycle == Monthly then PlusMonths(now) else PlusYears(now)
  }

  /** The rows written before the provider is called: the free subscription
      canceled, a new PENDING subscription, and a PENDING invoice (in the
      given currency) and payment (in the plan's currency) for the first
      period. */
  function OpenPurchase(L: Ledger, userId: nat, plan: SubscriptionPlan, cancel: Option<nat>, now: DateTime,
                        invUuid: string, payUuid: string, invoiceCurrency: Currency): (r: Ledger)
    requires WellFormed(L) && (cancel.Some? ==> cancel.value < |L.subs|)
    ensures WellFormed(r)
    ensures |r.subs| == |L.subs| + 1 && r.subs[|L.subs|] == Subscriptions.Create(|L.subs|, userId, plan)
    ensures forall i :: 0 <= i < |L.subs| ==>
              r.subs[i] == if cancel == Some(i) then Cancel(L.subs[i], now) else L.subs[i]
    ensures r.invoices == L.invoices[Invoices.InvoiceId(invUuid) :=
              Invoices.Create(invUuid, |L.subs|, Price(plan), invoiceCurrency, Some(now), Some(FirstPeriodEnd(plan, now)))]
    ensures r.payments == L.payments[Payments.PaymentId(payUuid) :=
              Payments.Create(payUuid, Invoices.InvoiceId(invUuid), Price(plan), plan.currency)]
    ensures r.plans == L.plans && r.users == L.users && r.methods == L.methods
    ensures r.schedules == L.schedules && r.charges == L.charges
  {
    var subs := if cancel.Some? then L.subs[cancel.value := Cancel(L.subs[cancel.value], now)] else L.subs;
    var sub := Subscriptions.Create(|L.subs|, userId, plan);
    var inv := Invoices.Create(invUuid, sub.id, Price(plan), invoiceCurrency, Some(now), Some(FirstPeriodEnd(plan, now)));
    var pay := Payments.Create(payUuid, inv.id, Price(plan), plan.currency);
    L.(subs := subs + [sub], invoices := L.invoices[inv.id := inv], payments := L.payments[pay.id := pay])
  }

  /** The last four characters of a card number, when it has at least four. */
  function CardLast4(number: Option<string>): (r: Option<string>)
    ensures r.Some? <==> number.Some? && |number.value| >= 4
    ensures r.Some? ==> |r.value| == 4 && number.value == number.value[..|number.value| - 4] + r.value
  {
    if number.Some? && |number.value| >= 4 then Some(number.value[|number.value| - 4..]) else None
  }

  /** What the purchase records about the key's first method: its type, and
      for a card the last four digits and the brand. */
  function MethodDetails(first: Option<BillingKeyMethod>): (r: (Payments.PaymentMethodType, Option<string>, Option<string>))
    ensures r.0 == Payments.Card <==> first.Some? && first.value.CardKey?
    ensures r.0 == Payments.EasyPay <==> first == Some(EasyPayKey)
    ensures r.0 != Payments.Card && r.0 != Payments.EasyPay ==> r.0 == Payments.Unknown
    ensures r.0 == Payments.Card ==> r.1 == CardLast4(first.value.card.number) && r.2 == first.value.card.brand
    ensures r.0 != Payments.Card ==> r.1.None? && r.2.None?
  {
    match first
    case Some(CardKey(card)) => (Payments.Card, CardLast4(card.number), card.brand)
    case Some(EasyPayKey) => (Payments.EasyPay, None, None)
    case _ => (Payments.Unknown, None, None)
  }

  /** No payment or invoice was added, removed or changed in its terms
      (amount, currency, links, period). */
  predicate TermsKept(A: Ledger, B: Ledger) {
    && A.payments.Keys == B.payments.Keys && A.invoices.Keys == B.invoices.Keys
    && (forall pid :: pid in A.payments ==> Payments.SameTerms(A.payments[pid], B.payments[pid]))
    && (forall iid :: iid in A.invoices ==> Invoices.SameTerms(A.invoices[iid], B.invoices[iid]))
  }

  lemma FailPurchaseKeepsTerms(L: Ledger, invId: string, payId: string, message: string)
    requires WellFormed(L) && invId in L.invoices && payId in L.payments
    ensures TermsKept(L, FailPurchase(L, invId, payId, message).ledger)
  {
  }

  lemma MarkPurchasePaidKeepsTerms(L: Ledger, subId: nat, invId: string, payId: string,
                                   mt: Payments.PaymentMethodType, now: DateTime)
    requires WellFormed(L) && subId < |L.subs| && invId in L.invoices && payId in L.payments
    ensures TermsKept(L, MarkPurchasePaid(L, subId, invId, payId, mt, now))
  {
  }

  lemma TermsKeptTransitive(A: Ledger, B: Ledger, C: Ledger)
    requires TermsKept(A, B) && TermsKept(B, C)
    ensures TermsKept(A, C)
  {
  }

  /** The catch block: payment and invoice FAILED, INTERNAL_SERVER_ERROR. */
  function FailPurchase(L: Ledger, invId: string, payId: string, message: string): (r: Step<nat>)
    requires WellFormed(L) && invId in L.invoices && payId in L.payments
    ensures WellFormed(r.ledger) && r.result == Err(InternalServerError)
    ensures r.ledger.payments == L.payments[payId := Payments.MarkAsFailed(L.payments[payId], Some(message))]
    ensures r.ledger.invoices == L.invoices[invId := Invoices.MarkAsFailed(L.invoices[invId])]
    ensures r.ledger.subs == L.subs && r.ledger.methods == L.methods && r.ledger.charges == L.charges
  {
    Step(L.(payments := L.payments[payId := Payments.MarkAsFailed(L.payments[payId], Some(message))],
            invoices := L.invoices[invId := Invoices.MarkAsFailed(L.invoices[invId])]),
         Err(InternalServerError))
  }

  /** Saving a new (active, non-default) payment method for the user. */
  function AddMethod(L: Ledger, userId: nat, billingKey: string, cardNumber: Option<string>,
                     cardBrand: Option<string>): (r: Ledger)
    requires WellFormed(L)
    ensures WellFormed(r)
    ensures r.methods == L.methods + [PaymentMethods.Create(|L.methods|, userId, billingKey, cardNumber, cardBrand, false)]
    ensures r.(methods := L.methods) == L
  {
    L.(methods := L.methods + [PaymentMethods.Create(|L.methods|, userId, billingKey, cardNumber, cardBrand, false)])
  }

  /** The purchase's rows marked settled: payment and invoice PAID,
      subscription ACTIVE. */
  function MarkPurchasePaid(L: Ledger, subId: nat, invId: string, payId: string,
                            mt: Payments.PaymentMethodType, now: DateTime): (r: Ledger)
    requires WellFormed(L) && subId < |L.subs| && invId in L.invoices && payId in L.payments
    ensures WellFormed(r)
    ensures r.payments == L.payments[payId := Payments.MarkAsPaid(L.payments[payId], mt, now)]
    ensures r.invoices == L.invoices[invId := Invoices.MarkAsPaid(L.invoices[invId], now)]
    ensures r.subs == L.subs[subId := Activate(L.subs[subId], now)]
    ensures r.plans == L.plans && r.users == L.users && r.methods == L.methods
    ensures r.schedules == L.schedules && r.charges == L.charges
  {
    PutSubscriptionPreserves(L, Activate(L.subs[subId], now));
    L.(payments := L.payments[payId := Payments.MarkAsPaid(L.payments[payId], mt, now)],
       invoices := L.invoices[invId := Invoices.MarkAsPaid(L.invoices[invId], now)],
       subs := L.subs[subId := Activate(L.subs[subId], now)])
  }

  /** The user has exactly one active payment method, and it holds
      `billingKey`. */
  predicate SoleActiveKey(L: Ledger, userId: nat, billingKey: string) {
    var active := ActiveMethodsOf(L, userId);
    |active| == 1 && L.methods[active[0]].billingKey == billingKey
  }

  /** Saving method `k` deactivated: only its active flag changes. */
  function DeactivateMethod(L: Ledger, k: nat): (r: Ledger)
    requires WellFormed(L) && k < |L.methods|
    ensures WellFormed(r) && r.(methods := L.methods) == L
    ensures |r.methods| == |L.methods| && !r.methods[k].isActive
    ensures forall i :: 0 <= i < |L.methods| ==> r.methods[i].(isActive := L.methods[i].isActive) == L.methods[i]
    ensures forall i :: 0 <= i < |L.methods| && i != k ==> r.methods[i] == L.methods[i]
  {
    L.(methods := L.methods[k := Deactivate(L.methods[k])])
  }

  /** The user's active method `k` deactivated and a new method for
      `billingKey` added in its place. */
  function ReplaceMethod(L: Ledger, userId: nat, k: nat, billingKey: string, cardNumber: Option<string>,
                         cardBrand: Option<string>): (r: Ledger)
    requires WellFormed(L) && k < |L.methods| && ActiveMethodsOf(L, userId) == [k]
    ensures WellFormed(r) && r.(methods := L.methods) == L
    ensures SoleActiveKey(r, userId, billingKey)
    ensures |r.methods| == |L.methods| + 1
    ensures r.methods[|L.methods|] == PaymentMethods.Create(|L.methods|, userId, billingKey, cardNumber, cardBrand, false)
    ensures forall i :: 0 <= i < |L.methods| && i != k ==> r.methods[i] == L.methods[i]
    ensures !r.methods[k].isActive && r.methods[k].(isActive := L.methods[k].isActive) == L.methods[k]
  {
    var off := DeactivateMethod(L, k);
    NoActiveMethods(off, userId);
    AppendActiveMethod(off, userId, PaymentMethods.Create(|L.methods|, userId, billingKey, cardNumber, cardBrand, false));
    AddMethod(off, userId, billingKey, cardNumber, cardBrand)
  }

  /** The user's active payment method after a purchase with `billingKey`:
      kept when it already holds that key, otherwise deactivated and
      replaced by a new method for the key. */
  function RememberMethod(L: Ledger, userId: nat, billingKey: string, cardNumber: Option<string>,
                          cardBrand: Option<string>): (r: Result<Ledger>)
    requires WellFormed(L)
    ensures r.Ok? <==> SingleResult(ActiveMethodsOf(L, userId)).Ok?
    ensures r.Err? ==> r.status == InternalServerError
    ensures r.Ok? ==>
              && WellFormed(r.value) && r.value.(methods := L.methods) == L
              && SoleActiveKey(r.value, userId, billingKey)
    ensures r.Ok? ==>
              && |L.methods| <= |r.value.methods| <= |L.methods| + 1
              && (forall i :: 0 <= i < |L.methods| ==> r.value.methods[i].(isActive := L.methods[i].isActive) == L.methods[i])
              && (forall i :: 0 <= i < |L.methods| && L.methods[i].userId != userId ==> r.value.methods[i] == L.methods[i])
    ensures SoleActiveKey(L, userId, billingKey) ==> r == Ok(L)
    ensures r.Ok? && !SoleActiveKey(L, userId, billingKey) ==>
              && |r.value.methods| == |L.methods| + 1
              && r.value.methods[|L.methods|] == PaymentMethods.Create(|L.methods|, userId, billingKey, cardNumber, cardBrand, false)
  {
    match SingleResult(ActiveMethodsOf(L, userId))
    case Err(e) => Err(e)
    case Ok(None) =>
      AppendActiveMethod(L, userId, PaymentMethods.Create(|L.methods|, userId, billingKey, cardNumber, cardBrand, false));
      Ok(AddMethod(L, userId, billingKey, cardNumber, cardBrand))
    case Ok(Some(k)) =>
      if L.methods[k].billingKey == billingKey then Ok(L)
      else
        Ok(ReplaceMethod(L, userId, k, billingKey, cardNumber, cardBrand))
  }

  /** After a successful charge with a recognized key: the rows are marked
      settled; then the user must exist, and the billing key becomes the
      user's active payment method. */
  function RecordPaid(L: Ledger, subId: nat, invId: string, payId: string, userId: nat,
                      billingKey: string, now: DateTime, info: BillingKeyInfo): (r: Step<nat>)
    requires WellFormed(L) && subId < |L.subs| && invId in L.invoices && payId in L.payments
    ensures WellFormed(r.ledger) && r.ledger.charges == L.charges
    ensures r.ledger.subs == L.subs[subId := Activate(L.subs[subId], now)]
    ensures payId in r.ledger.payments && invId in r.ledger.invoices
    ensures forall pid :: pid in L.payments && pid != payId ==> pid in r.ledger.payments && r.ledger.payments[pid] == L.payments[pid]
    ensures r.result.Ok? <==> userId < |L.users| && SingleResult(ActiveMethodsOf(L, userId)).Ok?
    ensures r.result.Ok? ==>
              && r.result.value == subId
              && r.ledger.payments[payId] == Payments.MarkAsPaid(L.payments[payId], MethodDetails(FirstMethod(info)).0, now)
              && r.ledger.invoices[invId] == Invoices.MarkAsPaid(L.invoices[invId], now)
              && SoleActiveKey(r.ledger, userId, billingKey)
    ensures r.result.Err? ==>
              && r.result.status == InternalServerError
              && r.ledger.payments[payId].status.Failed? && r.ledger.invoices[invId].status.Failed?
  {
    var details := MethodDetails(FirstMethod(info));
    var paid := MarkPurchasePaid(L, subId, invId, payId, details.0, now);
    assert forall pid :: pid in L.payments && pid != payId ==> pid in paid.payments && paid.payments[pid] == L.payments[pid];
    SettleWithUser(paid, subId, invId, payId, userId, billingKey, details.1, details.2)
  }

  /** The part of recording a settled purchase after the rows are marked:
      the user must exist and the key becomes the active method; either
      failure marks the rows FAILED again. */
  function SettleWithUser(P: Ledger, subId: nat, invId: string, payId: string, userId: nat,
                          billingKey: string, cardNumber: Option<string>, cardBrand: Option<string>): (r: Step<nat>)
    requires WellFormed(P) && invId in P.invoices && payId in P.payments
    ensures WellFormed(r.ledger) && r.ledger.charges == P.charges && r.ledger.subs == P.subs
    ensures payId in r.ledger.payments && invId in r.ledger.invoices
    ensures forall pid :: pid in P.payments && pid != payId ==> pid in r.ledger.payments && r.ledger.payments[pid] == P.payments[pid]
    ensures r.result.Ok? <==> userId < |P.users| && SingleResult(ActiveMethodsOf(P, userId)).Ok?
    ensures r.result.Ok? ==>
              && r.result.value == subId && r.ledger.payments == P.payments && r.ledger.invoices == P.invoices
              && SoleActiveKey(r.ledger, userId, billingKey)
    ensures r.result.Err? ==>
              && r.result.status == InternalServerError
              && r.ledger.payments[payId].status.Failed? && r.ledger.invoices[invId].status.Failed?
  {
    if userId >= |P.users| then FailPurchase(P, invId, payId, USER_NOT_FOUND_MESSAGE)
    else match RememberMethod(P, userId, billingKey, cardNumber, cardBrand)
      case Err(_) => FailPurchase(P, invId, payId, NON_UNIQUE_RESULT_MESSAGE)
      case Ok(r) => Step(r, Ok(subId))
  }

  /** Recording a settled purchase changes no payment's or invoice's terms. */
  lemma RecordPaidKeepsTerms(L: Ledger, subId: nat, invId: string, payId: string, userId: nat,
                             billingKey: string, now: DateTime, info: BillingKeyInfo)
    requires WellFormed(L) && subId < |L.subs| && invId in L.invoices && payId in L.payments
    ensures TermsKept(L, RecordPaid(L, subId, invId, payId, userId, billingKey, now, info).ledger)
  {
    var details := MethodDetails(FirstMethod(info));
    var paid := MarkPurchasePaid(L, subId, invId, payId, details.0, now);
    MarkPurchasePaidKeepsTerms(L, subId, invId, payId, details.0, now);
    SettleKeepsTerms(paid, subId, invId, payId, userId, billingKey, details.1, details.2);
    TermsKeptTransitive(L, paid, RecordPaid(L, subId, invId, payId, userId, billingKey, now, info).ledger);
  }

  lemma SettleKeepsTerms(P: Ledger, subId: nat, invId: string, payId: string, userId: nat,
                         billingKey: string, cardNumber: Option<string>, cardBrand: Option<string>)
    requires WellFormed(P) && invId in P.invoices && payId in P.payments
    ensures TermsKept(P, SettleWithUser(P, subId, invId, payId, userId, billingKey, cardNumber, cardBrand).ledger)
  {
    if userId >= |P.users| {
      FailPurchaseKeepsTerms(P, invId, payId, USER_NOT_FOUND_MESSAGE);
    } else if RememberMethod(P, userId, billingKey, cardNumber, cardBrand).Err? {
      FailPurchaseKeepsTerms(P, invId, payId, NON_UNIQUE_RESULT_MESSAGE);
    }
  }

  // --------------------------------------------------------------- purchase

  /** createSubscription as written. The invoice is made out in KRW whatever
      the plan's currency, and the key is charged before the lookup result is
      checked, so a charge can succeed for a payment then recorded FAILED. */
  function CreateSubscription(L: Ledger, userId: nat, planId: nat, expectedPrice: Decimal, billingKey: string,
                              now: DateTime, invUuid: string, payUuid: string,
                              keyInfo: Gateway<BillingKeyInfo>, charge: Gateway<Unit>): (r: Step<nat>)
    requires WellFormed(L)
    ensures WellFormed(r.ledger)
    ensures CheckPurchase(L, userId, planId, expectedPrice).Err? ==>
              r == Step(L, Err(CheckPurchase(L, userId, planId, expectedPrice).status))
    ensures CheckPurchase(L, userId, planId, expectedPrice).Ok? && keyInfo.Fail? ==>
              && r.result == Err(BadRequest) && Payments.PaymentId(payUuid) in r.ledger.payments
              && r.ledger.payments[Payments.PaymentId(payUuid)].status.Pending?
    ensures r.result.Ok? ==>
              && r.result.value == |L.subs| && |r.ledger.subs| == |L.subs| + 1
              && keyInfo.Done? && keyInfo.value.Recognized? && charge.Done? && userId < |L.users|
              && r.ledger.subs[|L.subs|].status.Active? && r.ledger.subs[|L.subs|].userId == userId
              && Payments.PaymentId(payUuid) in r.ledger.payments && Invoices.InvoiceId(invUuid) in r.ledger.invoices
              && r.ledger.payments[Payments.PaymentId(payUuid)].status.Paid?
              && r.ledger.invoices[Invoices.InvoiceId(invUuid)].status.Paid?
              && Payments.PaymentId(payUuid) in r.ledger.charges
    ensures r.result.Err? && CheckPurchase(L, userId, planId, expectedPrice).Ok? && keyInfo.Done? ==>
              && r.result.status == InternalServerError
              && Payments.PaymentId(payUuid) in r.ledger.payments && Invoices.InvoiceId(invUuid) in r.ledger.invoices
              && r.ledger.payments[Payments.PaymentId(payUuid)].status.Failed?
              && r.ledger.invoices[Invoices.InvoiceId(invUuid)].status.Failed?
  {
    match CheckPurchase(L, userId, planId, expectedPrice)
    case Err(e) => Step(L, Err(e))
    case Ok((plan, cancel)) =>
      var pending := OpenPurchase(L, userId, plan, cancel, now, invUuid, payUuid, KRW);
      ChargeThenCheck(pending, |L.subs|, Invoices.InvoiceId(invUuid), Payments.PaymentId(payUuid), userId, billingKey, now, keyInfo, charge)
  }

  /** The provider calls of createSubscription as written, once the PENDING
      rows exist: look the key up, charge it, and only then check the lookup's
      answer, the user and the user's active method. */
  function ChargeThenCheck(P: Ledger, subId: nat, invId: string, payId: string, userId: nat, billingKey: string,
                           now: DateTime, keyInfo: Gateway<BillingKeyInfo>, charge: Gateway<Unit>): (r: Step<nat>)
    requires WellFormed(P) && subId < |P.subs| && invId in P.invoices && payId in P.payments
    ensures WellFormed(r.ledger) && TermsKept(P, r.ledger)
    ensures keyInfo.Fail? ==> r == Step(P, Err(BadRequest))
    ensures r.result.Ok? ==>
              && r.result.value == subId && r.ledger.subs == P.subs[subId := Activate(P.subs[subId], now)]
              && keyInfo.Done? && keyInfo.value.Recognized? && charge.Done? && userId < |P.users|
              && r.ledger.payments[payId].status.Paid? && r.ledger.invoices[invId].status.Paid?
              && payId in r.ledger.charges
    ensures r.result.Err? && keyInfo.Done? ==>
              && r.result.status == InternalServerError
              && r.ledger.payments[payId].status.Failed? && r.ledger.invoices[invId].status.Failed?
  {
    match keyInfo
    case Fail => Step(P, Err(BadRequest))
    case Done(info) =>
      match charge
      case Fail =>
        FailPurchaseKeepsTerms(P, invId, payId, PAYMENT_ERROR_MESSAGE);
        FailPurchase(P, invId, payId, PAYMENT_ERROR_MESSAGE)
      case Done(_) =>
        var charged := P.(charges := P.charges + {payId});
        if !info.Recognized? then
          FailPurchaseKeepsTerms(charged, invId, payId, INVALID_BILLING_KEY_MESSAGE);
          FailPurchase(charged, invId, payId, INVALID_BILLING_KEY_MESSAGE)
        else
          RecordPaidKeepsTerms(charged, subId, invId, payId, userId, billingKey, now, info);
          RecordPaid(charged, subId, invId, payId, userId, billingKey, now, info)
  }

  /** Every payment and its invoice are in the same currency. */
  predicate CurrenciesAgree(L: Ledger) {
    forall pid :: pid in L.payments && L.payments[pid].invoiceId in L.invoices ==>
      L.payments[pid].currency == L.invoices[L.payments[pid].invoiceId].currency
  }

  /** Every payment the provider charged is recorded PAID. */
  predicate ChargesRecorded(L: Ledger) {
    forall pid :: pid in L.charges ==> pid in L.payments && L.payments[pid].status.Paid?
  }

  /** The hard-coded invoice currency: buying a USD plan leaves a KRW invoice
      whose payment is in USD. */
  lemma InvoiceCurrencyHardCoded(L: Ledger, userId: nat, planId: nat, expectedPrice: Decimal, billingKey: string,
                                 now: DateTime, invUuid: string, payUuid: string,
                                 keyInfo: Gateway<BillingKeyInfo>, charge: Gateway<Unit>)
    requires WellFormed(L)
    requires CheckPurchase(L, userId, planId, expectedPrice).Ok?
    requires CheckPurchase(L, userId, planId, expectedPrice).value.0.currency == USD
    ensures !CurrenciesAgree(CreateSubscription(L, userId, planId, expectedPrice, billingKey, now, invUuid, payUuid, keyInfo, charge).ledger)
  {
    var (plan, cancel) := CheckPurchase(L, userId, planId, expectedPrice).value;
    var pending := OpenPurchase(L, userId, plan, cancel, now, invUuid, payUuid, KRW);
    var r := CreateSubscription(L, userId, planId, expectedPrice, billingKey, now, invUuid, payUuid, keyInfo, charge).ledger;
    var payId := Payments.PaymentId(payUuid);
    var invId := Invoices.InvoiceId(invUuid);
    assert Payments.SameTerms(pending.payments[payId], r.payments[payId]);
    assert Invoices.SameTerms(pending.invoices[invId], r.invoices[invId]);
  }

  /** Charging before checking the key: a charge that succeeds for a key the
      lookup did not recognize is recorded as a FAILED payment. */
  lemma ChargedButRecordedFailed(L: Ledger, userId: nat, planId: nat, expectedPrice: Decimal, billingKey: string,
                                 now: DateTime, invUuid: string, payUuid: string)
    requires WellFormed(L) && ChargesRecorded(L)
    requires CheckPurchase(L, userId, planId, expectedPrice).Ok?
    ensures var r := CreateSubscription(L, userId, planId, expectedPrice, billingKey, now, invUuid, payUuid,
                                        Done(NotRecognized), Done(Unit));
            r.result.Err? && !ChargesRecorded(r.ledger)
  {
    var r := CreateSubscription(L, userId, planId, expectedPrice, billingKey, now, invUuid, payUuid,
                                Done(NotRecognized), Done(Unit));
    var payId := Payments.PaymentId(payUuid);
    assert payId in r.ledger.charges && r.ledger.payments[payId].status.Failed?;
  }

  /** createSubscription as intended: the invoice is in the plan's currency,
      and the billing key, the user and the user's active payment method are
      all checked before the key is charged, so nothing can fail once the
      money has moved. */
  function CreateSubscriptionCorrected(L: Ledger, userId: nat, planId: nat, expectedPrice: Decimal, billingKey: string,
                                       now: DateTime, invUuid: string, payUuid: string,
                                       keyInfo: Gateway<BillingKeyInfo>, charge: Gateway<Unit>): (r: Step<nat>)
    requires WellFormed(L)
    ensures WellFormed(r.ledger)
    ensures CheckPurchase(L, userId, planId, expectedPrice).Err? ==>
              r == Step(L, Err(CheckPurchase(L, userId, planId, expectedPrice).status))
    ensures r.result.Ok? ==>
              && r.result.value == |L.subs| && |r.ledger.subs| == |L.subs| + 1
              && r.ledger.subs[|L.subs|].status.Active? && r.ledger.subs[|L.subs|].userId == userId
              && Payments.PaymentId(payUuid) in r.ledger.payments && Invoices.InvoiceId(invUuid) in r.ledger.invoices
              && r.ledger.payments[Payments.PaymentId(payUuid)].status.Paid?
    ensures r.ledger.charges == L.charges || (r.ledger.charges == L.charges + {Payments.PaymentId(payUuid)} && r.result.Ok?)
    ensures forall pid :: pid in L.payments && pid != Payments.PaymentId(payUuid) ==>
              pid in r.ledger.payments && r.ledger.payments[pid] == L.payments[pid]
  {
    match CheckPurchase(L, userId, planId, expectedPrice)
    case Err(e) => Step(L, Err(e))
    case Ok((plan, cancel)) =>
      var pending := OpenPurchase(L, userId, plan, cancel, now, invUuid, payUuid, plan.currency);
      CheckThenCharge(pending, |L.subs|, Invoices.InvoiceId(invUuid), Payments.PaymentId(payUuid), userId, billingKey, now, keyInfo, charge)
  }

  /** The provider calls as intended, once the PENDING rows exist: every
      check is made before the key is charged. */
  function CheckThenCharge(P: Ledger, subId: nat, invId: string, payId: string, userId: nat, billingKey: string,
                           now: DateTime, keyInfo: Gateway<BillingKeyInfo>, charge: Gateway<Unit>): (r: Step<nat>)
    requires WellFormed(P) && subId < |P.subs| && invId in P.invoices && payId in P.payments
    ensures WellFormed(r.ledger) && TermsKept(P, r.ledger)
    ensures r.result.Ok? ==>
              && r.result.value == subId && r.ledger.subs == P.subs[subId := Activate(P.subs[subId], now)]
              && r.ledger.payments[payId].status.Paid?
    ensures r.ledger.charges == P.charges || (r.ledger.charges == P.charges + {payId} && r.result.Ok?)
    ensures forall pid :: pid in P.payments && pid != payId ==> r.ledger.payments[pid] == P.payments[pid]
  {
    match keyInfo
    case Fail => Step(P, Err(BadRequest))
    case Done(info) =>
      if !info.Recognized? then Step(P, Err(BadRequest))
      else if userId >= |P.users| then Step(P, Err(ResourceNotFound))
      else if SingleResult(ActiveMethodsOf(P, userId)).Err? then Step(P, Err(InternalServerError))
      else match charge
        case Fail =>
          FailPurchaseKeepsTerms(P, invId, payId, PAYMENT_ERROR_MESSAGE);
          FailPurchase(P, invId, payId, PAYMENT_ERROR_MESSAGE)
        case Done(_) =>
          var charged := P.(charges := P.charges + {payId});
          RecordPaidKeepsTerms(charged, subId, invId, payId, userId, billingKey, now, info);
          RecordPaid(charged, subId, invId, payId, userId, billingKey, now, info)
  }

  /** The intended purchase keeps every charged payment recorded PAID. */
  lemma CorrectedKeepsChargesRecorded(L: Ledger, userId: nat, planId: nat, expectedPrice: Decimal, billingKey: string,
                                      now: DateTime, invUuid: string, payUuid: string,
                                      keyInfo: Gateway<BillingKeyInfo>, charge: Gateway<Unit>)
    requires WellFormed(L) && ChargesRecorded(L)
    requires Payments.PaymentId(payUuid) !in L.payments
    ensures ChargesRecorded(CreateSubscriptionCorrected(L, userId, planId, expectedPrice, billingKey, now, invUuid, payUuid, keyInfo, charge).ledger)
  {
    var r := CreateSubscriptionCorrected(L, userId, planId, expectedPrice, billingKey, now, invUuid, payUuid, keyInfo, charge);
    var payId := Payments.PaymentId(payUuid);
    forall pid | pid in r.ledger.charges
      ensures pid in r.ledger.payments && r.ledger.payments[pid].status.Paid?
    {
      if pid in L.charges {
        assert pid in L.payments && pid != payId;
      }
    }
  }

  lemma TermsKeptKeepsCurrencies(A: Ledger, B: Ledger)
    requires TermsKept(A, B) && CurrenciesAgree(A)
    ensures CurrenciesAgree(B)
  {
    forall pid | pid in B.payments && B.payments[pid].invoiceId in B.invoices
      ensures B.payments[pid].currency == B.invoices[B.payments[pid].invoiceId].currency
    {
      assert Payments.SameTerms(A.payments[pid], B.payments[pid]);
      var iid := A.payments[pid].invoiceId;
      assert Invoices.SameTerms(A.invoices[iid], B.invoices[iid]);
    }
  }

  /** The intended purchase keeps every payment in its invoice's currency,
      given a fresh invoice UUID. */
  lemma CorrectedKeepsCurrenciesAgree(L: Ledger, userId: nat, planId: nat, expectedPrice: Decimal, billingKey: string,
                                      now: DateTime, invUuid: string, payUuid: string,
                                      keyInfo: Gateway<BillingKeyInfo>, charge: Gateway<Unit>)
    requires WellFormed(L) && CurrenciesAgree(L)
    requires Invoices.InvoiceId(invUuid) !in L.invoices
    ensures CurrenciesAgree(CreateSubscriptionCorrected(L, userId, planId, expectedPrice, billingKey, now, invUuid, payUuid, keyInfo, charge).ledger)
  {
    match CheckPurchase(L, userId, planId, expectedPrice)
    case Err(_) =>
    case Ok((plan, cancel)) =>
      var pending := OpenPurchase(L, userId, plan, cancel, now, invUuid, payUuid, plan.currency);
      var invId := Invoices.InvoiceId(invUuid);
      var payId := Payments.PaymentId(payUuid);
      forall pid | pid in pending.payments && pending.payments[pid].invoiceId in pending.invoices
        ensures pending.payments[pid].currency == pending.invoices[pending.payments[pid].invoiceId].currency
      {
        if pid != payId {
          assert L.payments[pid].invoiceId in L.invoices;
          assert L.payments[pid].invoiceId != invId;
        }
      }
      TermsKeptKeepsCurrencies(pending, CheckThenCharge(pending, |L.subs|, invId, payId, userId, billingKey, now, keyInfo, charge).ledger);
  }

  /** A successful purchase leaves the new subscription as the user's only
      ACTIVE one: the free subscription it replaces is canceled. */
  lemma PurchaseLeavesSingleActive(L: Ledger, userId: nat, planId: nat, expectedPrice: Decimal, billingKey: string,
                                   now: DateTime, invUuid: string, payUuid: string,
                                   keyInfo: Gateway<BillingKeyInfo>, charge: Gateway<Unit>)
    requires WellFormed(L)
    ensures var r := CreateSubscription(L, userId, planId, expectedPrice, billingKey, now, invUuid, payUuid, keyInfo, charge);
            r.result.Ok? ==>
              forall i :: 0 <= i < |r.ledger.subs| && r.ledger.subs[i].userId == userId && r.ledger.subs[i].status.Active? ==>
                i == |L.subs|
  {
    var r := CreateSubscription(L, userId, planId, expectedPrice, billingKey, now, invUuid, payUuid, keyInfo, charge);
    if r.result.Ok? {
      var pending := PurchaseOpened(L, userId, planId, expectedPrice, billingKey, now, invUuid, payUuid, keyInfo, charge);
      assert r.ledger.subs == pending.subs[|L.subs| := Activate(pending.subs[|L.subs|], now)];
      ActivatingNewestLeavesItAlone(pending.subs, userId, now);
    }
  }

  /** A purchase that went through passed its checks, wrote the PENDING rows
      with none of the user's older subscriptions left ACTIVE, and then
      activated the new one. */
  lemma PurchaseOpened(L: Ledger, userId: nat, planId: nat, expectedPrice: Decimal, billingKey: string,
                       now: DateTime, invUuid: string, payUuid: string,
                       keyInfo: Gateway<BillingKeyInfo>, charge: Gateway<Unit>) returns (pending: Ledger)
    requires WellFormed(L)
    requires CreateSubscription(L, userId, planId, expectedPrice, billingKey, now, invUuid, payUuid, keyInfo, charge).result.Ok?
    ensures |pending.subs| == |L.subs| + 1
    ensures forall i :: 0 <= i < |L.subs| ==> !(pending.subs[i].userId == userId && pending.subs[i].status.Active?)
    ensures CreateSubscription(L, userId, planId, expectedPrice, billingKey, now, invUuid, payUuid, keyInfo, charge).ledger.subs
              == pending.subs[|L.subs| := Activate(pending.subs[|L.subs|], now)]
  {
    var (plan, cancel) := CheckPurchase(L, userId, planId, expectedPrice).value;
    pending := OpenPurchase(L, userId, plan, cancel, now, invUuid, payUuid, KRW);
    OpenPurchaseCancelsActive(L, userId, planId, expectedPrice, now, invUuid, payUuid, KRW);
    var c := ChargeThenCheck(pending, |L.subs|, Invoices.InvoiceId(invUuid), Payments.PaymentId(payUuid),
                             userId, billingKey, now, keyInfo, charge);
    assert CreateSubscription(L, userId, planId, expectedPrice, billingKey, now, invUuid, payUuid, keyInfo, charge) == c;
  }

  /** Activating the newest subscription when none of the user's older ones
      is ACTIVE leaves it the user's only ACTIVE subscription. */
  lemma ActivatingNewestLeavesItAlone(subs: seq<Subscription>, userId: nat, now: DateTime)
    requires |subs| > 0
    requires forall i :: 0 <= i < |subs| - 1 ==> !(subs[i].userId == userId && subs[i].status.Active?)
    ensures var a := subs[|subs| - 1 := Activate(subs[|subs| - 1], now)];
            forall i :: 0 <= i < |a| && a[i].userId == userId && a[i].status.Active? ==> i == |subs| - 1
  {
  }

  /** Once the PENDING rows are written, none of the user's older
      subscriptions is ACTIVE. */
  lemma OpenPurchaseCancelsActive(L: Ledger, userId: nat, planId: nat, expectedPrice: Decimal, now: DateTime,
                                  invUuid: string, payUuid: string, invoiceCurrency: Currency)
    requires WellFormed(L) && CheckPurchase(L, userId, planId, expectedPrice).Ok?
    ensures var (plan, cancel) := CheckPurchase(L, userId, planId, expectedPrice).value;
            var pending := OpenPurchase(L, userId, plan, cancel, now, invUuid, payUuid, invoiceCurrency);
            forall i :: 0 <= i < |L.subs| ==> !(pending.subs[i].userId == userId && pending.subs[i].status.Active?)
  {
  }

  // ---------------------------------------------------------- cancel, grant

  /** cancelSubscription: the subscription must exist (RESOURCE_NOT_FOUND),
      belong to the caller (FORBIDDEN) and be ACTIVE (BAD_REQUEST), checked
      in that order. Cancellation does not touch the provider's schedule. */
  function CancelSubscription(L: Ledger, userId: nat, subId: nat, now: DateTime): (r: Step<Subscription>)
    requires WellFormed(L)
    ensures WellFormed(r.ledger)
    ensures subId >= |L.subs| ==> r == Step(L, Err(ResourceNotFound))
    ensures subId < |L.subs| && L.subs[subId].userId != userId ==> r == Step(L, Err(Forbidden))
    ensures subId < |L.subs| && L.subs[subId].userId == userId && !L.subs[subId].status.Active? ==>
              r == Step(L, Err(BadRequest))
    ensures r.result.Ok? <==> subId < |L.subs| && L.subs[subId].userId == userId && L.subs[subId].status.Active?
    ensures r.result.Ok? ==>
              && r.result.value.status.Canceled? && r.result.value.canceledAt == Some(now)
              && r.result.value.scheduleId == L.subs[subId].scheduleId
              && r.ledger == L.(subs := L.subs[subId := r.result.value])
  {
    if subId >= |L.subs| then Step(L, Err(ResourceNotFound))
    else if L.subs[subId].userId != userId then Step(L, Err(Forbidden))
    else if !IsActive(L.subs[subId]) then Step(L, Err(BadRequest))
    else
      var canceled := Cancel(L.subs[subId], now);
      PutSubscriptionPreserves(L, canceled);
      Step(L.(subs := L.subs[subId := canceled]), Ok(canceled))
  }

  /** The catalog's lifetime plans. */
  function LifetimePlans(L: Ledger): (r: seq<nat>)
    ensures forall k :: 0 <= k < |r| ==> r[k] < |L.plans| && L.plans[r[k]].billingCycle == Lifetime
    ensures forall i :: 0 <= i < |L.plans| && L.plans[i].billingCycle == Lifetime ==> i in r
  {
    Where(L.plans, (p: SubscriptionPlan) => p.billingCycle == Lifetime)
  }

  /** assignFreePlan: a new user gets an ACTIVE subscription to the lifetime
      plan, when the catalog has one; several lifetime plans make the lookup
      fail. */
  function AssignFreePlan(L: Ledger, userId: nat, now: DateTime): (r: Step<Unit>)
    requires WellFormed(L)
    ensures WellFormed(r.ledger)
    ensures r.result.Ok? <==> |LifetimePlans(L)| <= 1
    ensures r.result.Err? ==> r == Step(L, Err(InternalServerError))
    ensures |LifetimePlans(L)| == 0 ==> r == Step(L, Ok(Unit))
    ensures |LifetimePlans(L)| == 1 ==>
              && r.ledger == L.(subs := r.ledger.subs)
              && |r.ledger.subs| == |L.subs| + 1 && r.ledger.subs[..|L.subs|] == L.subs
              && var s := r.ledger.subs[|L.subs|];
                 s.userId == userId && s.status.Active? && IsLifetime(s.plan) && s.plan in L.plans
                 && s.currentPeriodStart == Some(now) && s.currentPeriodEnd.None?
  {
    match SingleResult(LifetimePlans(L))
    case Err(e) => Step(L, Err(e))
    case Ok(None) => Step(L, Ok(Unit))
    case Ok(Some(k)) =>
      var s := Activate(Subscriptions.Create(|L.subs|, userId, L.plans[k]), now);
      Step(L.(subs := L.subs + [s]), Ok(Unit))
  }
}

=== FILE: time.dfy ===
/** Calendar arithmetic used by the billing periods.

    A `LocalDateTime` is a proleptic-Gregorian date with a second of the day,
    and `PlusMonths`/`PlusYears` follow the Java calendar: the month (or year)
    advances by one and a day that does not exist in the target month is
    clamped to that month's last day (31 January plus a month is 28 or 29
    February; 29 February plus a year is 28 February).

    An `Instant` is a count of seconds on the UTC time line; a `LocalDate`
    is a count of days since the epoch. */
module Time {

  type Instant = int
  type LocalDate = int

  const SECONDS_PER_DAY: int := 86400

  datatype LocalDateTime = LocalDateTime(year: int, month: int, day: int, second: int)

  predicate IsLeap(y: int) {
    (y % 4 == 0 && y % 100 != 0) || y % 400 == 0
  }

  function DaysInMonth(y: int, m: int): (n: int)
    requires 1 <= m <= 12
    ensures 28 <= n <= 31
  {
    if m == 2 then (if IsLeap(y) then 29 else 28)
    else if m == 4 || m == 6 || m == 9 || m == 11 then 30
    else 31
  }

  /** A real calendar moment: month 1..12, a day that exists in that month,
      a second within the day. */
  predicate Valid(t: LocalDateTime) {
    && 1 <= t.month <= 12
    && 1 <= t.day <= DaysInMonth(t.year, t.month)
    && 0 <= t.second < SECONDS_PER_DAY
  }

  /** A calendar moment that exists; every clock reading is one. */
  type DateTime = t: LocalDateTime | Valid(t) witness LocalDateTime(1970, 1, 1, 0)

  /** Strict chronological order of two moments (lexicographic on the fields). */
  predicate Before(a: LocalDateTime, b: LocalDateTime) {
    || a.year < b.year
    || (a.year == b.year && a.month < b.month)
    || (a.year == b.year && a.month == b.month && a.day < b.day)
    || (a.year == b.year && a.month == b.month && a.day == b.day && a.second < b.second)
  }

  predicate NotAfter(a: LocalDateTime, b: LocalDateTime) {
    Before(a, b) || a == b
  }

  function Min(a: int, b: int): int {
    if a <= b then a else b
  }

  /** `plusMonths(1)`: the same day and time one month later, clamped. */
  function PlusMonths(t: DateTime): (r: DateTime)
    ensures Before(t, r)
    ensures t.month == 12 ==> r.year == t.year + 1 && r.month == 1
    ensures t.month < 12 ==> r.year == t.year && r.month == t.month + 1
    ensures r.day == Min(t.day, DaysInMonth(r.year, r.month))
    ensures r.second == t.second
  {
    if t.month == 12 then LocalDateTime(t.year + 1, 1, t.day, t.second)
    else LocalDateTime(t.year, t.month + 1, Min(t.day, DaysInMonth(t.year, t.month + 1)), t.second)
  }

  /** `plusYears(1)`: the same month, day and time one year later, clamped. */
  function PlusYears(t: DateTime): (r: DateTime)
    ensures Before(t, r)
    ensures r.year == t.year + 1 && r.month == t.month && r.second == t.second
    ensures r.day == Min(t.day, DaysInMonth(t.year + 1, t.month))
  {
    LocalDateTime(t.year + 1, t.month, Min(t.day, DaysInMonth(t.year + 1, t.month)), t.second)
  }

  /** `atStartOfDay(UTC)` of a date. */
  function StartOfDay(d: LocalDate): (r: Instant)
    ensures r % SECONDS_PER_DAY == 0 && r / SECONDS_PER_DAY == d
  {
    d * SECONDS_PER_DAY
  }
}

=== FILE: webhook.dfy ===
/** The webhook reconciler: the provider's asynchronous reports of paid,
    failed and canceled payments, applied to the ledger.

    Signature verification, the provider's payment lookup and the schedule
    step that follows a first or renewal payment are inputs: `verified` is
    the parsed webhook, or `None` when verification fails; `lookup` is the
    provider's view of the payment; `schedule` is the outcome of creating
    the next schedule (its id). */
module Webhooks {
  import opened Common
  import opened Time
  import opened Plans
  import opened Subscriptions
  import Invoices
  import Payments
  import opened Ledgers
  import opened Provider

  /** The failure reason recorded when the provider gives none. */
  const DEFAULT_FAIL_REASON: string := "실패 메세지"

  datatype Webhook =
    | TransactionPaid(paymentId: string)
    | TransactionFailed(paymentId: string)
    | TransactionCancelled(paymentId: string)
    | OtherWebhook

  /** Apart from the payment, its invoice and its subscription, and the
      provider's schedules, nothing changes. */
  predicate OnlyPaymentChain(L: Ledger, L': Ledger, pid: string)
    requires WellFormed(L) && pid in L.payments
  {
    var invId := L.payments[pid].invoiceId;
    var subId := SubscriptionOf(L, pid);
    && L'.plans == L.plans && L'.users == L.users && L'.methods == L.methods && L'.charges == L.charges
    && pid in L'.payments && L'.payments == L.payments[pid := L'.payments[pid]]
    && Payments.SameTerms(L.payments[pid], L'.payments[pid])
    && invId in L'.invoices && L'.invoices == L.invoices[invId := L'.invoices[invId]]
    && Invoices.SameTerms(L.invoices[invId], L'.invoices[invId])
    && |L'.subs| == |L.subs| && L'.subs == L.subs[subId := L'.subs[subId]]
  }

  // ------------------------------------------------------------------- paid

  /** The subscription after its payment is confirmed: a PENDING one is
      activated (first payment) and an ACTIVE one has its period extended
      (renewal), each followed by scheduling the next charge; if that fails
      the subscription is PAST_DUE. A subscription that already has a
      schedule, or is in any other status, is left alone. */
  function AdvanceAfterPaid(s: Subscription, schedule: Gateway<string>, now: DateTime): (r: Subscription)
    ensures Wf(s) ==> Wf(r)
    ensures r.id == s.id && r.userId == s.userId && r.plan == s.plan
    ensures s.scheduleId.Some? || !(s.status.Pending? || s.status.Active?) ==> r == s
    ensures s.scheduleId.None? && (s.status.Pending? || s.status.Active?) ==>
              && (schedule.Done? ==>
                    && r.status.Active? && r.scheduleId == Some(schedule.value)
                    && r.currentPeriodStart == Some(now)
                    && r.currentPeriodEnd == PeriodEnd(s.plan.billingCycle, now))
              && (schedule.Fail? ==> r.status.PastDue? && r.scheduleId.None?)
    ensures s.scheduleId.None? && s.status.Pending? ==> r.startedAt == Some(now)
    ensures s.scheduleId.None? && s.status.Active? ==> r.startedAt == s.startedAt
    ensures s.scheduleId.None? && s.status.Active? && schedule.Fail? ==>
              r.currentPeriodStart == s.currentPeriodStart && r.currentPeriodEnd == s.currentPeriodEnd
  {
    if s.scheduleId.Some? then s
    else if s.status.Pending? then
      var activated := Activate(s, now);
      match schedule
      case Done(id) => SetScheduleId(activated, Some(id))
      case Fail => MarkAsPastDue(activated)
    else if IsActive(s) && !IsCanceled(s) then
      match schedule
      case Done(id) => SetScheduleId(ExtendPeriod(s, now), Some(id))
      case Fail => MarkAsPastDue(s)
    else s
  }

  /** The handler acts only on a known, not yet PAID payment that the
      provider reports paid with a billing key. */
  predicate SettlesPaid(L: Ledger, pid: string, lookup: Gateway<ProviderPayment>) {
    && pid in L.payments && !L.payments[pid].status.Paid?
    && lookup.Done? && lookup.value.PaidPayment? && lookup.value.billingKey.Some?
  }

  /** Transaction.Paid. */
  function HandlePaid(L: Ledger, pid: string, lookup: Gateway<ProviderPayment>, schedule: Gateway<string>,
                      now: DateTime): (r: Step<Unit>)
    requires WellFormed(L)
    ensures WellFormed(r.ledger)
    ensures pid !in L.payments || L.payments[pid].status.Paid? ==> r == Step(L, Ok(Unit))
    ensures pid in L.payments && !L.payments[pid].status.Paid? && lookup.Fail? ==> r == Step(L, Err(InternalServerError))
    ensures !SettlesPaid(L, pid, lookup) ==> r.ledger == L
    ensures r.result.Err? <==> pid in L.payments && !L.payments[pid].status.Paid? && lookup.Fail?
    ensures SettlesPaid(L, pid, lookup) ==>
              var invId := L.payments[pid].invoiceId;
              var subId := SubscriptionOf(L, pid);
              && OnlyPaymentChain(L, r.ledger, pid)
              && r.ledger.payments[pid].status.Paid? && r.ledger.payments[pid].paidAt == Some(now)
              && r.ledger.payments[pid].methodType == Some(Payments.MethodTypeFrom(lookup.value.paidWith))
              && r.ledger.invoices[invId].status.Paid? && r.ledger.invoices[invId].paidAt == Some(now)
              && r.ledger.subs[subId] == AdvanceAfterPaid(L.subs[subId], schedule, now)
              && r.ledger.schedules == L.schedules + (if r.ledger.subs[subId].scheduleId != L.subs[subId].scheduleId
                                                       then {schedule.value} else {})
  {
    if pid !in L.payments || L.payments[pid].status.Paid? then Step(L, Ok(Unit))
    else match lookup
      case Fail => Step(L, Err(InternalServerError))
      case Done(info) =>
        if !info.PaidPayment? || info.billingKey.None? then Step(L, Ok(Unit))
        else
          var p := L.payments[pid];
          var invId := p.invoiceId;
          var subId := SubscriptionOf(L, pid);
          var sub := L.subs[subId];
          var sub' := AdvanceAfterPaid(sub, schedule, now);
          PutSubscriptionPreserves(L, sub');
          var scheduled := if sub'.scheduleId != sub.scheduleId then {schedule.value} else {};
          Step(L.(payments := L.payments[pid := Payments.MarkAsPaid(p, Payments.MethodTypeFrom(info.paidWith), now)],
                  invoices := L.invoices[invId := Invoices.MarkAsPaid(L.invoices[invId], now)],
                  subs := L.subs[subId := sub'],
                  schedules := L.schedules + scheduled),
               Ok(Unit))
  }

  /** Redelivery: once a paid webhook has been applied, any further paid
      webhook for the same payment changes nothing. */
  lemma PaidIsIdempotent(L: Ledger, pid: string, lookup: Gateway<ProviderPayment>, schedule: Gateway<string>,
                         now: DateTime, lookup2: Gateway<ProviderPayment>, schedule2: Gateway<string>, now2: DateTime)
    requires WellFormed(L) && SettlesPaid(L, pid, lookup)
    ensures var r := HandlePaid(L, pid, lookup, schedule, now);
            HandlePaid(r.ledger, pid, lookup2, schedule2, now2) == Step(r.ledger, Ok(Unit))
  {
  }

  /** A first payment confirmed by webhook leaves the subscription ACTIVE
      with its next charge scheduled, or PAST_DUE; never PENDING. */
  lemma FirstPaymentLeavesNoPending(L: Ledger, pid: string, lookup: Gateway<ProviderPayment>,
                                    schedule: Gateway<string>, now: DateTime)
    requires WellFormed(L) && SettlesPaid(L, pid, lookup)
    requires L.subs[SubscriptionOf(L, pid)].status.Pending? && L.subs[SubscriptionOf(L, pid)].scheduleId.None?
    ensures var s := HandlePaid(L, pid, lookup, schedule, now).ledger.subs[SubscriptionOf(L, pid)];
            (s.status.Active? && s.scheduleId.Some?) || s.status.PastDue?
  {
  }

  // ----------------------------------------------------------------- failed

  /** The failure reason: the provider's reason, else its PG message, else
      the default text. */
  function FailReason(info: ProviderPayment): (r: string)
    ensures info.FailedPayment? && info.reason.Some? ==> r == info.reason.value
    ensures info.FailedPayment? && info.reason.None? && info.pgMessage.Some? ==> r == info.pgMessage.value
    ensures !(info.FailedPayment? && (info.reason.Some? || info.pgMessage.Some?)) ==> r == DEFAULT_FAIL_REASON
  {
    match info
    case FailedPayment(reason, pgMessage) =>
      if reason.Some? then reason.value else if pgMessage.Some? then pgMessage.value else DEFAULT_FAIL_REASON
    case _ => DEFAULT_FAIL_REASON
  }

  /** Transaction.Failed: payment and invoice FAILED with the provider's
      reason; an ACTIVE subscription becomes PAST_DUE. */
  function HandleFailed(L: Ledger, pid: string, lookup: Gateway<ProviderPayment>): (r: Step<Unit>)
    requires WellFormed(L)
    ensures WellFormed(r.ledger)
    ensures pid !in L.payments || L.payments[pid].status.Failed? ==> r == Step(L, Ok(Unit))
    ensures r.result.Err? <==> pid in L.payments && !L.payments[pid].status.Failed? && lookup.Fail?
    ensures r.result.Err? ==> r == Step(L, Err(InternalServerError))
    ensures pid in L.payments && !L.payments[pid].status.Failed? && lookup.Done? ==>
              var invId := L.payments[pid].invoiceId;
              var subId := SubscriptionOf(L, pid);
              && OnlyPaymentChain(L, r.ledger, pid) && r.ledger.schedules == L.schedules
              && r.ledger.payments[pid].status.Failed?
              && r.ledger.payments[pid].failedReason == Some(FailReason(lookup.value))
              && r.ledger.invoices[invId].status.Failed?
              && (L.subs[subId].status.Active? ==> r.ledger.subs[subId] == MarkAsPastDue(L.subs[subId]))
              && (!L.subs[subId].status.Active? ==> r.ledger.subs[subId] == L.subs[subId])
  {
    if pid !in L.payments || L.payments[pid].status.Failed? then Step(L, Ok(Unit))
    else match lookup
      case Fail => Step(L, Err(InternalServerError))
      case Done(info) =>
        var p := L.payments[pid];
        var invId := p.invoiceId;
        var subId := SubscriptionOf(L, pid);
        var sub := L.subs[subId];
        var sub' := if IsActive(sub) then MarkAsPastDue(sub) else sub;
        PutSubscriptionPreserves(L, sub');
        Step(L.(payments := L.payments[pid := Payments.MarkAsFailed(p, Some(FailReason(info)))],
                invoices := L.invoices[invId := Invoices.MarkAsFailed(L.invoices[invId])],
                subs := L.subs[subId := sub']),
             Ok(Unit))
  }

  /** A renewal failure moves an ACTIVE subscription to PAST_DUE exactly
      once: a redelivered failure webhook changes nothing. */
  lemma FailedIsIdempotent(L: Ledger, pid: string, lookup: Gateway<ProviderPayment>, lookup2: Gateway<ProviderPayment>)
    requires WellFormed(L) && pid in L.payments && lookup.Done?
    ensures var r := HandleFailed(L, pid, lookup);
            HandleFailed(r.ledger, pid, lookup2) == Step(r.ledger, Ok(Unit))
  {
  }

  // --------------------------------------------------------------- canceled

  /** Transaction.Cancelled: payment CANCELED and its subscription canceled
      now; the provider's schedule is not revoked. */
  function HandleCanceled(L: Ledger, pid: string, now: DateTime): (r: Step<Unit>)
    requires WellFormed(L)
    ensures WellFormed(r.ledger) && r.result == Ok(Unit)
    ensures pid !in L.payments || L.payments[pid].status.Canceled? ==> r.ledger == L
    ensures pid in L.payments && !L.payments[pid].status.Canceled? ==>
              var subId := SubscriptionOf(L, pid);
              && OnlyPaymentChain(L, r.ledger, pid) && r.ledger.schedules == L.schedules
              && r.ledger.invoices == L.invoices
              && r.ledger.payments[pid] == Payments.Cancel(L.payments[pid])
              && r.ledger.subs[subId].status.Canceled? && r.ledger.subs[subId].canceledAt == Some(now)
              && r.ledger.subs[subId].scheduleId == L.subs[subId].scheduleId
  {
    if pid !in L.payments || L.payments[pid].status.Canceled? then Step(L, Ok(Unit))
    else
      var subId := SubscriptionOf(L, pid);
      var sub' := Cancel(L.subs[subId], now);
      PutSubscriptionPreserves(L, sub');
      Step(L.(payments := L.payments[pid := Payments.Cancel(L.payments[pid])],
              subs := L.subs[subId := sub']),
           Ok(Unit))
  }

  lemma CanceledIsIdempotent(L: Ledger, pid: string, now: DateTime, now2: DateTime)
    requires WellFormed(L)
    ensures var r := HandleCanceled(L, pid, now);
            HandleCanceled(r.ledger, pid, now2) == Step(r.ledger, Ok(Unit))
  {
  }

  // --------------------------------------------------------------- dispatch

  /** processWebhook: an unverifiable webhook is rejected with BAD_REQUEST
      and changes nothing; the three transaction webhooks go to their
      handlers; any other webhook is ignored. */
  function ProcessWebhook(L: Ledger, verified: Option<Webhook>, lookup: Gateway<ProviderPayment>,
                          schedule: Gateway<string>, now: DateTime): (r: Step<Unit>)
    requires WellFormed(L)
    ensures WellFormed(r.ledger)
    ensures verified.None? ==> r == Step(L, Err(BadRequest))
    ensures verified == Some(OtherWebhook) ==> r == Step(L, Ok(Unit))
    ensures verified.Some? && verified.value.TransactionPaid? ==>
              r == HandlePaid(L, verified.value.paymentId, lookup, schedule, now)
    ensures verified.Some? && verified.value.TransactionFailed? ==>
              r == HandleFailed(L, verified.value.paymentId, lookup)
    ensures verified.Some? && verified.value.TransactionCancelled? ==>
              r == HandleCanceled(L, verified.value.paymentId, now)
    ensures r.result.Err? ==> r.ledger == L
  {
    match verified
    case None => Step(L, Err(BadRequest))
    case Some(TransactionPaid(pid)) => HandlePaid(L, pid, lookup, schedule, now)
    case Some(TransactionFailed(pid)) => HandleFailed(L, pid, lookup)
    case Some(TransactionCancelled(pid)) => HandleCanceled(L, pid, now)
    case Some(OtherWebhook) => Step(L, Ok(Unit))
  }
}
